=== FILE: README.md ===
# bbdock in Dafny

bbdock is a small X11 dock applet. Each entry of its configuration becomes a
*tile* (a `Slot`). A tile shows an icon over the grabbed background of its
window. A left click launches the icon's command. While the launched program
settles, the icon fades in from a grey ghost. While the program runs, a mark
stencil is XOR-ed onto the tile. Tiles can also iconify, lower or close the
program's windows, which are found by wildcard patterns over window titles.

This project models the logic of that core as pure functions over immutable
records, and proves properties of it. Everything X11, `fork`/`waitpid` or
libpng would answer becomes a parameter. The modules are:

- `Base`: options and results, C strings, ASCII case folding, `strcasecmp`
  and `atoi`.
- `Effects`: what the program asks of the outside world, such as blits,
  window requests, spawning a command or waiting.
- `Pattern`: the window-title matcher `matchesPattern`. It comes with a
  plain glob reference, so the lemmas can say where the two agree and where
  they differ.
- `WindowManager`: properties, the client list, the pattern-to-window
  cache, window lookup and `activateWindow`.
- `Render`: surface geometry, the pixel operations `opaque` and `ghosted`
  at 16, 24 and 32 bits per pixel, the mark stencils, `getOffset` and
  `activeMark`.
- `RenderFindings`: concrete surfaces on which the source's `activeMark`
  differs from the stencil it is meant to draw, or writes past the surface.
- `Icons`: `Icon`, that is `expand`, `tokenize`, `setTitle` and the idle
  presets.
- `Settings`: `Dock::Settings` and its defaults.
- `Slots`: the tile state machine. Its state is `pid`, `fading` and
  `invalid`, changed by `exec`, `tick`, `draw` and the window actions.
- `Config`: the configuration record parser `add`, the `-m`/`-r`/`-l`
  options and the rc file name from `main.cc`.
- `Docks`: the tile list (newest first), start-up, the event dispatch of
  `run`, the click handling and the remote `changeIcon`/`executeIcon`
  messages.

Pixel buffers are `seq<byte>`, with 16-bit words stored little-endian.
Blending is modelled over exact integers, as described under "Left out".

## Model

| member | source | states |
|---|---|---|
| Base.ToUnsigned32 | src/main.cc:102-103 | the cast of `atoi`'s result to `unsigned int`: values in range are kept and negative values wrap by 2^32 |
| Pattern.Matches | src/WindowManager.cc:273-372 | `matchesPattern` as written: the empty pattern matches only the empty title, `?` needs one more character, a literal character must agree exactly or after ASCII folding, and `*` hands over to the star branch; what it accepts is stated by the lemmas below |
| Pattern.MatchesAfterStars | src/WindowManager.cc:280-333 | the `*` branch after the leading `*` and `?` are skipped: nothing left matches any rest of the title; otherwise the literal run is bound to its last occurrence, with no backtracking, and matching resumes after it |
| Pattern.ScanLastOccurrence | src/WindowManager.cc:301-313 | the `strstr`/`strcasestr` loop, which restarts one character after each hit, ends on the last occurrence of the literal run, overlapping ones included, or finds none |
| Pattern.LastOccurrence | src/WindowManager.cc:301-319 | the chosen position holds an occurrence of the run and no later position does; `None` exactly when the run occurs nowhere |
| Pattern.LiteralPatternMatches | src/WindowManager.cc:339-371 | a pattern without wildcards matches exactly the titles of its length that agree with it character by character, so matching is anchored at both ends and the empty pattern matches only the empty title |
| Pattern.QuestionMarksMatchLength | src/WindowManager.cc:334-338 | a pattern of `?` only matches exactly the titles of its length: each `?` consumes one character and fails at the end of the title |
| Pattern.CaseFoldingIsAsciiOnly | src/WindowManager.cc:343-360 | case-sensitive matching compares exactly; otherwise two characters match iff they are equal or differ only by folding an ASCII capital `A`..`Z` |
| Pattern.TrailingWildcardsMatchAll | src/WindowManager.cc:284-288 | a run of `*` and `?` that starts with `*` and ends the pattern matches every remainder, the empty one included |
| Pattern.StarRunMatchesSuffix | src/WindowManager.cc:294-329 | `*` followed by a final literal run matches iff that run occurs at the very end of the title |
| Pattern.StarRunQuestionRejectsAaa | src/WindowManager.cc:301-321 | `*a?` rejects `aaa` because `*` binds to the last `a` and never backtracks, while glob matching accepts `aaa` |
| Pattern.TwoStarRunsRejectAaa | src/WindowManager.cc:301-331 | `*a*a` rejects `aaa`, while glob matching accepts it |
| Pattern.StarRunQuestionAcceptsAb | src/WindowManager.cc:294-338 | `*a?` accepts `ab`: the last `a` leaves one character for the `?` |
| Pattern.StarQuestionAcceptsEmpty | src/WindowManager.cc:284-288 | a `?` in a run after `*` consumes nothing, so `*?` matches the empty title, which glob matching rejects |
| Pattern.CaseInsensitiveCanReject | src/WindowManager.cc:304-313 | folding case can make a title fail: `*a?` matches `aA` case-sensitively but not insensitively, since folding moves the last occurrence of `a` to the end |
| Pattern.FooStarBarExamples | src/WindowManager.cc:273-372 | `Foo*Bar` matches `FooXXXBar` in both modes, and matches `fooxxxbar` only case-insensitively |
| Pattern.MatchesIsSoundForGlob | src/WindowManager.cc:273-372 | for patterns with no `?` directly after a `*`, every title the matcher accepts is also accepted by glob matching |
| WindowManager.GetProperty | src/WindowManager.hh:70-98 | the read succeeds iff the server answers and the returned type is the requested one; on success the property holds the reply's items, otherwise it holds no data |
| WindowManager.GetPropertyForgetsPreviousData | src/WindowManager.hh:108-117 | the outcome of a read does not depend on what the property held before |
| WindowManager.ActiveWindow | src/WindowManager.cc:102-111 | the first item of `_NET_ACTIVE_WINDOW` on the root when that read succeeds with type `WINDOW`, and 0 when it fails |
| WindowManager.WindowTitle | src/WindowManager.cc:148-161 | the title is `WM_NAME` read as `STRING` when that read succeeds, else `_NET_WM_NAME` read as `UTF8_STRING`, else empty; it is taken up to the first NUL |
| WindowManager.ClientList | src/WindowManager.cc:166-175 | the list holds the root's `_NET_CLIENT_LIST` (type `WINDOW`) when that read succeeds, else `_WIN_CLIENT_LIST` (type `CARDINAL`), else nothing; every item is still to fetch |
| WindowManager.NewWindowList | src/WindowManager.hh:126-131 | a new list holds the property's items (none when it has no data), with all of them still to fetch |
| WindowManager.Fetch | src/WindowManager.hh:136-142 | `fetch` returns the last unfetched item and moves back by one; once all are fetched it returns 0 (the source's counter then wraps; see Left out) |
| WindowManager.FetchKeepsCount | src/WindowManager.hh:143-146 | `count` reports the total number of items however many have been fetched |
| WindowManager.Enumerate | src/WindowManager.cc:131-138 | the fetch loop visits the items from the last to the first and stops early at the first 0 item |
| WindowManager.ActivateWindow | src/WindowManager.cc:68-87 | it ends with activating the window, and switches desktop first exactly when the window's and the current desktop are both known and differ |
| WindowManager.UpdateCache | src/WindowManager.cc:183-198 | an existing entry for the pattern gets the new window in place; otherwise one entry is appended |
| WindowManager.UpdateCacheBinds | src/WindowManager.cc:183-198 | after an update the pattern leads to the new window, every other pattern's lookup is unchanged, patterns stay unique and the cache grows by at most one entry |
| WindowManager.PeekCache | src/WindowManager.cc:205-223 | the answer is non-zero iff the pattern has an entry whose window is still valid, and then it is that window; the cache is left unchanged, because the erase of a stale entry removes an empty range |
| WindowManager.FirstFit | src/WindowManager.cc:131-138 | the position of the first enumerated window that is valid and whose title matches, with no earlier one fitting; `None` when no window fits |
| WindowManager.Scan | src/WindowManager.cc:131-140 | the fetch loop returns the first fitting window in enumeration order, or 0 when none fits |
| WindowManager.GetWindowFromName | src/WindowManager.cc:118-141 | a valid cached window is returned without enumerating; otherwise the first fitting window is returned and cached, or 0 with the cache unchanged; a non-zero answer is always a valid window |
| WindowManager.LookupIsStable | src/WindowManager.cc:118-141 | once a lookup has found a window, looking up again finds it in the cache and changes nothing |
| WindowManager.CacheHitIgnoresClientList | src/WindowManager.cc:123-124 | when the cache answers, the client list and window titles play no part |
| WindowManager.LookupKeepsPatternsUnique | src/WindowManager.hh:157-173 | lookups keep at most one cache entry per pattern, and never grow the cache for a pattern it already holds |
| WindowManager.EmptyClientListFindsNothing | src/WindowManager.cc:126-129 | without a cache hit, an empty client list gives 0 and leaves the cache alone |
| Render.Initialize | src/Render.cc:91-110 | the line length is the packed pixel bytes rounded up to a multiple of 4, the padding lies in 0..3, and the size is lines times line length |
| Render.GetInstance | src/Render.cc:69-82 | a surface exists exactly for 16, 24 and 32 bits per pixel, and is initialised for the requested size |
| Render.PaddingByDepth | src/Render.cc:100-106 | padding is 0 at 32 bits, 2 at 16 bits exactly when the width is odd, and `(4 - 3*width mod 4) mod 4` at 24 bits |
| Render.Blend | src/Render.cc:201-235 | a blended channel lies between the old value and the target; full weight gives the target and zero weight leaves the value |
| Render.UnpackPack16 | src/Render.cc:192-195 | unpacking a packed 16-bit word gives back each channel with its low three bits cleared |
| Render.PackUnpack16 | src/Render.cc:208-230 | unpacking a word and packing it again gives the word with bit 5 cleared, so every word the blend writes has bit 5 clear |
| Render.Pixel16 | src/Render.cc:176-300 | one 16-bit pixel of `opaque` or `ghosted` stays two bytes wide; its colour behaviour is stated by the pixel lemmas below |
| Render.Pixel24 | src/Render.cc:344-435 | one 24-bit pixel of `opaque` or `ghosted` stays three bytes wide |
| Render.Pixel32 | src/Render.cc:482-572 | one 32-bit pixel of `opaque` or `ghosted` stays four bytes wide |
| Render.LoadStore16 | src/Render.cc:192-206 | storing a 16-bit word as two bytes and loading it back are inverse to each other |
| Render.TransparentSourceKeepsPixel | src/Render.cc:180-185 | at every depth and for both operations, a source pixel of alpha 0 leaves the destination pixel untouched |
| Render.OpaqueBlendStaysBetween | src/Render.cc:360-381 | a partially transparent source moves each 24-bit channel toward the source channel without passing it |
| Render.OpaqueSourceShowsSourceColour | src/Render.cc:348-359 | an alpha-255 source overwrites the pixel: at 16 bits with the top five bits of each channel, at 24 bits with its three bytes, at 32 bits with all four bytes, alpha included |
| Render.GhostedIsOpaqueOfGrey | src/Render.cc:393-435 | at 16 and 24 bits, ghosting at transparency 255 is the opaque operation on the grey `(b+g+r)/3` version of the source, keeping its alpha |
| Render.GhostedAtZeroTransparency | src/Render.cc:246-300 | the model's reading of transparency 0, a division by zero in the source: no colour change, apart from the bit-5 clearing of the 16-bit repack |
| Render.BlendKeepsFourthByte | src/Render.cc:530-572 | at 32 bits the fourth byte changes only when an alpha-255 source is copied with `opaque`, and then it becomes 255 |
| Render.Composite | src/Render.cc:344-384 | `opaque` or `ghosted` over a whole surface keeps its size; which byte gets what is stated by the next two lemmas |
| Render.CompositePixel | src/Render.cc:344-384 | every byte of pixel (x, y) of the composited surface is the per-pixel operation applied to that pixel and to icon pixel (x, y) |
| Render.CompositeKeepsPadding | src/Render.cc:344-384 | the padding bytes at the end of each line are never written |
| Slots.CompositeKeepsUnderTransparent | src/Render.cc:180-185 | where the icon pixel has alpha 0, every byte of the composited pixel is the byte underneath |
| Slots.CompositeShowsOpaque24 | src/Render.cc:344-359 | at 24 bits, where the icon pixel has alpha 255, `opaque` writes the icon's three colour bytes |
| Render.GetMark | src/Render.cc:117-131 | each mark type selects a well-formed stencil of the source's size: play 5x9, dots 10x2, corner 6x6, cross 7x7 |
| Render.GetOffset | src/Render.cc:141-157 | the mark's byte offset is the rows of `OffsetRows` times the padded line length plus the column bytes of `OffsetColumn` |
| Render.OffsetRows | src/Render.cc:141-149 | a non-negative top margin applies only if the mark fits below it; -1 puts the mark flush with the bottom and -k moves it k-1 lines up; a margin that does not fit gives 0 |
| Render.OffsetColumn | src/Render.cc:151-154 | a non-negative left margin applies only if the mark fits; a negative one is measured back from the padded end of the line, flush at -1; a margin that does not fit gives 0 |
| Render.MarkImage | src/Render.cc:310-325 | the marked surface keeps its size: each byte covered by an odd number of set stencil cells is inverted, under the source's addressing or the corrected one |
| Render.ActiveMarkAsWritten | src/Render.cc:582-597 | `activeMark` with the pointer steps of the source: the mark image under the source's addressing |
| Render.ActiveMark | src/Render.cc:33-60 | the corrected `activeMark`: a mark that fits the surface is drawn with each cell at its own pixel of the mark's rectangle; a mark larger than the surface leaves the surface as it was |
| Render.MarkIsSelfInverse | src/Render.cc:445-463 | drawing the mark twice with the same arguments restores the surface, for both the source's addressing and the corrected one, and so does the corrected `activeMark` |
| Render.AsWrittenAgreesWithoutPadding | src/Render.cc:582-597 | at 32 bits, and at 16 bits on even widths, the source's line step equals the padded line length, so its `activeMark` puts every cell where the corrected addressing does, and equals the corrected `activeMark` whenever the mark fits |
| Render.ActiveMarkInvertsStencil | src/Render.cc:33-60 | with the corrected addressing, on a surface the mark fits, each byte of a stencil cell is inverted iff the cell is set (two bytes at 16 bits, the low three bytes at 24 and 32 bits), as the stencils are drawn |
| Render.ActiveMarkStaysInSurface | src/Render.cc:141-157 | with the corrected addressing, every cell of a mark that fits lies inside the surface wherever the margins put it; a mark that does not fit is not drawn |
| Render.ActiveMarkKeepsRest | src/Render.cc:141-157 | with the corrected addressing, bytes outside every stencil cell, placed from the offset of `getOffset`, are left unchanged |
| RenderFindings.Mark24AsWrittenInvertsClearPixel | src/Render.cc:445-463 | on a 24-bit 10x2 surface, the source's Dots mark inverts byte 6, which belongs to a clear cell that the corrected mark leaves alone |
| RenderFindings.Mark16AsWrittenInvertsPadding | src/Render.cc:310-325 | on a 16-bit 11x2 surface, the source's Dots mark inverts padding byte 22, which the corrected mark leaves alone |
| RenderFindings.PlayMarkOverrunsSmallSurface | src/Render.cc:582-597 | on a 32-bit 16x8 surface of 512 bytes, the Play mark (9 lines) with the margins (-1, 0) has a set cell whose word starts at byte 556, past the end |
| Icons.Expand | src/Icon.cc:60-66 | a leading `~` is replaced by HOME; every other path is returned unchanged |
| Icons.ExpandIsIdempotent | src/Icon.cc:60-66 | expanding a second time changes nothing, provided HOME does not start with `~` and, when HOME is empty, the path's second character is not `~` |
| Icons.Tokenize | src/Icon.cc:75-88 | the loop appends the delimiter-free runs of the input, in order, after the entries already present |
| Icons.TokensAreWords | src/Icon.cc:78-87 | no appended token is empty or contains a delimiter |
| Icons.TokensOfDelims | src/Icon.cc:78-81 | an empty or all-delimiter string appends nothing |
| Icons.TokensSplit | src/Icon.cc:75-88 | a delimiter splits the token list: the tokens of `a;b` are the tokens of `a` followed by those of `b` |
| Icons.SetTitle | src/Icon.hh:57-65 | the `;`-separated titles are appended, the icon is exclusive iff it then has a title, and nothing else changes |
| Icons.SetTitleAccumulates | src/Icon.hh:57-59 | two `setTitle` calls leave the titles of both strings, as if they had been joined by `;` |
| Icons.NewIcon | src/Icon.cc:47-53 | the constructor stores the expanded image and command, the idle time (Slow by default), and the split title, and is exclusive iff the title list is non-empty |
| Icons.SetCommand | src/Icon.hh:53-54 | stores the expanded command and nothing else |
| Icons.SetImage | src/Icon.hh:55-56 | stores the expanded image path and nothing else |
| Icons.SetExclusive | src/Icon.hh:66 | overrides the exclusive flag whatever the titles are |
| Icons.SetIdleTime | src/Icon.hh:67-68 | stores the idle time and nothing else |
| Slots.FadeStartBounds | src/Slot.cc:251-259 | the starting fade `256 / 1.05^(ticks+1)` is at most 243, so below `Complete`, and does not grow with one more tick |
| Slots.FadeStartMonotone | src/Slot.cc:251-259 | the starting fade never increases with the number of idle ticks |
| Slots.LongerIdleStartsFainter | src/Slot.cc:254-258 | a longer idle time never starts the fade brighter |
| Slots.FadeStep | src/Slot.cc:374-377 | one step `min(255, trunc(f*1.05))` never decreases the fade and stays within `Complete`; it stalls below 20 and strictly grows from 20 up to `Complete` |
| Slots.Resolve | src/Slot.cc:194-207 | the windows resolved from the title patterns are valid, non-zero, and at most one per title |
| Slots.HasFocus | src/Slot.cc:399-416 | without an active window the answer is false and the tile unchanged; only the window cache may change |
| Slots.HasFocusIffResolved | src/Slot.cc:399-416 | the tile has focus iff there is an active window and one of its title patterns resolves to it |
| Slots.GetBackground | src/Slot.cc:564-611 | without a grab only `invalid` is set; with a grab the image shows it, and the tile becomes valid with the grab as its background exactly when it is fully visible |
| Slots.DrawOp | src/Slot.cc:171-176 | a tile is ghosted with its fade value as transparency iff it is still fading, and opaque once `Complete` |
| Slots.Underlay | src/Slot.cc:165-168 | the surface the icon is composited onto is the restored image, with the corrected mark drawn over it exactly when the tile runs an exclusive program |
| Slots.Draw | src/Slot.cc:155-181 | every draw blits the surface exactly once; without refresh and with a valid background nothing changes; only image, background and `invalid` can change |
| Slots.DrawRefreshComposites | src/Slot.cc:157-177 | a refresh of a valid tile restores the background, draws the corrected mark on it when the tile runs an exclusive program, and only then composites the icon with the fade's operation |
| Slots.Restored | src/Slot.cc:157-163 | a redraw starts from a fresh grab when the tile is invalid, and from the kept background otherwise; only image, background and `invalid` change |
| Slots.DrawRefreshImage | src/Slot.cc:157-177 | a refreshed tile shows the icon composited with the fade's operation over the restored surface, which carries the corrected mark when running exclusive |
| Slots.DrawRegrabComposites | src/Slot.cc:157-177 | a draw of an invalid tile, with or without refresh, grabs again and composites the icon over the grab (with the corrected mark when running exclusive); background and `invalid` are what the grab leaves |
| Slots.DrawShowsMarkUnderTransparentIcon | src/Slot.cc:157-176 | where the icon is fully transparent, a refreshed tile shows the restored surface (the kept background, or a fresh grab when the tile was invalid) with the corrected mark |
| Slots.DrawShowsOpaqueIcon | src/Slot.cc:157-176 | on a 24-bit tile that has finished fading, where the icon is opaque, a refreshed tile shows exactly the icon's colour, whether the background was kept or grabbed again |
| Slots.CommandLine | src/Slot.cc:224-230 | the shell command is the icon's command, followed by a space and the argument when one is given |
| Slots.Exec | src/Slot.cc:188-262 | the launch fails exactly when it is attempted (not a running exclusive tile, fading `Complete`, non-empty command) and `fork` fails; a tile that is not running exclusively and is still fading or has no command is left alone with no effect; every result keeps the tile valid |
| Slots.ActivateAll | src/Slot.cc:198-207 | raising the resolved windows activates each of them, in order, and asks for nothing but desktop switches and activations, one or two requests per window |
| Slots.ActivateAllRaisesEach | src/Slot.cc:198-207 | every resolved window gets an activation request |
| Slots.ActivateWindowActivatesIt | src/WindowManager.cc:68-87 | `activateWindow` activates exactly its window, after at most a desktop switch |
| Slots.ExecOfRunningExclusive | src/Slot.cc:190-211 | on a running exclusive tile `exec` only raises the windows its titles resolve to, in order: the tile changes only by the updated window cache, nothing is spawned, and `pid` and the fade stay |
| Slots.ExecLaunches | src/Slot.cc:217-261 | a launch records the child's pid, starts the fade at `FadeStart` of the idle ticks (below `Complete`), spawns the command line and redraws |
| Slots.Tick | src/Slot.cc:356-381 | an idle tile is untouched; an exited child resets `pid` and the fade to `Complete` and redraws; a live child fades one step and redraws while still fading; icon and cache never change |
| Slots.FadeStallsBelowTwenty | src/Slot.cc:372-380 | a running tile whose fade is below 20 keeps that fade at every tick |
| Slots.FadeProgresses | src/Slot.cc:372-380 | from 20 upwards, each tick brings the fade strictly closer to `Complete` |
| Slots.IconifyApplication | src/Slot.cc:267-288 | only a running exclusive tile with titles acts, iconifying each resolved window in order; otherwise nothing happens |
| Slots.LowerApplication | src/Slot.cc:293-314 | only a running exclusive tile with titles acts, lowering each resolved window in order; otherwise nothing happens |
| Slots.CloseApplication | src/Slot.cc:319-351 | only a running exclusive tile acts: it closes every resolved window, and sends SIGTERM to the child exactly when there are no titles or none resolved |
| Slots.LoadIcon | src/Slot.cc:493-534 | loading succeeds iff the image decoded to a non-empty picture that fits the tile and the depth is supported; the icon is then centred (odd slack to the right and bottom) over a zeroed surface of the size `createSurface` allocates |
| Slots.SurfaceSize | src/Slot.cc:519-534 | the byte size of the surface `createSurface` allocates for a decoded image |
| Slots.WithSurface | src/Slot.cc:519-534 | `createSurface` gives the tile a new geometry and zeroed image and background of the surface's size |
| Slots.LoadIconValid | src/Slot.cc:519-534 | a successful load gives a tile whose buffers have the surface's sizes |
| Slots.NewSlot | src/Slot.cc:56-70 | a new tile is valid, idle, fully faded in, visible, with an empty cache and its own window |
| Slots.SetIcon | src/Slot.cc:388-394 | `setIcon` fails exactly when `loadIcon` of the new file fails; otherwise the tile holds the expanded file name, the decoded icon and a surface of its size, keeps process, fade and cache, is blitted once, and is valid exactly when the grab into the new surface was taken while fully visible, with that grab as background |
| Slots.SetIconDrawsOverGrab | src/Slot.cc:388-394 | after `setIcon` with a grab of the new size, the tile shows the new icon composited over that grab, with the corrected mark when running exclusive |
| Slots.InvalidateForcesGrab | src/Slot.hh:64 | after `invalidate`, even a draw without refresh grabs again; the background becomes valid only from a grab of a fully visible tile |
| Config.StripComment | src/main.cc:57-58 | the record is cut at the first `#`, and is unchanged without one |
| Config.SplitJoin | src/main.cc:74-83 | splitting at the delimiter loses nothing: joining the fields again gives the record |
| Config.SplitOfJoin | src/main.cc:74-83 | fields free of the delimiter are split back exactly as they were joined |
| Config.SplitCount | src/main.cc:74-83 | splitting gives one field more than there are delimiters, up to the limit |
| Config.FourthDelimiterOverflows | src/main.cc:69-83 | the loop as written produces a fifth field, one past the four-slot array, exactly when the record holds four or more delimiters, for example `a:b:c:d:e` |
| Config.FieldsRoundTrip | src/main.cc:69-83 | the bounded split yields at most four fields and still joins back to the record |
| Config.IdleTime | src/main.cc:89-107 | the keywords fast, fastest, slow and lame, in any case, give 500, 250, 5000 and 10000 ms; a missing field gives Slow; the result is a positive 32-bit value |
| Config.IdleTimeOfNumber | src/main.cc:100-107 | any other field is read with `atoi`: a positive value is used, a negative one wraps to a huge value, and zero or non-numeric input keeps Slow |
| Config.Add | src/main.cc:50-111 | a record without a delimiter is rejected; otherwise the icon gets the expanded image and command, the split title or none, and the idle time of the fourth field |
| Config.AddOfRecord | src/main.cc:85-110 | a record written from plain fields reads back as the icon built from them; a missing title gives no titles and a missing idle field gives Slow |
| Config.MarkOption | src/main.cc:218-247 | `-m` selects the mark in any case: dots and corner set margins (-1,-1), cross sets (-1,0), play keeps the margins, and an unknown name changes nothing |
| Config.LaterMarkOptionWins | src/main.cc:218-247 | a later dots, corner or cross option overrides an earlier `-m` entirely, and `-m cross` reproduces the defaults |
| Config.ParseAction | src/main.cc:266-289 | an action name is accepted iff it is nothing, iconify, lower or close, in any case |
| Config.ParseActionName | src/main.cc:290-313 | every click action is selected by its name, in any case |
| Config.Basename | src/main.cc:124-125 | the corrected base name is the part after the last `/`, and contains no `/` |
| Config.RcFileNameAsWritten | src/main.cc:121-128 | the name is HOME, `/.`, a tail of the binary's name, and `rc`; that tail is free of `/` exactly when the last `/` is not the first character |
| Config.RcFileName | src/main.cc:121-128 | the corrected name is HOME, `/.`, the part of the binary's name after its last `/`, and `rc` |
| Config.RcFileNameOfRootPath | src/main.cc:124-125 | as written, a binary named `/bbdock` gives `HOME/./bbdockrc`, because a `/` at index 0 is not stripped; the corrected name is `HOME/.bbdockrc` |
| Config.RcFileNameAgrees | src/main.cc:121-128 | when the last `/` is not the first character, the code as written and the corrected name agree |
| Config.RcFileNameIgnoresDirectory | src/main.cc:121-128 | the corrected rc name depends only on the binary's base name, not on its directory |
| Docks.LastOfDepth | src/Dock.cc:78-84 | the backward scan finds the last pixmap format of the depth, or reports that none has it |
| Docks.BitsPerPixel | src/Dock.cc:67-88 | bits per pixel come from the last format whose depth is the default depth, and fall back to the depth itself |
| Docks.Add | src/Dock.cc:104-112 | a missing icon is rejected and changes nothing; otherwise the new idle tile for the icon is put in front of the existing ones, which stay as they were |
| Docks.CrossHit | src/Dock.cc:211-227 | a click can hit the close cross only when the cross is the mark |
| Docks.DefaultCrossHit | src/Dock.cc:211-227 | with the default settings, the cross is hit iff the click, taken relative to the icon, has x in the last 7 columns up to the width and y in lines 1 to 7 |
| Docks.ApplyAction | src/Dock.cc:270-283 | a click action only touches the window cache and never spawns; DoNothing does nothing |
| Docks.RightClick | src/Dock.cc:270-283 | a right click applies the right-click action: it never spawns, changes nothing but the window cache, and does nothing for DoNothing |
| Docks.LeftClick | src/Dock.cc:209-253 | a hit on the cross only closes the application; otherwise a configured action runs when the tile has focus, and `exec` runs in every other case |
| Docks.LeftClickSpawnsOnlyViaExec | src/Dock.cc:226-250 | a cross hit, or a configured action on a focused tile, never spawns a program and changes nothing but the window cache |
| Docks.ChangeIconPayload | src/Dock.cc:370-382 | nothing is sent if either argument is empty; otherwise the payload is the command, a `:`, and the icon |
| Docks.ExecutePayload | src/Dock.cc:389-395 | nothing is sent for an empty command; otherwise the command itself is sent |
| Docks.StrTok | src/Dock.cc:426-427 | `strtok` finds no token iff the string consists of delimiters only; a token is non-empty and free of delimiters |
| Docks.DecodeChangeIcon | src/Dock.cc:426-427 | a decoded request has a non-empty command without `:` and a non-empty icon without a newline |
| Docks.ChangeIconRoundTrip | src/Dock.cc:376-381 | for a non-empty command without `:` and a non-empty icon without a newline, decoding the sent payload recovers exactly the pair |
| Docks.ChangeTarget | src/Dock.cc:431-439 | the chosen tile is the first whose command matches case-insensitively and whose icon differs; none before it qualifies |
| Docks.ExecuteTarget | src/Dock.cc:446-453 | the chosen tile is the first whose command matches case-insensitively |
| Docks.Client | src/Dock.cc:402-460 | an unreadable property or an unknown message changes nothing; every request keeps the tiles valid, their number and the settings |
| Docks.ChangeIconRequest | src/Dock.cc:421-441 | an undecodable change request changes nothing; a handled one keeps the tiles valid and their number |
| Docks.SetIconOf | src/Dock.cc:437-438 | `setIcon` on the chosen tile fails exactly when it fails for that tile, and otherwise replaces just that tile |
| Docks.ExecuteRequest | src/Dock.cc:442-454 | an execute request for a command no tile has changes nothing; a handled one keeps the tiles valid and their number |
| Docks.ExecuteRequestRunsFirstMatch | src/Dock.cc:442-454 | an execute request runs `exec` on the first matching tile only, with the same outcome and effects |
| Docks.ExecuteRequestForUnknownCommand | src/Dock.cc:442-454 | an execute request for a command no tile has changes nothing |
| Docks.ChangeIconRequestSetsFirstMatch | src/Dock.cc:421-441 | a change request goes to the first matching tile: it fails exactly when `setIcon` fails there, and otherwise that tile alone becomes `setIcon`'s result, with the expanded new icon, valid exactly when the grab into its new surface was taken while fully visible |
| Docks.TickAll | src/Dock.cc:128-131 | the tick pass keeps every tile valid and their number unchanged |
| Docks.TickAllTicksEach | src/Dock.cc:128-131 | the tick pass gives each tile exactly what its own `tick` gives |
| Docks.TickAllIdle | src/Dock.cc:128-131 | a tick pass over tiles without running programs changes nothing and has no effect |
| Docks.SlotOf | src/Dock.cc:153-157 | an event belongs to a tile whose window it names, and to none when no tile has that window |
| Docks.Dispatch | src/Dock.cc:167-286 | an event for a tile keeps all tiles valid and changes no other tile |
| Docks.VisibilityOnlyRecordsState | src/Dock.cc:173-175 | a VisibilityNotify only records the new state in its tile |
| Docks.ExposeOnlyReblits | src/Dock.cc:169-172 | the last Expose of a series re-blits a tile with a valid background unchanged; an earlier one does nothing |
| Docks.ConfigureRegrabs | src/Dock.cc:176-179 | a ConfigureNotify grabs the background again: it becomes valid iff the grab worked on a fully visible tile, and the tile is blitted once |
| Docks.SelectionRunsExec | src/Dock.cc:180-205 | a SelectionNotify without a property does nothing; with one it runs `exec` with the text up to its first NUL, and fails or updates the tile exactly as `exec` does |
| Docks.LeftButtonClicks | src/Dock.cc:206-253 | a release of button 1 handles the left click on its tile, failing or updating it exactly as the click does |
| Docks.RightButtonAppliesAction | src/Dock.cc:206-285 | a release of button 3 applies the right click to its tile, and any button other than 1, 2 and 3 changes nothing |
| Docks.MiddleClickOnlyRequestsSelection | src/Dock.cc:255-269 | a middle click changes no tile and only asks an existing selection owner for the selection |
| Docks.RunStep | src/Dock.cc:117-165 | without tiles nothing happens; when no event is pending the step cannot fail and ends with a wait of `Suspend`; every step keeps the tiles valid and their number unchanged |
| Docks.QuietStepOnlyWaits | src/Dock.cc:124-143 | with no program running, a quiet step changes nothing and only waits a quarter second |
| Docks.StrayEventIgnored | src/Dock.cc:159-165 | an event for no tile that is not a client message changes nothing |

## Left out

- WindowManager.Fetch: the source's `if( !items-- ) return 0;` on an `unsigned long` wraps the counter to ULONG_MAX on the call that returns 0, and a further `fetch` would read outside the buffer. The model keeps the counter at 0 instead, because the only caller (`getWindowFromName`) stops at the first 0.
- X11 traffic is not modelled: window creation, `XGetSubImage`/`XPutImage`, property reads, client messages and selections. `Dock::send` and `closeWindow` are included only as effects or as parameters (`Server`, `World`, `grab`, `Effect`).
- Process control is a parameter: the outcome of `fork` is `Launch`, and `waitpid` is the per-tile `exited` flag. A failed fork is a `Failure`, so the `pid = -1` it leaves behind is not kept.
- PNG decoding, including the grey+alpha expansion loop in `loadIcon`, depends on libpng buffers. The decoded picture is an input (`Png`).
- Render.Blend: the source computes the partial-alpha blend and the ghost divisor `255*(255/t)/alpha` in double precision. The model uses the exact quotient, truncated toward zero, so results may differ by one from IEEE rounding.
- Slots.FadeStart: `256/1.05^(n+1)` is taken as exact rational arithmetic, and the tick step `trunc(f*1.05)` as `f*105/100`. Both are idealisations of double rounding.
- Render.GhostedAtZeroTransparency: `ghosted` with transparency 0 divides by zero in the source. The model uses weight 0, which means no colour change.
- The `bpp < 8` branch of `initialize` cannot be reached, since only 16, 24 and 32 bits per pixel are accepted.
- The alpha test through an `int` pointer relies on a little-endian layout. The model reads alpha as byte 3 of each source pixel.
- `strcasestr` and `strcasecmp` fold according to the locale. The model folds ASCII letters only.
- `main`'s argument loop, the detaching fork, reading the rc file line by line, the `-d`/`-p`/`-i`/`-x`/`-c` option plumbing, and the usage and version output are not modelled.
- The 1024-item limit on property reads is not modelled: a property is read whole.
- Icons.Expand: HOME is assumed to be set. With HOME unset, `getenv` returns a null pointer, and adding it to a `string` is undefined behaviour; the same holds for the rc file name (`Config.RcFileNameAsWritten`, `Config.RcFileName`).
- Base.ToUnsigned32: `atoi` is unbounded (`Base.Atoi`), so an input beyond `int` range is not truncated as C would truncate it.
- Config.Fields: the corrected split keeps everything after the third delimiter in the idle field, where the code as written writes a fifth field.
- Docks.RunStep: a step either ticks or handles one event; the `select` timeout is the `Wait(Suspend)` effect, and an early wake-up is not modelled.
- Docks.Dispatch: its own contract only frames the other tiles. The routing of each event kind is stated by separate lemmas: `Docks.ExposeOnlyReblits`, `Docks.VisibilityOnlyRecordsState`, `Docks.ConfigureRegrabs`, `Docks.SelectionRunsExec`, `Docks.LeftButtonClicks`, `Docks.MiddleClickOnlyRequestsSelection` and `Docks.RightButtonAppliesAction`.
- Docks.SelectionRunsExec: the two `XGetWindowProperty` calls of a SelectionNotify are one parameter, the selection text or none. A failed read and a property of zero bytes both count as none.
- Slots.Draw: the tile model draws the corrected mark (`Render.ActiveMark`), not the source's `activeMark`. So `Slots.Underlay`, `Slots.Draw`, `Slots.DrawRefreshComposites`, `Slots.DrawRefreshImage`, `Slots.DrawRegrabComposites`, `Slots.SetIconDrawsOverGrab` and `Slots.DrawShowsMarkUnderTransparentIcon` state the intended picture. Where the source's pointer steps differ (odd 16-bit widths, 24-bit surfaces, marks larger than the surface) the source draws something else, as the Findings table shows. `Render.ActiveMarkAsWritten` keeps the source's addressing, and `Render.AsWrittenAgreesWithoutPadding` says when the two agree.
- Slots.DrawRefreshImage: the picture it states is marked with the corrected `Render.ActiveMark`, not the source's `activeMark`; see `Slots.Draw` above.
- Slots.DrawRegrabComposites: the picture it states is marked with the corrected `Render.ActiveMark`, not the source's `activeMark`; see `Slots.Draw` above.
- Slots.SetIconDrawsOverGrab: the picture it states is marked with the corrected `Render.ActiveMark`, not the source's `activeMark`; see `Slots.Draw` above.
- Render.ActiveMarkAsWritten: writes that the source's pointer arithmetic sends outside the surface are dropped. In the source they overrun the buffer, and the model does not represent the memory beyond it.
- Render.ActiveMark: a mark larger than the surface is not drawn at all. The source has no such test; it draws every line of the mark, past the end of the buffer.
- WindowManager.ActiveWindow: a `_NET_ACTIVE_WINDOW` read that succeeds with no items gives 0 (`WindowManager.FirstItem`), where the source dereferences the empty reply. The desktop reads of `activateWindow` use the same convention.
- Text is modelled one character per byte. `?` consumes one byte, and `strcasestr` and `strcasecmp` compare bytes, so a multi-byte UTF-8 character in a title is several characters here, as it is in the source.
- Events find their tile by the tile's own `window` field, standing in for `event.xany.window`.
- WindowManager.GetWindowFromName: window titles and the client list come from the `Server` parameter, read as C strings.

## Findings

| source | as written | input that shows it | evidently intended | confidence | as-written member | corrected member |
|---|---|---|---|---|---|---|
| src/Render.cc:445-463 | the 24-bit `activeMark` moves the pointer only after a set cell, and by `bytesperline - 3*markwidth` at each line end | a 24-bit surface 10 pixels wide with the Dots mark at (0,0): the fifth cell, which is set, inverts byte 6, in the third pixel, which is clear | set cell (x, y) inverts pixel (x, y) of the mark's rectangle | not executed | RenderFindings.Mark24AsWrittenInvertsClearPixel | Render.ActiveMarkInvertsStencil |
| src/Render.cc:310-325 | the 16-bit `activeMark` advances each line by `width` pixels, ignoring the 2 bytes of padding on odd widths | a 16-bit surface 11 pixels wide with the Dots mark at (0,0): the second mark line starts at byte 22, a padding byte | each mark line starts one padded line below the previous one | not executed | RenderFindings.Mark16AsWrittenInvertsPadding | Render.ActiveMarkKeepsRest |
| src/main.cc:69-83 | the field loop runs while `n <= Idle`, so a fourth delimiter stores `fields[4]` past the four-slot array | the record `a:b:c:d:e` | stop splitting after the idle field, leaving the rest in it | not executed | Config.FourthDelimiterOverflows | Config.FieldsRoundTrip |
| src/main.cc:121-125 | `if (p)` treats a `/` at index 0 like no `/`, and keeps it | a binary invoked as `/bbdock` gives `HOME/./bbdockrc` | strip everything up to and including the last `/` | not executed | Config.RcFileNameOfRootPath | Config.RcFileNameIgnoresDirectory |
| src/Render.cc:582-597 | `getOffset` drops a margin the mark does not fit, but `activeMark` still draws every line of the mark, with no bound on the buffer | a 16x8 icon at 32 bits per pixel with `-m play`, which keeps the margins (-1, 0): the ninth line of the 9-line Play mark has a set cell starting at byte 556 of a 512-byte surface | draw only marks that fit the surface | not executed | RenderFindings.PlayMarkOverrunsSmallSurface | Render.ActiveMarkStaysInSurface |

=== FILE: base.dfy ===
/** Small shared vocabulary: optional values, outcomes, and the C-library
    string helpers the dock relies on (ASCII case folding as done by
    `strcasecmp`/`strcasestr` in the C locale, and `atoi`). */
module Base {

  datatype Option<T> = None | Some(value: T)

  /** An `unsigned char`. */
  newtype byte = x: int | 0 <= x < 256

  /** The outcome of an operation that the source can abandon by throwing. */
  datatype Result<T> = Success(value: T) | Failure(error: string)

  /** A C string is a character sequence without NUL; reading one out of a
      buffer stops at the first NUL. */
  predicate NulFree(s: string) {
    forall i :: 0 <= i < |s| ==> s[i] != '\0'
  }

  function CString(s: string): (r: string)
    ensures NulFree(r)
    ensures |r| <= |s| && r == s[..|r|]
    ensures |r| < |s| ==> s[|r|] == '\0'
  {
    if |s| == 0 || s[0] == '\0' then "" else [s[0]] + CString(s[1..])
  }

  lemma {:induction false} CStringOfNulFree(s: string)
    requires NulFree(s)
    ensures CString(s) == s
  {
    if |s| > 0 {
      assert NulFree(s[1..]) by {
        forall i | 0 <= i < |s[1..]| ensures s[1..][i] != '\0' {
          assert s[1..][i] == s[i + 1];
        }
      }
      CStringOfNulFree(s[1..]);
    }
  }

  /** Only the bytes 'A'..'Z' are folded to lower case. */
  function Fold(c: char): (r: char)
    ensures 'A' <= c <= 'Z' ==> r as int == c as int + 32
    ensures !('A' <= c <= 'Z') ==> r == c
    ensures !('A' <= r <= 'Z')
  {
    if 'A' <= c <= 'Z' then (c as int + 32) as char else c
  }

  /** Comparison of two characters, exact or ASCII-case-insensitive. */
  predicate CharMatch(p: char, l: char, caseSensitive: bool) {
    if caseSensitive then p == l else Fold(p) == Fold(l)
  }

  /** `strcasecmp(a, b) == 0`. */
  predicate CaseEq(a: string, b: string) {
    |a| == |b| && forall i :: 0 <= i < |a| ==> Fold(a[i]) == Fold(b[i])
  }

  lemma CaseEqIsEquivalence(a: string, b: string, c: string)
    ensures CaseEq(a, a)
    ensures CaseEq(a, b) ==> CaseEq(b, a)
    ensures CaseEq(a, b) && CaseEq(b, c) ==> CaseEq(a, c)
  {
  }

  /** Characters accepted by `isspace` in the C locale. */
  predicate IsSpace(c: char) {
    c == ' ' || c == '\t' || c == '\n' || c == '\U{000B}' || c == '\U{000C}' || c == '\r'
  }

  predicate IsDigit(c: char) {
    '0' <= c <= '9'
  }

  /** Value of the maximal run of leading decimal digits (0 when there is none). */
  function DigitsValue(s: string, acc: nat): (r: nat)
    ensures r >= acc
    ensures (|s| == 0 || !IsDigit(s[0])) ==> r == acc
  {
    if |s| == 0 || !IsDigit(s[0]) then acc
    else DigitsValue(s[1..], acc * 10 + (s[0] as int - '0' as int))
  }

  function SkipSpaces(s: string): (r: string)
    ensures |r| <= |s| && r == s[|s| - |r|..]
    ensures |r| == 0 || !IsSpace(r[0])
  {
    if |s| > 0 && IsSpace(s[0]) then SkipSpaces(s[1..]) else s
  }

  /** `atoi`: leading white space, an optional sign, then decimal digits; the
      result is exact (the model does not bound it to `int`). */
  function Atoi(s: string): (r: int)
    ensures (var t := SkipSpaces(s);
             (|t| == 0 || (!IsDigit(t[0]) && t[0] != '+' && t[0] != '-')) ==> r == 0)
    ensures (var t := SkipSpaces(s); |t| > 0 && t[0] == '-' ==> r <= 0)
    ensures (var t := SkipSpaces(s); |t| > 0 && t[0] != '-' ==> r >= 0)
  {
    var t := SkipSpaces(s);
    if |t| == 0 then 0
    else if t[0] == '-' then -(DigitsValue(t[1..], 0) as int)
    else if t[0] == '+' then DigitsValue(t[1..], 0)
    else DigitsValue(t, 0)
  }

  /** The conversion `(unsigned int) x` on a 32-bit `unsigned int`. */
  function ToUnsigned32(x: int): (r: nat)
    ensures r < 0x1_0000_0000
    ensures 0 <= x < 0x1_0000_0000 ==> r == x
    ensures -0x1_0000_0000 <= x < 0 ==> r == x + 0x1_0000_0000
  {
    x % 0x1_0000_0000
  }

  /** Index of the first occurrence of `c` in `s`, if any (`strchr`). */
  function IndexOf(s: string, c: char): (r: Option<nat>)
    ensures r.None? <==> c !in s
    ensures r.Some? ==> r.value < |s| && s[r.value] == c && c !in s[..r.value]
  {
    if |s| == 0 then None
    else if s[0] == c then Some(0)
    else match IndexOf(s[1..], c)
      case None => None
      case Some(i) => assert s[1..][..i] == s[1..i + 1]; Some(i + 1)
  }

  /** Index of the last occurrence of `c` in `s`, if any (`find_last_of`). */
  function LastIndexOf(s: string, c: char): (r: Option<nat>)
    ensures r.None? <==> c !in s
    ensures r.Some? ==> r.value < |s| && s[r.value] == c && c !in s[r.value + 1..]
  {
    if |s| == 0 then None
    else if s[|s| - 1] == c then Some(|s| - 1)
    else
      var r := LastIndexOf(s[..|s| - 1], c);
      assert r.Some? ==> s[r.value + 1..] == s[..|s| - 1][r.value + 1..] + [s[|s| - 1]];
      assert r.None? ==> s == s[..|s| - 1] + [s[|s| - 1]];
      r
  }
}

=== FILE: config.dfy ===
/** The start-up configuration: icon records (`IMAGE:COMMAND[:TITLES[:IDLE]]`,
    from the command line or one per line of the resource file), the options
    that choose the running mark and the click actions, and the name of the
    resource file. */
module Config {
  import opened Base
  import opened Icons
  import Render
  import Settings

  // ---------------------------------------------------------------------
  // Splitting a record

  /** Indices of the record fields. */
  const Image: nat := 0
  const Command: nat := 1
  const Title: nat := 2
  const Idle: nat := 3

  /** Everything before the first `#`. */
  function StripComment(s: string): (r: string)
    ensures '#' !in r
    ensures |r| <= |s| && r == s[..|r|]
    ensures |r| < |s| ==> s[|r|] == '#'
    ensures '#' !in s ==> r == s
  {
    match IndexOf(s, '#')
    case None => s
    case Some(i) => s[..i]
  }

  function Occurrences(s: string, d: char): (n: nat)
    ensures n <= |s|
    ensures n == 0 <==> d !in s
  {
    if |s| == 0 then 0 else (if s[0] == d then 1 else 0) + Occurrences(s[1..], d)
  }

  /** The loop of `add`: cut `s` at its first delimiters, into at most
      `limit` fields; the last field keeps the rest.  Written character by
      character: a delimiter closes the current field. */
  function Split(s: string, d: char, limit: nat): (r: seq<string>)
    requires limit >= 1
    ensures 1 <= |r| <= limit
    decreases |s|
  {
    if limit == 1 || |s| == 0 then [s]
    else if s[0] == d then [""] + Split(s[1..], d, limit - 1)
    else
      var r := Split(s[1..], d, limit);
      [[s[0]] + r[0]] + r[1..]
  }

  /** The fields joined back with the delimiter. */
  function Join(fs: seq<string>, d: char): string
    requires |fs| >= 1
  {
    if |fs| == 1 then fs[0] else fs[0] + [d] + Join(fs[1..], d)
  }

  /** The fields `add` fills.  The source's loop runs while the field index
      is at most `Idle`, so a fourth delimiter makes it write a fifth field
      into the four-slot array; the corrected loop, `Fields`, stops at
      `Idle` and leaves the rest of the record in the idle field. */
  function FieldsAsWritten(record: string, d: char): (r: seq<string>)
    ensures |r| <= Idle + 2
  {
    Split(record, d, Idle + 2)
  }

  function Fields(record: string, d: char): (r: seq<string>)
    ensures 1 <= |r| <= Idle + 1
  {
    Split(record, d, Idle + 1)
  }

  lemma JoinConsHead(x: string, r: seq<string>, d: char)
    requires |r| >= 1
    ensures Join([x + r[0]] + r[1..], d) == x + Join(r, d)
  {
    var q := [x + r[0]] + r[1..];
    if |r| > 1 {
      assert q[1..] == r[1..];
    }
  }

  /** Splitting then joining gives back the record. */
  lemma {:induction false} SplitJoin(s: string, d: char, limit: nat)
    requires limit >= 1
    ensures Join(Split(s, d, limit), d) == s
    decreases |s|
  {
    if limit > 1 && |s| > 0 {
      if s[0] == d {
        SplitJoin(s[1..], d, limit - 1);
        assert ([""] + Split(s[1..], d, limit - 1))[1..] == Split(s[1..], d, limit - 1);
        assert s == [d] + s[1..];
      } else {
        SplitJoin(s[1..], d, limit);
        JoinConsHead([s[0]], Split(s[1..], d, limit), d);
        assert s == [s[0]] + s[1..];
      }
    }
  }

  /** No field holds the delimiter. */
  predicate FreeOf(fs: seq<string>, d: char) {
    forall i :: 0 <= i < |fs| ==> d !in fs[i]
  }

  lemma {:induction false} SplitOfWord(w: string, d: char, limit: nat)
    requires d !in w && limit >= 1
    ensures Split(w, d, limit) == [w]
    decreases |w|
  {
    if limit > 1 && |w| > 0 {
      assert d !in w[1..];
      SplitOfWord(w[1..], d, limit);
      assert w == [w[0]] + w[1..];
    }
  }

  /** Splitting stops at the first delimiter. */
  lemma {:induction false} SplitAtFirst(a: string, d: char, rest: string, limit: nat)
    requires d !in a && limit >= 2
    ensures Split(a + [d] + rest, d, limit) == [a] + Split(rest, d, limit - 1)
    decreases |a|
  {
    var s := a + [d] + rest;
    if |a| == 0 {
      assert s[1..] == rest;
    } else {
      assert s[1..] == a[1..] + [d] + rest;
      assert d !in a[1..];
      SplitAtFirst(a[1..], d, rest, limit);
      assert a == [a[0]] + a[1..];
    }
  }

  lemma FreeOfTail(fs: seq<string>, d: char)
    requires |fs| >= 1 && FreeOf(fs, d)
    ensures d !in fs[0] && FreeOf(fs[1..], d)
  {
    forall i | 0 <= i < |fs| - 1 ensures d !in fs[1..][i] {
      assert fs[1..][i] == fs[i + 1];
    }
  }

  /** Joining then splitting gives back the fields, as long as none holds
      the delimiter and there are no more than the limit. */
  lemma {:induction false} SplitOfJoin(fs: seq<string>, d: char, limit: nat)
    requires 1 <= |fs| <= limit
    requires FreeOf(fs, d)
    ensures Split(Join(fs, d), d, limit) == fs
    decreases |fs|
  {
    FreeOfTail(fs, d);
    if |fs| == 1 {
      SplitOfWord(fs[0], d, limit);
      assert fs == [fs[0]];
    } else {
      SplitOfJoin(fs[1..], d, limit - 1);
      SplitAtFirst(fs[0], d, Join(fs[1..], d), limit);
      assert fs == [fs[0]] + fs[1..];
    }
  }

  function CountFields(n: nat, limit: nat): nat {
    if n + 1 < limit then n + 1 else limit
  }

  /** Splitting makes one field more than there are delimiters, up to the
      limit. */
  lemma {:induction false} SplitCount(s: string, d: char, limit: nat)
    requires limit >= 1
    ensures |Split(s, d, limit)| == CountFields(Occurrences(s, d), limit)
    decreases |s|
  {
    if limit > 1 && |s| > 0 {
      if s[0] == d {
        SplitCount(s[1..], d, limit - 1);
      } else {
        SplitCount(s[1..], d, limit);
      }
    }
  }

  /** The source writes past its field array exactly when the record holds
      four or more delimiters; `"a:b:c:d:e"` is such a record. */
  lemma FourthDelimiterOverflows(record: string, d: char)
    ensures |FieldsAsWritten(record, d)| > Idle + 1 <==> Occurrences(record, d) >= 4
    ensures |FieldsAsWritten("a:b:c:d:e", ':')| == Idle + 2
  {
    SplitCount(record, d, Idle + 2);
    SplitCount("a:b:c:d:e", ':', Idle + 2);
    assert Occurrences("a:b:c:d:e", ':') == 4;
  }

  /** The corrected fields stay within the array and lose nothing. */
  lemma FieldsRoundTrip(record: string, d: char)
    ensures |Fields(record, d)| == CountFields(Occurrences(record, d), Idle + 1)
    ensures Join(Fields(record, d), d) == record
  {
    SplitCount(record, d, Idle + 1);
    SplitJoin(record, d, Idle + 1);
  }

  // ---------------------------------------------------------------------
  // The idle field

  /** A string equals at most one of two names that differ ignoring case. */
  lemma CaseEqExclusive(f: string, a: string, b: string)
    requires |a| == |b| && |a| > 0 && Fold(a[0]) != Fold(b[0])
    ensures !CaseEq(f, a) || !CaseEq(f, b)
  {
    CaseEqIsEquivalence(f, a, a);
    CaseEqIsEquivalence(a, f, b);
  }

  /** The idle time an idle field gives: a preset name in any case, or a
      positive number; anything else, or no field, keeps `Slow`.  A negative
      number wraps around to a large unsigned value. */
  function IdleTime(field: Option<string>): (ms: nat)
    ensures 0 < ms < 0x1_0000_0000
    ensures field.None? ==> ms == Slow
    ensures field.Some? && CaseEq(field.value, "fast") ==> ms == Fast
    ensures field.Some? && CaseEq(field.value, "fastest") ==> ms == Fastest
    ensures field.Some? && CaseEq(field.value, "slow") ==> ms == Slow
    ensures field.Some? && CaseEq(field.value, "lame") ==> ms == Lame
  {
    match field
    case None => Slow
    case Some(f) =>
      CaseEqExclusive(f, "fast", "slow");
      CaseEqExclusive(f, "fast", "lame");
      CaseEqExclusive(f, "slow", "lame");
      if CaseEq(f, "fast") then Fast
      else if CaseEq(f, "fastest") then Fastest
      else if CaseEq(f, "slow") then Slow
      else if CaseEq(f, "lame") then Lame
      else
        var t := ToUnsigned32(Atoi(f));
        if t > 0 then t else Slow
  }

  predicate IsPresetName(f: string) {
    CaseEq(f, "fast") || CaseEq(f, "fastest") || CaseEq(f, "slow") || CaseEq(f, "lame")
  }

  /** A field that names no preset is read as a number: a positive value
      below 2^32 is taken as it is, a negative one wraps, zero keeps `Slow`. */
  lemma IdleTimeOfNumber(f: string)
    requires !IsPresetName(f)
    ensures 0 < Atoi(f) < 0x1_0000_0000 ==> IdleTime(Some(f)) == Atoi(f)
    ensures -0x1_0000_0000 < Atoi(f) < 0 ==> IdleTime(Some(f)) == Atoi(f) + 0x1_0000_0000
    ensures Atoi(f) == 0 ==> IdleTime(Some(f)) == Slow
  {
  }

  // ---------------------------------------------------------------------
  // add

  /** `add`: the icon a record describes, or `None` when it has no command
      field.  The record is read as a C string and cut at its comment. */
  function Add(line: string, d: char, home: string): (r: Option<Icon>)
    ensures r.None? <==> d !in StripComment(CString(line))
    ensures r.Some? ==> var f := Fields(StripComment(CString(line)), d);
                        && |f| > Command
                        && r.value.image == Expand(f[Image], home)
                        && r.value.command == Expand(f[Command], home)
                        && r.value.title == (if |f| > Title then Tokens(f[Title], {';'}) else [])
                        && r.value.idleTime == IdleTime(if |f| > Idle then Some(f[Idle]) else None)
  {
    var record := StripComment(CString(line));
    var f := Fields(record, d);
    FieldsRoundTrip(record, d);
    if |f| <= Command then None
    else
      var title := if |f| > Title then f[Title] else "";
      var idle := if |f| > Idle then Some(f[Idle]) else None;
      Some(NewIcon(f[Image], f[Command], title, home, IdleTime(idle)))
  }

  predicate PlainField(s: string, d: char) {
    d !in s && '#' !in s && NulFree(s)
  }

  /** Reading back a record written from its fields gives the icon made from
      them; a missing title gives no titles and a missing idle field `Slow`. */
  lemma AddOfRecord(image: string, command: string, title: string, home: string, d: char)
    requires d != '#' && d != '\0'
    requires PlainField(image, d) && PlainField(command, d) && PlainField(title, d)
    ensures Add(image + [d] + command, d, home) == Some(NewIcon(image, command, "", home, Slow))
    ensures Add(image + [d] + command + [d] + title, d, home) == Some(NewIcon(image, command, title, home, Slow))
  {
    var fs2 := [image, command];
    var fs3 := [image, command, title];
    assert Join(fs2, d) == image + [d] + command by {
      assert fs2[1..] == [command];
    }
    assert Join(fs3, d) == image + [d] + command + [d] + title by {
      assert fs3[1..] == [command, title];
      assert fs3[1..][1..] == [title];
      assert Join(fs3[1..], d) == command + [d] + title;
      assert Join(fs3, d) == image + [d] + (command + [d] + title);
    }
    PlainJoin(fs2, d);
    PlainJoin(fs3, d);
    SplitOfJoin(fs2, d, Idle + 1);
    SplitOfJoin(fs3, d, Idle + 1);
  }

  lemma {:induction false} PlainJoin(fs: seq<string>, d: char)
    requires |fs| >= 1 && d != '#' && d != '\0'
    requires forall i :: 0 <= i < |fs| ==> PlainField(fs[i], d)
    ensures '#' !in Join(fs, d) && NulFree(Join(fs, d))
    ensures StripComment(CString(Join(fs, d))) == Join(fs, d)
  {
    if |fs| > 1 {
      PlainJoin(fs[1..], d);
    }
    CStringOfNulFree(Join(fs, d));
  }

  // ---------------------------------------------------------------------
  // Options

  /** `-m TYPE`: the mark and its margins.  "play" keeps the margins; an
      unknown name changes nothing. */
  function MarkOption(st: Settings.Settings, name: string): (r: Settings.Settings)
    ensures CaseEq(name, "play") ==> r == st.(markType := Render.PlayMark)
    ensures CaseEq(name, "dots") ==> r == st.(markType := Render.DotsMark, markLeft := -1, markTop := -1)
    ensures CaseEq(name, "corner") ==> r == st.(markType := Render.CornerMark, markLeft := -1, markTop := -1)
    ensures CaseEq(name, "cross") ==> r == st.(markType := Render.CrossMark, markLeft := -1, markTop := 0)
    ensures !(CaseEq(name, "play") || CaseEq(name, "dots") || CaseEq(name, "corner") || CaseEq(name, "cross")) ==> r == st
  {
    CaseEqExclusive(name, "play", "dots");
    if CaseEq(name, "play") then st.(markType := Render.PlayMark)
    else if CaseEq(name, "dots") then st.(markType := Render.DotsMark, markLeft := -1, markTop := -1)
    else if CaseEq(name, "corner") then st.(markType := Render.CornerMark, markLeft := -1, markTop := -1)
    else if CaseEq(name, "cross") then st.(markType := Render.CrossMark, markLeft := -1, markTop := 0)
    else st
  }

  /** A later `-m` other than "play" decides the mark completely, and the
      default mark is what `-m cross` gives. */
  lemma LaterMarkOptionWins(st: Settings.Settings, first: string, second: string)
    requires CaseEq(second, "dots") || CaseEq(second, "corner") || CaseEq(second, "cross")
    ensures MarkOption(MarkOption(st, first), second) == MarkOption(st, second)
    ensures MarkOption(Settings.Defaults, "cross") == Settings.Defaults
  {
    assert CaseEq("cross", "cross");
  }

  /** `-r ACTION` and `-l ACTION`: the action a name selects. */
  function ParseAction(name: string): (r: Option<Settings.ClickAction>)
    ensures r.None? <==> !(CaseEq(name, "nothing") || CaseEq(name, "iconify") || CaseEq(name, "lower") || CaseEq(name, "close"))
  {
    if CaseEq(name, "nothing") then Some(Settings.DoNothing)
    else if CaseEq(name, "iconify") then Some(Settings.IconifyApplication)
    else if CaseEq(name, "lower") then Some(Settings.LowerApplication)
    else if CaseEq(name, "close") then Some(Settings.CloseApplication)
    else None
  }

  function ActionName(a: Settings.ClickAction): string {
    match a
    case DoNothing => "nothing"
    case IconifyApplication => "iconify"
    case LowerApplication => "lower"
    case CloseApplication => "close"
  }

  /** Every action has a name that selects it, in any letter case. */
  lemma ParseActionName(a: Settings.ClickAction, name: string)
    requires CaseEq(name, ActionName(a))
    ensures ParseAction(name) == Some(a)
  {
    var n := ActionName(a);
    CaseEqIsEquivalence(name, n, n);
    CaseEqExclusive(name, "nothing", "iconify");
    CaseEqExclusive(name, "lower", "close");
  }

  // ---------------------------------------------------------------------
  // The resource file name

  /** `loadRC`: `HOME/.NAMErc` where NAME is the program name after its last
      `/`.  The source tests the position of that `/` for truth, so a `/`
      found at index 0 is not stripped; with no `/` at all the not-found
      position plus one is 0 and the whole name is kept. */
  function RcFileNameAsWritten(binary: string, home: string): (r: string)
    ensures |r| >= |home| + 4 && r[..|home| + 2] == home + "/." && r[|r| - 2..] == "rc"
    ensures var n := r[|home| + 2..|r| - 2];
            |n| <= |binary| && n == binary[|binary| - |n|..] &&
            ('/' !in n <==> LastIndexOf(binary, '/') != Some(0))
  {
    var name := match LastIndexOf(binary, '/')
      case None => binary
      case Some(p) => if p == 0 then binary else binary[p + 1..];
    home + "/." + name + "rc"
  }

  /** The name after the last `/`. */
  function Basename(binary: string): (r: string)
    ensures '/' !in r
    ensures |r| <= |binary| && r == binary[|binary| - |r|..]
    ensures |r| < |binary| ==> binary[|binary| - |r| - 1] == '/'
  {
    match LastIndexOf(binary, '/')
    case None => binary
    case Some(p) => binary[p + 1..]
  }

  function RcFileName(binary: string, home: string): (r: string)
    ensures r == home + "/." + Basename(binary) + "rc"
    ensures |r| >= |home| + 4 && r[..|home| + 2] == home + "/." && r[|r| - 2..] == "rc"
    ensures var n := r[|home| + 2..|r| - 2];
            '/' !in n && |n| <= |binary| && n == binary[|binary| - |n|..] &&
            (|n| < |binary| ==> binary[|binary| - |n| - 1] == '/')
  {
    home + "/." + Basename(binary) + "rc"
  }

  /** The two agree except when the only `/` is the first character; then
      the source names a file that is not hidden and sits under a `.`
      directory component: `/bbdock` gives `HOME/./bbdockrc`. */
  lemma RcFileNameOfRootPath(name: string, home: string)
    requires |name| > 0 && '/' !in name
    ensures RcFileNameAsWritten("/" + name, home) == home + "/./" + name + "rc"
    ensures RcFileName("/" + name, home) == home + "/." + name + "rc"
    ensures RcFileNameAsWritten("/" + name, home) != RcFileName("/" + name, home)
  {
    var b := "/" + name;
    assert b[1..] == name;
    assert LastIndexOf(b, '/') == Some(0);
    var x := RcFileNameAsWritten(b, home);
    var y := RcFileName(b, home);
    assert x[|home| + 2] == '/';
    assert y[|home| + 2] == name[0];
  }

  lemma RcFileNameAgrees(binary: string, home: string)
    requires LastIndexOf(binary, '/') != Some(0)
    ensures RcFileNameAsWritten(binary, home) == RcFileName(binary, home)
  {
  }

  /** The file name depends only on the program's base name. */
  lemma RcFileNameIgnoresDirectory(dir: string, name: string, home: string)
    requires '/' !in name
    ensures RcFileName(dir + "/" + name, home) == RcFileName(name, home)
  {
    var b := dir + "/" + name;
    assert b[|dir|] == '/';
    assert b[|dir| + 1..] == name;
  }
}

=== FILE: dock.dfy ===
/** `Dock`: the list of tiles, the main loop that ticks them between X events
    and dispatches events to them, and the two remote requests another
    instance can send (change an icon, execute an icon).

    One step of the main loop is `RunStep`; the X event it handles, if any,
    and everything the outside world answers (window properties, grabs,
    `fork`, `waitpid`, the decoded PNG of a new icon) come in as parameters. */
module Docks {
  import opened Base
  import opened Effects
  import opened Icons
  import opened Slots
  import Render
  import WindowManager
  import Settings

  /** Tiles are kept newest first, so every pass over them visits the last
      added tile first. */
  datatype Dock = Dock(settings: Settings.Settings, bitsPerPixel: int, slots: seq<Slot>)

  predicate AllValid(slots: seq<Slot>) {
    forall i :: 0 <= i < |slots| ==> Valid(slots[i])
  }

  // ---------------------------------------------------------------------
  // Start-up

  /** One entry of `XListPixmapFormats`. */
  datatype PixmapFormat = PixmapFormat(depth: int, bitsPerPixel: int)

  /** Position of the last format of the given depth. */
  function LastOfDepth(formats: seq<PixmapFormat>, depth: int): (r: Option<nat>)
    ensures r.Some? ==> r.value < |formats| && formats[r.value].depth == depth
    ensures r.Some? ==> forall j :: r.value < j < |formats| ==> formats[j].depth != depth
    ensures r.None? ==> forall j :: 0 <= j < |formats| ==> formats[j].depth != depth
  {
    if |formats| == 0 then None
    else if formats[|formats| - 1].depth == depth then Some(|formats| - 1)
    else LastOfDepth(formats[..|formats| - 1], depth)
  }

  /** Bits per pixel of a screen-compatible image: the formats are searched
      from the last one for the default depth; without a match the depth
      itself is used. */
  function BitsPerPixel(defaultDepth: int, formats: seq<PixmapFormat>): (bpp: int)
    ensures (forall j :: 0 <= j < |formats| ==> formats[j].depth != defaultDepth) ==> bpp == defaultDepth
    ensures (exists j :: 0 <= j < |formats| && formats[j].depth == defaultDepth) ==>
              exists j :: 0 <= j < |formats| && formats[j].depth == defaultDepth && bpp == formats[j].bitsPerPixel &&
                          forall k :: j < k < |formats| ==> formats[k].depth != defaultDepth
  {
    match LastOfDepth(formats, defaultDepth)
    case None => defaultDepth
    case Some(j) => formats[j].bitsPerPixel
  }

  /** `add`: a missing icon is refused; otherwise its tile is created (which
      loads the image and can abandon start-up) and put in front. */
  function Add(d: Dock, icon: Option<Icon>, window: nat, png: Option<Png>): (r: Result<(Dock, bool)>)
    requires png.Some? ==> WellFormedPng(png.value)
    requires AllValid(d.slots)
    ensures icon.None? ==> r == Success((d, false))
    ensures r.Success? ==> AllValid(r.value.0.slots) && r.value.0.settings == d.settings
    ensures r.Success? && icon.Some? ==>
              r.value.1 && |r.value.0.slots| == |d.slots| + 1 && r.value.0.slots[1..] == d.slots &&
              r.value.0.slots[0].icon == icon.value && r.value.0.slots[0].pid == 0
  {
    match icon
    case None => Success((d, false))
    case Some(i) =>
      match NewSlot(window, i, d.settings, d.bitsPerPixel, png)
      case Failure(e) => Failure(e)
      case Success(s) =>
        var slots := [s] + d.slots;
        assert slots[1..] == d.slots;
        Success((d.(slots := slots), true))
  }

  // ---------------------------------------------------------------------
  // Clicks

  /** The close cross: a negative margin counts from the right or bottom
      edge of the icon, and a click hits when it falls strictly inside the
      8-pixel box after the margin. */
  function CrossHit(st: Settings.Settings, s: Slot, x: int, y: int): (hit: bool)
    ensures hit ==> st.markType == Render.CrossMark
  {
    var l := if st.markLeft < 0 then s.g.width - 6 + st.markLeft else st.markLeft;
    var t := if st.markTop < 0 then s.g.height - 6 + st.markTop else st.markTop;
    var rx, ry := x - s.left, y - s.top;
    st.markType == Render.CrossMark && l < rx < l + 8 && t < ry < t + 8
  }

  /** With the presets, the cross is hit on the seven columns ending at the
      icon's right edge and the seven rows below its top line. */
  lemma DefaultCrossHit(s: Slot, x: int, y: int)
    ensures CrossHit(Settings.Defaults, s, x, y) <==>
              s.g.width - 7 < x - s.left <= s.g.width && 0 < y - s.top < 8
  {
  }

  /** A configured click action on a tile. */
  function ApplyAction(s: Slot, a: Settings.ClickAction, srv: WindowManager.Server, cs: bool): (r: (Slot, seq<Effect>))
    ensures r.0 == s.(cache := r.0.cache)
    ensures NoSpawn(r.1)
    ensures a == Settings.DoNothing ==> r == (s, [])
  {
    match a
    case DoNothing => (s, [])
    case IconifyApplication => IconifyApplication(s, srv, cs)
    case LowerApplication => LowerApplication(s, srv, cs)
    case CloseApplication => CloseApplication(s, srv, cs)
  }

  /** Left button: the cross closes the program; a focused tile with a
      configured action runs it; anything else is `exec`. */
  function LeftClick(st: Settings.Settings, s: Slot, x: int, y: int, srv: WindowManager.Server,
                     launch: Launch, grab: Option<seq<byte>>): (r: Result<(Slot, seq<Effect>)>)
    requires Valid(s)
    requires launch.Forked? ==> launch.child > 0
    requires grab.Some? ==> |grab.value| == |s.image|
    ensures r.Success? ==> Valid(r.value.0)
    ensures CrossHit(st, s, x, y) ==> r == Success(CloseApplication(s, srv, st.caseSensitive))
    ensures !CrossHit(st, s, x, y) && st.leftClickAction == Settings.DoNothing ==>
              r == Exec(s, st, srv, None, launch, grab)
    ensures !CrossHit(st, s, x, y) && st.leftClickAction != Settings.DoNothing ==>
              var (focus, s1) := HasFocus(s, srv, st.caseSensitive);
              r == if focus then Success(ApplyAction(s1, st.leftClickAction, srv, st.caseSensitive))
                   else Exec(s1, st, srv, None, launch, grab)
  {
    if CrossHit(st, s, x, y) then Success(CloseApplication(s, srv, st.caseSensitive))
    else if st.leftClickAction == Settings.DoNothing then Exec(s, st, srv, None, launch, grab)
    else
      var (focus, s1) := HasFocus(s, srv, st.caseSensitive);
      if focus then Success(ApplyAction(s1, st.leftClickAction, srv, st.caseSensitive))
      else Exec(s1, st, srv, None, launch, grab)
  }

  /** A left click launches a program only when it misses the cross and,
      with a configured left-click action, the tile has no focus. */
  lemma LeftClickSpawnsOnlyViaExec(st: Settings.Settings, s: Slot, x: int, y: int, srv: WindowManager.Server,
                                   launch: Launch, grab: Option<seq<byte>>)
    requires Valid(s)
    requires launch.Forked? ==> launch.child > 0
    requires grab.Some? ==> |grab.value| == |s.image|
    requires CrossHit(st, s, x, y) ||
             (st.leftClickAction != Settings.DoNothing && HasFocus(s, srv, st.caseSensitive).0)
    ensures var r := LeftClick(st, s, x, y, srv, launch, grab);
            r.Success? && NoSpawn(r.value.1) && r.value.0 == s.(cache := r.value.0.cache)
  {
  }

  /** Right button: the configured action; "nothing" does nothing. */
  function RightClick(st: Settings.Settings, s: Slot, srv: WindowManager.Server): (r: (Slot, seq<Effect>))
    ensures r == ApplyAction(s, st.rightClickAction, srv, st.caseSensitive)
    ensures NoSpawn(r.1) && r.0 == s.(cache := r.0.cache)
    ensures st.rightClickAction == Settings.DoNothing ==> r == (s, [])
  {
    ApplyAction(s, st.rightClickAction, srv, st.caseSensitive)
  }

  // ---------------------------------------------------------------------
  // Remote requests

  const ChangeIconMessage: string := "_BBDOCK_CHANGE_ICON_"
  const ExecuteIconMessage: string := "_BBDOCK_EXECUTE_ICON_"

  /** `changeIcon`: the property text sent, or nothing when an argument is
      empty. */
  function ChangeIconPayload(cmd: string, icon: string): (r: Option<string>)
    ensures r.None? <==> |cmd| == 0 || |icon| == 0
    ensures r.Some? ==> |r.value| == |cmd| + 1 + |icon| && r.value[..|cmd|] == cmd && r.value[|cmd|] == ':' &&
                        r.value[|cmd| + 1..] == icon
  {
    if |cmd| == 0 || |icon| == 0 then None else Some(cmd + ":" + icon)
  }

  /** `executeIcon`: the property text sent, or nothing for an empty command. */
  function ExecutePayload(cmd: string): (r: Option<string>)
    ensures r.None? <==> |cmd| == 0
    ensures r.Some? ==> r.value == cmd
  {
    if |cmd| == 0 then None else Some(cmd)
  }

  /** `strtok`: skip leading delimiters; the token runs to the next
      delimiter, which is consumed; `None` when only delimiters remain. */
  function StrTok(s: string, delims: set<char>): (r: Option<(string, string)>)
    ensures r.None? <==> AllDelims(s, delims)
    ensures r.Some? ==> |r.value.0| > 0 && NoDelims(r.value.0, delims)
  {
    var start := FindFirstNotOf(s, delims, 0);
    if start == |s| then None
    else
      var end := FindFirstOf(s, delims, start);
      Some((s[start..end], if end < |s| then s[end + 1..] else ""))
  }

  /** What the receiving dock reads from a change-icon message: the command
      up to the first `:`, and the icon up to the next line break. */
  function DecodeChangeIcon(prop: string): (r: Option<(string, string)>)
    ensures r.Some? ==> |r.value.0| > 0 && ':' !in r.value.0 && |r.value.1| > 0 && '\n' !in r.value.1
  {
    match StrTok(prop, {':'})
    case None => None
    case Some((cmd, rest)) =>
      match StrTok(rest, {'\n'})
      case None => None
      case Some((icon, _)) => Some((cmd, icon))
  }

  /** Encoding then decoding recovers the request, for a command without `:`
      and an icon without line breaks, neither holding a NUL. */
  lemma ChangeIconRoundTrip(cmd: string, icon: string)
    requires |cmd| > 0 && ':' !in cmd && NulFree(cmd)
    requires |icon| > 0 && '\n' !in icon && NulFree(icon)
    ensures ChangeIconPayload(cmd, icon).Some?
    ensures DecodeChangeIcon(CString(ChangeIconPayload(cmd, icon).value)) == Some((cmd, icon))
  {
    var p := cmd + ":" + icon;
    assert NulFree(p) by {
      forall i | 0 <= i < |p| ensures p[i] != '\0' {
        if i < |cmd| { assert p[i] == cmd[i]; }
        else if i > |cmd| { assert p[i] == icon[i - |cmd| - 1]; }
      }
    }
    CStringOfNulFree(p);
    var n := FindFirstOf(p, {':'}, 0);
    assert p[0] == cmd[0];
    assert p[|cmd|] == ':';
    assert forall j :: 0 <= j < |cmd| ==> p[j] == cmd[j];
    assert n == |cmd|;
    assert p[..|cmd|] == cmd;
    assert p[|cmd| + 1..] == icon;
    assert icon[0] != '\n';
    assert FindFirstOf(icon, {'\n'}, 0) == |icon|;
    assert icon[0..|icon|] == icon;
  }

  /** The slot a change-icon request goes to: the first whose command matches
      in any case and whose (expanded) image differs in some letter. */
  function ChangeTarget(slots: seq<Slot>, cmd: string, icon: string): (r: Option<nat>)
    ensures r.Some? ==> r.value < |slots| && CaseEq(slots[r.value].icon.command, cmd) &&
                        !CaseEq(slots[r.value].icon.image, icon)
    ensures r.Some? ==> forall k :: 0 <= k < r.value ==>
                          !(CaseEq(slots[k].icon.command, cmd) && !CaseEq(slots[k].icon.image, icon))
    ensures r.None? ==> forall k :: 0 <= k < |slots| ==>
                          !(CaseEq(slots[k].icon.command, cmd) && !CaseEq(slots[k].icon.image, icon))
  {
    WindowManager.FirstWhere(slots, (s: Slot) => CaseEq(s.icon.command, cmd) && !CaseEq(s.icon.image, icon))
  }

  /** The slot an execute request goes to: the first whose command matches. */
  function ExecuteTarget(slots: seq<Slot>, cmd: string): (r: Option<nat>)
    ensures r.Some? ==> r.value < |slots| && CaseEq(slots[r.value].icon.command, cmd)
    ensures r.Some? ==> forall k :: 0 <= k < r.value ==> !CaseEq(slots[k].icon.command, cmd)
    ensures r.None? ==> forall k :: 0 <= k < |slots| ==> !CaseEq(slots[k].icon.command, cmd)
  {
    WindowManager.FirstWhere(slots, (s: Slot) => CaseEq(s.icon.command, cmd))
  }

  /** What the outside world answers during one step of the loop. */
  datatype World = World(
    srv: WindowManager.Server,
    launch: Launch,                    // what fork() returns if a launch happens
    grabs: seq<Option<seq<byte>>>,     // per tile, what getBackground would grab
    exited: seq<bool>,                 // per tile, whether waitpid reports the child
    selectionOwner: bool,              // whether PRIMARY has an owner
    png: Option<Png>,                  // the decoded image of a changed icon
    iconGrab: Option<seq<byte>>,       // what getBackground grabs into the changed icon's surface
    home: string)                      // the value of HOME

  predicate Fits(d: Dock, w: World) {
    && AllValid(d.slots)
    && |w.grabs| == |d.slots| && |w.exited| == |d.slots|
    && (forall i :: 0 <= i < |d.slots| ==> w.grabs[i].Some? ==> |w.grabs[i].value| == |d.slots[i].image|)
    && (w.launch.Forked? ==> w.launch.child > 0)
    && (w.png.Some? ==> WellFormedPng(w.png.value))
    && (w.iconGrab.Some? ==> w.png.Some? && |w.iconGrab.value| == SurfaceSize(d.bitsPerPixel, w.png.value))
  }

  /** Replace tile `i` by the result of an operation on it. */
  function Update(d: Dock, i: nat, r: (Slot, seq<Effect>)): (out: (Dock, seq<Effect>))
    requires i < |d.slots|
    ensures |out.0.slots| == |d.slots| && out.0.slots[i] == r.0 && out.1 == r.1
    ensures forall k :: 0 <= k < |d.slots| && k != i ==> out.0.slots[k] == d.slots[k]
    ensures out.0.settings == d.settings && out.0.bitsPerPixel == d.bitsPerPixel
  {
    (d.(slots := d.slots[i := r.0]), r.1)
  }

  /** `client`: a message addressed to no tile.  `prop` is the message's
      property, `None` when it cannot be read; it is read as a C string. */
  function Client(d: Dock, message: string, prop: Option<string>, w: World): (r: Result<(Dock, seq<Effect>)>)
    requires Fits(d, w)
    ensures r.Success? ==> AllValid(r.value.0.slots) && |r.value.0.slots| == |d.slots|
    ensures r.Success? ==> r.value.0.settings == d.settings && r.value.0.bitsPerPixel == d.bitsPerPixel
    ensures prop.None? || (message != ChangeIconMessage && message != ExecuteIconMessage) ==> r == Success((d, []))
  {
    if prop.None? then Success((d, []))
    else if message == ChangeIconMessage then ChangeIconRequest(d, CString(prop.value), w)
    else if message == ExecuteIconMessage then ExecuteRequest(d, CString(prop.value), w)
    else Success((d, []))
  }

  /** The change-icon branch of `client`: decode the request and give the
      first matching tile the new image. */
  function ChangeIconRequest(d: Dock, text: string, w: World): (r: Result<(Dock, seq<Effect>)>)
    requires Fits(d, w)
    ensures r.Success? ==> AllValid(r.value.0.slots) && |r.value.0.slots| == |d.slots|
    ensures r.Success? ==> r.value.0.settings == d.settings && r.value.0.bitsPerPixel == d.bitsPerPixel
    ensures DecodeChangeIcon(text).None? ==> r == Success((d, []))
  {
    match DecodeChangeIcon(text)
    case None => Success((d, []))
    case Some((cmd, icon)) =>
      match ChangeTarget(d.slots, cmd, icon)
      case None => Success((d, []))
      case Some(i) => SetIconOf(d, i, icon, w)
  }

  /** `setIcon` on tile `i`, with the rest of the dock kept. */
  function SetIconOf(d: Dock, i: nat, icon: string, w: World): (r: Result<(Dock, seq<Effect>)>)
    requires Fits(d, w) && i < |d.slots|
    ensures var e := SetIcon(d.slots[i], d.settings, icon, w.home, d.bitsPerPixel, w.png, w.iconGrab);
            (r.Failure? <==> e.Failure?) &&
            (e.Success? ==> r == Success((d.(slots := d.slots[i := e.value.0]), e.value.1)))
    ensures r.Success? ==> AllValid(r.value.0.slots) && |r.value.0.slots| == |d.slots|
    ensures r.Success? ==> r.value.0.settings == d.settings && r.value.0.bitsPerPixel == d.bitsPerPixel
  {
    assert Valid(d.slots[i]);
    match SetIcon(d.slots[i], d.settings, icon, w.home, d.bitsPerPixel, w.png, w.iconGrab)
    case Failure(e) => Failure(e)
    case Success(res) => Success(Update(d, i, res))
  }

  /** The execute branch of `client`: run `exec` on the first tile with the
      command. */
  function ExecuteRequest(d: Dock, text: string, w: World): (r: Result<(Dock, seq<Effect>)>)
    requires Fits(d, w)
    ensures r.Success? ==> AllValid(r.value.0.slots) && |r.value.0.slots| == |d.slots|
    ensures r.Success? ==> r.value.0.settings == d.settings && r.value.0.bitsPerPixel == d.bitsPerPixel
    ensures ExecuteTarget(d.slots, text).None? ==> r == Success((d, []))
  {
    match ExecuteTarget(d.slots, text)
    case None => Success((d, []))
    case Some(i) =>
      assert Valid(d.slots[i]);
      match Exec(d.slots[i], d.settings, w.srv, None, w.launch, w.grabs[i])
      case Failure(e) => Failure(e)
      case Success(res) => Success(Update(d, i, res))
  }

  /** An execute request sent for a command runs `exec` on the newest tile
      with that command, in any case, and leaves every other tile alone. */
  lemma ExecuteRequestRunsFirstMatch(d: Dock, cmd: string, w: World, i: nat)
    requires Fits(d, w) && |cmd| > 0 && NulFree(cmd)
    requires i < |d.slots| && CaseEq(d.slots[i].icon.command, cmd)
    requires forall k :: 0 <= k < i ==> !CaseEq(d.slots[k].icon.command, cmd)
    ensures var r := Client(d, ExecuteIconMessage, ExecutePayload(cmd), w);
            var e := Exec(d.slots[i], d.settings, w.srv, None, w.launch, w.grabs[i]);
            (e.Failure? ==> r.Failure?) &&
            (e.Success? ==> r.Success? && r.value.0.slots == d.slots[i := e.value.0] && r.value.1 == e.value.1)
  {
    CStringOfNulFree(cmd);
    var t := ExecuteTarget(d.slots, cmd);
    assert t == Some(i);
  }

  /** An execute request for a command no tile has changes nothing. */
  lemma ExecuteRequestForUnknownCommand(d: Dock, cmd: string, w: World)
    requires Fits(d, w) && NulFree(cmd)
    requires forall k :: 0 <= k < |d.slots| ==> !CaseEq(d.slots[k].icon.command, cmd)
    ensures Client(d, ExecuteIconMessage, Some(cmd), w) == Success((d, []))
  {
    CStringOfNulFree(cmd);
  }

  /** A change-icon request goes to the newest tile with that command whose
      image differs, and gives it the new image; every other tile is left
      alone. */
  lemma ChangeIconRequestSetsFirstMatch(d: Dock, cmd: string, icon: string, w: World, i: nat)
    requires Fits(d, w)
    requires |cmd| > 0 && ':' !in cmd && NulFree(cmd)
    requires |icon| > 0 && '\n' !in icon && NulFree(icon)
    requires i < |d.slots| && CaseEq(d.slots[i].icon.command, cmd) && !CaseEq(d.slots[i].icon.image, icon)
    requires forall k :: 0 <= k < i ==> !(CaseEq(d.slots[k].icon.command, cmd) && !CaseEq(d.slots[k].icon.image, icon))
    ensures var r := Client(d, ChangeIconMessage, ChangeIconPayload(cmd, icon), w);
            r.Success? ==> |r.value.0.slots| == |d.slots| && r.value.0.slots[i].icon.image == Expand(icon, w.home) &&
                           (forall k :: 0 <= k < |d.slots| && k != i ==> r.value.0.slots[k] == d.slots[k])
    ensures var r := Client(d, ChangeIconMessage, ChangeIconPayload(cmd, icon), w);
            var e := SetIcon(d.slots[i], d.settings, icon, w.home, d.bitsPerPixel, w.png, w.iconGrab);
            (r.Failure? <==> e.Failure?) &&
            (e.Success? ==> r == Success((d.(slots := d.slots[i := e.value.0]), e.value.1)))
    ensures var r := Client(d, ChangeIconMessage, ChangeIconPayload(cmd, icon), w);
            r.Success? ==>
              (!r.value.0.slots[i].invalid <==> w.iconGrab.Some? && d.slots[i].visibility == VisibilityUnobscured) &&
              (!r.value.0.slots[i].invalid ==> r.value.0.slots[i].background == w.iconGrab.value)
  {
    ChangeIconRoundTrip(cmd, icon);
    var t := ChangeTarget(d.slots, cmd, icon);
    assert t == Some(i);
  }

  // ---------------------------------------------------------------------
  // The main loop

  datatype Event =
    | Expose(window: nat, count: nat)
    | VisibilityNotify(window: nat, state: nat)
    | ConfigureNotify(window: nat)
    | SelectionNotify(window: nat, data: Option<string>)   // `None`: no property, or an empty one
    | ButtonRelease(window: nat, button: nat, x: int, y: int)
    | ClientMessage(window: nat, message: string, prop: Option<string>)
    | OtherEvent(window: nat)

  /** The tick pass: every tile in list order, then the wait of at most
      `Suspend` microseconds. */
  function TickAll(slots: seq<Slot>, st: Settings.Settings, w: World, from: nat): (r: (seq<Slot>, seq<Effect>))
    requires from <= |slots| && |w.grabs| == |slots| && |w.exited| == |slots| && AllValid(slots)
    requires forall i :: 0 <= i < |slots| ==> w.grabs[i].Some? ==> |w.grabs[i].value| == |slots[i].image|
    ensures |r.0| == |slots| - from && AllValid(r.0)
    decreases |slots| - from
  {
    if from == |slots| then ([], [])
    else
      var (s, es) := Tick(slots[from], st, w.exited[from], w.grabs[from]);
      var (rest, res) := TickAll(slots, st, w, from + 1);
      ([s] + rest, es + res)
  }

  /** Tile `from + k` after the pass is that tile after its own tick: the
      pass ticks each tile once, and tiles do not affect one another. */
  lemma {:induction false} TickAllTicksEach(slots: seq<Slot>, st: Settings.Settings, w: World, from: nat, k: nat)
    requires from <= |slots| && |w.grabs| == |slots| && |w.exited| == |slots| && AllValid(slots)
    requires forall i :: 0 <= i < |slots| ==> w.grabs[i].Some? ==> |w.grabs[i].value| == |slots[i].image|
    requires from + k < |slots|
    ensures TickAll(slots, st, w, from).0[k] == Tick(slots[from + k], st, w.exited[from + k], w.grabs[from + k]).0
    decreases k
  {
    TickAllHead(slots, st, w, from);
    if k > 0 {
      TickAllTicksEach(slots, st, w, from + 1, k - 1);
      assert TickAll(slots, st, w, from).0[k] == TickAll(slots, st, w, from).0[1..][k - 1];
    }
  }

  /** The pass from tile `from` is that tile's tick followed by the pass
      from the next tile. */
  lemma TickAllHead(slots: seq<Slot>, st: Settings.Settings, w: World, from: nat)
    requires from < |slots| && |w.grabs| == |slots| && |w.exited| == |slots| && AllValid(slots)
    requires forall i :: 0 <= i < |slots| ==> w.grabs[i].Some? ==> |w.grabs[i].value| == |slots[i].image|
    ensures TickAll(slots, st, w, from).0 ==
              [Tick(slots[from], st, w.exited[from], w.grabs[from]).0] + TickAll(slots, st, w, from + 1).0
    ensures TickAll(slots, st, w, from).0[0] == Tick(slots[from], st, w.exited[from], w.grabs[from]).0
    ensures TickAll(slots, st, w, from).0[1..] == TickAll(slots, st, w, from + 1).0
  {
    var t := Tick(slots[from], st, w.exited[from], w.grabs[from]).0;
    var rest := TickAll(slots, st, w, from + 1).0;
    assert ([t] + rest)[1..] == rest;
  }

  lemma {:induction false} TickAllIdle(slots: seq<Slot>, st: Settings.Settings, w: World, from: nat)
    requires from <= |slots| && |w.grabs| == |slots| && |w.exited| == |slots| && AllValid(slots)
    requires forall i :: 0 <= i < |slots| ==> w.grabs[i].Some? ==> |w.grabs[i].value| == |slots[i].image|
    requires forall i :: from <= i < |slots| ==> slots[i].pid == 0
    ensures TickAll(slots, st, w, from) == (slots[from..], [])
    decreases |slots| - from
  {
    if from < |slots| {
      TickAllIdle(slots, st, w, from + 1);
      assert Tick(slots[from], st, w.exited[from], w.grabs[from]) == (slots[from], []);
      assert slots[from..] == [slots[from]] + slots[from + 1..];
      var r := TickAll(slots, st, w, from);
      assert r.0 == slots[from..];
      assert r.1 == [];
    }
  }

  /** The tile an event is for: the first whose window it names. */
  function SlotOf(slots: seq<Slot>, window: nat): (r: Option<nat>)
    ensures r.Some? ==> r.value < |slots| && slots[r.value].window == window
    ensures r.None? ==> forall k :: 0 <= k < |slots| ==> slots[k].window != window
  {
    WindowManager.FirstWhere(slots, (s: Slot) => s.window == window)
  }

  /** An event for tile `i`. */
  function Dispatch(d: Dock, i: nat, e: Event, w: World): (r: Result<(Dock, seq<Effect>)>)
    requires Fits(d, w) && i < |d.slots|
    ensures r.Success? ==> AllValid(r.value.0.slots) && |r.value.0.slots| == |d.slots|
    ensures r.Success? ==> forall k :: 0 <= k < |d.slots| && k != i ==> r.value.0.slots[k] == d.slots[k]
  {
    var s, st, grab := d.slots[i], d.settings, w.grabs[i];
    assert Valid(s);
    match e
    case Expose(_, count) =>
      if count == 0 then Success(Update(d, i, Draw(s, st, false, grab))) else Success((d, []))
    case VisibilityNotify(_, state) =>
      Success(Update(d, i, (s.(visibility := state), [])))
    case ConfigureNotify(_) =>
      Success(Update(d, i, Draw(s.(invalid := true), st, true, grab)))
    case SelectionNotify(_, data) =>
      if data.None? then Success((d, []))
      else (match Exec(s, st, w.srv, Some(CString(data.value)), w.launch, grab)
        case Failure(err) => Failure(err)
        case Success(res) => Success(Update(d, i, res)))
    case ButtonRelease(_, button, x, y) =>
      if button == 1 then
        (match LeftClick(st, s, x, y, w.srv, w.launch, grab)
         case Failure(err) => Failure(err)
         case Success(res) => Success(Update(d, i, res)))
      else if button == 2 then
        Success((d, if w.selectionOwner then [RequestSelection(s.window)] else []))
      else if button == 3 then
        Success(Update(d, i, RightClick(st, s, w.srv)))
      else Success((d, []))
    case ClientMessage(_, _, _) => Success((d, []))
    case OtherEvent(_) => Success((d, []))
  }

  /** The last Expose of a series re-blits a tile whose background is valid
      without changing it; an earlier one does nothing. */
  lemma ExposeOnlyReblits(d: Dock, i: nat, count: nat, w: World)
    requires Fits(d, w) && i < |d.slots| && !d.slots[i].invalid
    ensures Dispatch(d, i, Expose(d.slots[i].window, count), w) ==
              Success((d, if count == 0 then [Blit(d.slots[i].image)] else []))
  {
    assert d.slots[i := d.slots[i]] == d.slots;
    assert d.(slots := d.slots) == d;
  }

  /** A move or resize grabs the background again: the tile's background is
      valid afterwards exactly when it is fully visible and the grab worked,
      and then it is the grabbed pixels; the tile is blitted once. */
  lemma ConfigureRegrabs(d: Dock, i: nat, w: World)
    requires Fits(d, w) && i < |d.slots|
    ensures var r := Dispatch(d, i, ConfigureNotify(d.slots[i].window), w);
            r.Success? && |r.value.1| == 1 &&
            (!r.value.0.slots[i].invalid <==> w.grabs[i].Some? && d.slots[i].visibility == VisibilityUnobscured) &&
            (!r.value.0.slots[i].invalid ==> r.value.0.slots[i].background == w.grabs[i].value)
  {
  }

  /** A middle click changes no tile: it only asks the owner of the primary
      selection, if any, to send the selection to the tile's window. */
  lemma MiddleClickOnlyRequestsSelection(d: Dock, i: nat, x: int, y: int, w: World)
    requires Fits(d, w) && i < |d.slots|
    ensures Dispatch(d, i, ButtonRelease(d.slots[i].window, 2, x, y), w) ==
              Success((d, if w.selectionOwner then [RequestSelection(d.slots[i].window)] else []))
  {
  }

  /** Selection data sent to a tile launches its command with the data, up
      to its first NUL, as the argument, exactly as `exec` does; without data
      nothing happens. */
  lemma SelectionRunsExec(d: Dock, i: nat, data: Option<string>, w: World)
    requires Fits(d, w) && i < |d.slots|
    ensures data.None? ==> Dispatch(d, i, SelectionNotify(d.slots[i].window, data), w) == Success((d, []))
    ensures data.Some? ==>
              var r := Dispatch(d, i, SelectionNotify(d.slots[i].window, data), w);
              var e := Exec(d.slots[i], d.settings, w.srv, Some(CString(data.value)), w.launch, w.grabs[i]);
              (r.Failure? <==> e.Failure?) &&
              (e.Success? ==> r == Success((d.(slots := d.slots[i := e.value.0]), e.value.1)))
  {
  }

  /** A visibility change only records the new state on the tile. */
  lemma VisibilityOnlyRecordsState(d: Dock, i: nat, state: nat, w: World)
    requires Fits(d, w) && i < |d.slots|
    ensures Dispatch(d, i, VisibilityNotify(d.slots[i].window, state), w) ==
              Success((d.(slots := d.slots[i := d.slots[i].(visibility := state)]), []))
  {
  }

  /** Button 1 is the left click of `Docks.LeftClick` on the tile. */
  lemma LeftButtonClicks(d: Dock, i: nat, x: int, y: int, w: World)
    requires Fits(d, w) && i < |d.slots|
    ensures var r := Dispatch(d, i, ButtonRelease(d.slots[i].window, 1, x, y), w);
            var c := LeftClick(d.settings, d.slots[i], x, y, w.srv, w.launch, w.grabs[i]);
            (r.Failure? <==> c.Failure?) &&
            (c.Success? ==> r == Success((d.(slots := d.slots[i := c.value.0]), c.value.1)))
  {
  }

  /** Button 3 runs the configured right-click action on the tile; any
      button other than 1, 2 and 3 does nothing. */
  lemma RightButtonAppliesAction(d: Dock, i: nat, button: nat, x: int, y: int, w: World)
    requires Fits(d, w) && i < |d.slots|
    ensures button == 3 ==>
              var c := RightClick(d.settings, d.slots[i], w.srv);
              Dispatch(d, i, ButtonRelease(d.slots[i].window, button, x, y), w) ==
                Success((d.(slots := d.slots[i := c.0]), c.1))
    ensures button != 1 && button != 2 && button != 3 ==>
              Dispatch(d, i, ButtonRelease(d.slots[i].window, button, x, y), w) == Success((d, []))
  {
  }

  /** One round of `run`: without tiles the loop is never entered; with no
      event pending every tile ticks and the dock waits; otherwise the event
      goes to its tile, or, as a client message, to `client`. */
  function RunStep(d: Dock, pending: Option<Event>, w: World): (r: Result<(Dock, seq<Effect>)>)
    requires Fits(d, w)
    ensures r.Success? ==> AllValid(r.value.0.slots) && |r.value.0.slots| == |d.slots|
    ensures |d.slots| == 0 ==> r == Success((d, []))
    ensures |d.slots| > 0 && pending.None? ==>
              r.Success? && |r.value.1| > 0 && r.value.1[|r.value.1| - 1] == Wait(Settings.Suspend)
  {
    if |d.slots| == 0 then Success((d, []))
    else match pending
      case None =>
        var (slots, es) := TickAll(d.slots, d.settings, w, 0);
        Success((d.(slots := slots), es + [Wait(Settings.Suspend)]))
      case Some(e) =>
        match SlotOf(d.slots, e.window)
        case Some(i) => Dispatch(d, i, e, w)
        case None =>
          if e.ClientMessage? then Client(d, e.message, e.prop, w) else Success((d, []))
  }

  /** With no program running, a quiet step changes no tile and only waits. */
  lemma QuietStepOnlyWaits(d: Dock, w: World)
    requires Fits(d, w) && |d.slots| > 0
    requires forall i :: 0 <= i < |d.slots| ==> d.slots[i].pid == 0
    ensures RunStep(d, None, w) == Success((d, [Wait(Settings.Suspend)]))
  {
    TickAllIdle(d.slots, d.settings, w, 0);
    assert d.slots[0..] == d.slots;
    assert d.(slots := d.slots) == d;
    assert [] + [Wait(Settings.Suspend)] == [Wait(Settings.Suspend)];
  }

  /** An event for no tile that is not a client message changes nothing. */
  lemma StrayEventIgnored(d: Dock, e: Event, w: World)
    requires Fits(d, w) && |d.slots| > 0
    requires SlotOf(d.slots, e.window).None? && !e.ClientMessage?
    ensures RunStep(d, Some(e), w) == Success((d, []))
  {
  }
}

=== FILE: effects.dfy ===
/** The observable actions the dock asks of the outside world: requests to
    the X server and to the process layer.  Operations of the model return
    the list of actions they would perform, in order, instead of performing
    them. */
module Effects {
  import opened Base

  datatype Effect =
    | SwitchDesktop(desktop: nat)    // _NET_CURRENT_DESKTOP client message to the root window
    | Activate(window: nat)          // _NET_ACTIVE_WINDOW client message, then XMapRaised
    | Iconify(window: nat)           // XIconifyWindow
    | Lower(window: nat)             // XLowerWindow
    | CloseWindow(window: nat)       // _NET_CLOSE_WINDOW client message
    | Terminate(pid: int)            // kill(pid, SIGTERM)
    | Spawn(commandLine: string)     // fork, setsid, execve("/bin/sh", "-c", commandLine)
    | Blit(pixels: seq<byte>)         // XPutImage of the tile surface
    | RequestSelection(window: nat)  // XConvertSelection of PRIMARY into the tile window
    | Wait(micros: nat)              // select() on the X connection with this timeout

  predicate IsSpawn(e: Effect) {
    e.Spawn?
  }

  predicate NoSpawn(es: seq<Effect>) {
    forall i :: 0 <= i < |es| ==> !IsSpawn(es[i])
  }
}

=== FILE: icon.dfy ===
/** A dock entry as read from the configuration: image file, command line,
    the window titles that make it exclusive, and the idle time that sets how
    long a launch fades in. */
module Icons {
  import opened Base

  /** Idle-time presets, in milliseconds. */
  const Fastest: nat := 250
  const Fast: nat := 500
  const Slow: nat := 5000
  const Lame: nat := 10000

  datatype Icon = Icon(command: string, image: string, title: seq<string>,
                       exclusive: bool, idleTime: nat)

  // ---------------------------------------------------------------------
  // expand

  /** Shell expansion of a leading `~` only; `home` is the value of HOME. */
  function Expand(path: string, home: string): (r: string)
    ensures |path| > 0 && path[0] == '~' ==> |r| == |home| + |path| - 1 && r[..|home|] == home && r[|home|..] == path[1..]
    ensures (|path| == 0 || path[0] != '~') ==> r == path
  {
    if |path| > 0 && path[0] == '~' then home + path[1..] else path
  }

  /** Expanding twice is expanding once, unless HOME itself starts with `~`. */
  lemma ExpandIsIdempotent(path: string, home: string)
    requires |home| == 0 || home[0] != '~'
    requires |home| > 0 || |path| < 2 || path[1] != '~'
    ensures Expand(Expand(path, home), home) == Expand(path, home)
  {
    if |path| > 0 && path[0] == '~' && |home| == 0 && |path| >= 2 {
      assert Expand(path, home)[0] == path[1];
    }
  }

  // ---------------------------------------------------------------------
  // tokenize: reference definition

  /** Length of the leading run of `s` free of delimiters. */
  function Run(s: string, delims: set<char>): (n: nat)
    ensures n <= |s|
    ensures forall i :: 0 <= i < n ==> s[i] !in delims
    ensures n == |s| || s[n] in delims
  {
    if |s| == 0 || s[0] in delims then 0 else 1 + Run(s[1..], delims)
  }

  /** The maximal delimiter-free runs of `s`, in order. */
  function Tokens(s: string, delims: set<char>): (r: seq<string>)
    ensures |r| <= |s|
    decreases |s|
  {
    if |s| == 0 then []
    else if s[0] in delims then Tokens(s[1..], delims)
    else
      var n := Run(s, delims);
      [s[..n]] + Tokens(s[n..], delims)
  }

  predicate NoDelims(s: string, delims: set<char>) {
    forall i :: 0 <= i < |s| ==> s[i] !in delims
  }

  /** No token is empty or holds a delimiter. */
  lemma {:induction false} TokensAreWords(s: string, delims: set<char>)
    ensures forall k :: 0 <= k < |Tokens(s, delims)| ==> |Tokens(s, delims)[k]| > 0 && NoDelims(Tokens(s, delims)[k], delims)
    decreases |s|
  {
    if |s| > 0 {
      if s[0] in delims {
        TokensAreWords(s[1..], delims);
      } else {
        var n := Run(s, delims);
        TokensAreWords(s[n..], delims);
        var r := Tokens(s, delims);
        assert r == [s[..n]] + Tokens(s[n..], delims);
        forall k | 0 <= k < |r|
          ensures |r[k]| > 0 && NoDelims(r[k], delims)
        {
          if k > 0 {
            assert r[k] == Tokens(s[n..], delims)[k - 1];
          }
        }
      }
    }
  }

  predicate AllDelims(s: string, delims: set<char>) {
    forall i :: 0 <= i < |s| ==> s[i] in delims
  }

  /** An empty or all-delimiter string has no tokens. */
  lemma {:induction false} TokensOfDelims(s: string, delims: set<char>)
    requires AllDelims(s, delims)
    ensures Tokens(s, delims) == []
    decreases |s|
  {
    if |s| > 0 {
      TokensOfDelims(s[1..], delims);
    }
  }

  /** A non-empty delimiter-free string is one token. */
  lemma TokensOfWord(w: string, delims: set<char>)
    requires |w| > 0 && NoDelims(w, delims)
    ensures Tokens(w, delims) == [w]
  {
    RunOfWord(w, [], delims);
    assert w + [] == w;
    assert w[..|w|] == w && w[|w|..] == [];
  }

  lemma {:induction false} RunOfWord(w: string, rest: string, delims: set<char>)
    requires NoDelims(w, delims) && (|rest| == 0 || rest[0] in delims)
    ensures Run(w + rest, delims) == |w|
    decreases |w|
  {
    if |w| > 0 {
      assert (w + rest)[1..] == w[1..] + rest;
      RunOfWord(w[1..], rest, delims);
    } else {
      assert w + rest == rest;
    }
  }

  lemma {:induction false} RunOfLonger(a: string, rest: string, delims: set<char>)
    requires Run(a, delims) < |a|
    ensures Run(a + rest, delims) == Run(a, delims)
    decreases |a|
  {
    if a[0] !in delims {
      assert (a + rest)[1..] == a[1..] + rest;
      RunOfLonger(a[1..], rest, delims);
    }
  }

  /** A delimiter splits the tokens: together with the two lemmas above this
      determines `Tokens` completely. */
  lemma {:induction false} TokensSplit(a: string, d: char, b: string, delims: set<char>)
    requires d in delims
    ensures Tokens(a + [d] + b, delims) == Tokens(a, delims) + Tokens(b, delims)
    decreases |a|
  {
    var s := a + [d] + b;
    if |a| == 0 {
      assert s[1..] == b;
    } else if a[0] in delims {
      assert s[1..] == a[1..] + [d] + b;
      TokensSplit(a[1..], d, b, delims);
    } else {
      var n := Run(a, delims);
      if n == |a| {
        RunOfWord(a, [d] + b, delims);
        assert s == a + ([d] + b);
        assert s[..n] == a;
        assert s[n..] == [d] + b;
        assert ([d] + b)[1..] == b;
        TokensOfWord(a, delims);
      } else {
        RunOfLonger(a, [d] + b, delims);
        assert s == a + ([d] + b);
        assert s[..n] == a[..n];
        assert s[n..] == a[n..] + [d] + b;
        TokensSplit(a[n..], d, b, delims);
      }
    }
  }

  // ---------------------------------------------------------------------
  // tokenize: the loop of the source

  /** `find_first_of(delims, from)`, with `|s|` standing for `npos`. */
  function FindFirstOf(s: string, delims: set<char>, from: nat): (r: nat)
    requires from <= |s|
    ensures from <= r <= |s|
    ensures forall i :: from <= i < r ==> s[i] !in delims
    ensures r == |s| || s[r] in delims
    decreases |s| - from
  {
    if from == |s| || s[from] in delims then from else FindFirstOf(s, delims, from + 1)
  }

  /** `find_first_not_of(delims, from)`, with `|s|` standing for `npos`. */
  function FindFirstNotOf(s: string, delims: set<char>, from: nat): (r: nat)
    requires from <= |s|
    ensures from <= r <= |s|
    ensures forall i :: from <= i < r ==> s[i] in delims
    ensures r == |s| || s[r] !in delims
    decreases |s| - from
  {
    if from == |s| || s[from] !in delims then from else FindFirstNotOf(s, delims, from + 1)
  }

  lemma {:induction false} SkipDelims(s: string, delims: set<char>, i: nat, j: nat)
    requires i <= j <= |s|
    requires forall k :: i <= k < j ==> s[k] in delims
    ensures Tokens(s[i..], delims) == Tokens(s[j..], delims)
    decreases j - i
  {
    if i < j {
      assert s[i..][1..] == s[i + 1..];
      SkipDelims(s, delims, i + 1, j);
    }
  }

  lemma TakeToken(s: string, delims: set<char>, i: nat, j: nat)
    requires i < j <= |s|
    requires forall k :: i <= k < j ==> s[k] !in delims
    requires j == |s| || s[j] in delims
    ensures Tokens(s[i..], delims) == [s[i..j]] + Tokens(s[j..], delims)
  {
    assert s[i..] == s[i..j] + s[j..];
    RunOfWord(s[i..j], s[j..], delims);
    assert s[i..][..j - i] == s[i..j];
    assert s[i..][j - i..] == s[j..];
  }

  /** One round of the loop of `tokenize`: the token from `last` up to the
      next delimiter, then the skip to the start of the following token. */
  lemma TokenizeStep(s: string, delims: set<char>, last: nat, next: nat)
    requires last < |s| && s[last] !in delims && next == FindFirstOf(s, delims, last)
    ensures var last' := FindFirstNotOf(s, delims, next);
            Tokens(s[last..], delims) == [s[last..next]] + Tokens(s[last'..], delims)
  {
    TakeToken(s, delims, last, next);
    SkipDelims(s, delims, next, FindFirstNotOf(s, delims, next));
  }

  /** `tokenize`: appends the tokens of `s` to `tokens`, keeping what was
      there. */
  method Tokenize(s: string, tokens: seq<string>, delims: set<char>) returns (r: seq<string>)
    ensures r == tokens + Tokens(s, delims)
  {
    var last := FindFirstNotOf(s, delims, 0);
    var next := FindFirstOf(s, delims, last);
    SkipDelims(s, delims, 0, last);
    assert s[0..] == s;
    r := tokens;
    while next < |s| || last < |s|
      invariant last <= |s| && next == FindFirstOf(s, delims, last)
      invariant last == |s| || s[last] !in delims
      invariant r + Tokens(s[last..], delims) == tokens + Tokens(s, delims)
      decreases |s| - last
    {
      TokenizeStep(s, delims, last, next);
      r := r + [s[last..next]];
      last := FindFirstNotOf(s, delims, next);
      next := FindFirstOf(s, delims, last);
    }
    assert s[last..] == [];
  }

  // ---------------------------------------------------------------------
  // The icon record

  /** `setTitle`: the `;`-separated titles are appended, and the icon is
      exclusive exactly when it has a title afterwards. */
  function SetTitle(icon: Icon, t: string): (r: Icon)
    ensures r.title == icon.title + Tokens(t, {';'})
    ensures r.exclusive <==> |r.title| > 0
    ensures r.command == icon.command && r.image == icon.image && r.idleTime == icon.idleTime
  {
    var title := icon.title + Tokens(t, {';'});
    icon.(title := title, exclusive := |title| > 0)
  }

  /** The constructor: image and command are expanded, the title is split. */
  function NewIcon(image: string, command: string, t: string, home: string, ms: nat := Slow): (r: Icon)
    ensures r.image == Expand(image, home) && r.command == Expand(command, home)
    ensures r.title == Tokens(t, {';'}) && r.idleTime == ms
    ensures r.exclusive <==> |Tokens(t, {';'})| > 0
  {
    SetTitle(Icon(Expand(command, home), Expand(image, home), [], false, ms), t)
  }

  /** Titles accumulate over repeated `setTitle` calls. */
  lemma SetTitleAccumulates(icon: Icon, a: string, b: string)
    ensures SetTitle(SetTitle(icon, a), b).title == icon.title + Tokens(a + ";" + b, {';'})
  {
    var delims := {';'};
    TokensSplit(a, ';', b, delims);
    assert a + ";" + b == a + [';'] + b;
    var ta, tb := Tokens(a, delims), Tokens(b, delims);
    assert SetTitle(SetTitle(icon, a), b).title == icon.title + ta + tb;
    assert icon.title + ta + tb == icon.title + (ta + tb);
  }

  function SetCommand(icon: Icon, s: string, home: string): (r: Icon)
    ensures r.command == Expand(s, home)
    ensures r == icon.(command := r.command)
  {
    icon.(command := Expand(s, home))
  }

  function SetImage(icon: Icon, s: string, home: string): (r: Icon)
    ensures r.image == Expand(s, home)
    ensures r == icon.(image := r.image)
  {
    icon.(image := Expand(s, home))
  }

  /** `isExclusive(bool)` overrides the flag whatever the titles are. */
  function SetExclusive(icon: Icon, e: bool): (r: Icon)
    ensures r.exclusive == e && r.title == icon.title
    ensures r == icon.(exclusive := e)
  {
    icon.(exclusive := e)
  }

  function SetIdleTime(icon: Icon, t: nat): (r: Icon)
    requires t < 0x1_0000_0000
    ensures r.idleTime == t
    ensures r == icon.(idleTime := t)
  {
    icon.(idleTime := t)
  }
}

=== FILE: pattern.dfy ===
/** The window-title wildcard matcher (`WindowManager::matchesPattern`).

    `?` consumes one character and `*` is resolved greedily from the right:
    the literal run that follows a `*` is bound to its LAST occurrence in the
    rest of the title and the matcher never backtracks.  `Glob` is the usual
    backtracking glob semantics, kept as an independent reference so that the
    lemmas below can say exactly where the two agree and where they part. */
module Pattern {
  import opened Base

  predicate IsWild(c: char) {
    c == '*' || c == '?'
  }

  predicate NoWild(p: string) {
    forall i :: 0 <= i < |p| ==> !IsWild(p[i])
  }

  /** Length of the run of `*`/`?` at the head of `p`. */
  function WildPrefix(p: string): (n: nat)
    ensures n <= |p|
    ensures forall i :: 0 <= i < n ==> IsWild(p[i])
    ensures n == |p| || !IsWild(p[n])
  {
    if |p| > 0 && IsWild(p[0]) then 1 + WildPrefix(p[1..]) else 0
  }

  /** `strcspn(p, "*?")`: length of the literal run at the head of `p`. */
  function RunLength(p: string): (n: nat)
    ensures n <= |p|
    ensures NoWild(p[..n])
    ensures n == |p| || IsWild(p[n])
  {
    if |p| > 0 && !IsWild(p[0]) then
      var n := 1 + RunLength(p[1..]);
      assert forall i :: 1 <= i < n ==> p[..n][i] == p[1..][..n - 1][i - 1];
      n
    else 0
  }

  /** `run` occurs in `l` at position `j` (exactly, or ignoring ASCII case). */
  predicate OccursAt(l: string, run: string, j: int, cs: bool) {
    0 <= j && j + |run| <= |l| &&
    forall t :: 0 <= t < |run| ==> CharMatch(run[t], l[j + t], cs)
  }

  function LastOccurrenceFrom(l: string, run: string, cs: bool, hi: int): (r: Option<nat>)
    decreases hi + 1
    ensures r.Some? ==> r.value <= hi && OccursAt(l, run, r.value, cs)
    ensures r.Some? ==> forall k :: r.value < k <= hi ==> !OccursAt(l, run, k, cs)
    ensures r.None? ==> forall k :: k <= hi ==> !OccursAt(l, run, k, cs)
  {
    if hi < 0 then None
    else if OccursAt(l, run, hi, cs) then Some(hi)
    else LastOccurrenceFrom(l, run, cs, hi - 1)
  }

  /** The position of the last occurrence of `run` in `l`, if there is one. */
  function LastOccurrence(l: string, run: string, cs: bool): (r: Option<nat>)
    ensures r.Some? ==> OccursAt(l, run, r.value, cs)
    ensures r.Some? ==> forall k :: k > r.value ==> !OccursAt(l, run, k, cs)
    ensures r.None? ==> forall k :: !OccursAt(l, run, k, cs)
  {
    LastOccurrenceFrom(l, run, cs, |l| - |run|)
  }

  /** `strstr`/`strcasestr` started at position `lo`: the first occurrence at
      or after `lo`. */
  function FirstOccurrenceFrom(l: string, run: string, cs: bool, lo: nat): (r: Option<nat>)
    decreases |l| + 1 - lo
    ensures r.Some? ==> lo <= r.value && OccursAt(l, run, r.value, cs)
    ensures r.Some? ==> forall k :: lo <= k < r.value ==> !OccursAt(l, run, k, cs)
    ensures r.None? ==> forall k :: lo <= k ==> !OccursAt(l, run, k, cs)
  {
    if lo + |run| > |l| then None
    else if OccursAt(l, run, lo, cs) then Some(lo)
    else FirstOccurrenceFrom(l, run, cs, lo + 1)
  }

  /** The search loop of the `*` branch: call `strstr` from the title start,
      remember the hit, restart one position after it, until nothing is
      found.  The remembered hit is the last occurrence. */
  method ScanLastOccurrence(l: string, run: string, cs: bool) returns (last: Option<nat>)
    requires |run| > 0
    ensures last == LastOccurrence(l, run, cs)
  {
    var pos: nat := 0;
    last := None;
    while true
      invariant pos <= |l| + 1
      invariant last.None? ==> forall k :: 0 <= k < pos ==> !OccursAt(l, run, k, cs)
      invariant last.Some? ==> last.value < pos && OccursAt(l, run, last.value, cs)
      invariant last.Some? ==> forall k :: last.value < k < pos ==> !OccursAt(l, run, k, cs)
      decreases |l| + 1 - pos
    {
      var found := FirstOccurrenceFrom(l, run, cs, pos);
      if found.None? {
        break;
      }
      last := found;
      pos := found.value + 1;
    }
    var expected := LastOccurrence(l, run, cs);
    if last.Some? {
      assert expected.Some? && expected.value == last.value;
    } else {
      assert expected.None?;
    }
  }

  /** `matchesPattern(literal, pattern, casesensitive)` as written. */
  predicate Matches(l: string, p: string, cs: bool)
    decreases |p|, 1
  {
    if |p| == 0 then |l| == 0
    else if p[0] == '*' then MatchesAfterStars(l, p[WildPrefix(p)..], cs)
    else if p[0] == '?' then |l| > 0 && Matches(l[1..], p[1..], cs)
    else |l| > 0 && CharMatch(p[0], l[0], cs) && Matches(l[1..], p[1..], cs)
  }

  /** The `*` branch, given what follows the leading wildcards: nothing
      left matches any rest of the title; otherwise the literal run is bound
      to its last occurrence and matching resumes after it. */
  predicate MatchesAfterStars(l: string, rest: string, cs: bool)
    requires |rest| == 0 || !IsWild(rest[0])
    decreases |rest|, 0
  {
    if |rest| == 0 then true
    else
      var n := RunLength(rest);
      match LastOccurrence(l, rest[..n], cs)
      case None => false
      case Some(j) => Matches(l[j + n..], rest[n..], cs)
  }

  /** Reference semantics: standard backtracking glob matching. */
  predicate Glob(l: string, p: string, cs: bool)
    decreases |p|, |l|
  {
    if |p| == 0 then |l| == 0
    else if p[0] == '*' then Glob(l, p[1..], cs) || (|l| > 0 && Glob(l[1..], p, cs))
    else if p[0] == '?' then |l| > 0 && Glob(l[1..], p[1..], cs)
    else |l| > 0 && CharMatch(p[0], l[0], cs) && Glob(l[1..], p[1..], cs)
  }

  // ---------------------------------------------------------------------
  // Anchoring and the non-`*` branches

  /** A pattern without wildcards matches exactly the titles of the same
      length that agree character by character: matching is anchored at both
      ends and literal characters compare exactly or ASCII-folded. */
  lemma {:induction false} LiteralPatternMatches(l: string, p: string, cs: bool)
    requires NoWild(p)
    ensures Matches(l, p, cs) <==>
              |l| == |p| && forall i :: 0 <= i < |p| ==> CharMatch(p[i], l[i], cs)
  {
    if |p| > 0 && |l| > 0 {
      assert NoWild(p[1..]) by {
        forall i | 0 <= i < |p[1..]| ensures !IsWild(p[1..][i]) {
          assert p[1..][i] == p[i + 1];
        }
      }
      LiteralPatternMatches(l[1..], p[1..], cs);
      if |l| == |p| && (forall i :: 0 <= i < |p| ==> CharMatch(p[i], l[i], cs)) {
        assert forall i :: 0 <= i < |p[1..]| ==> CharMatch(p[1..][i], l[1..][i], cs) by {
          forall i | 0 <= i < |p[1..]| ensures CharMatch(p[1..][i], l[1..][i], cs) {
            assert p[1..][i] == p[i + 1] && l[1..][i] == l[i + 1];
          }
        }
      }
      if Matches(l, p, cs) {
        forall i | 0 <= i < |p| ensures CharMatch(p[i], l[i], cs) {
          if i > 0 {
            assert p[1..][i - 1] == p[i] && l[1..][i - 1] == l[i];
          }
        }
      }
    }
  }

  /** A pattern made only of `?` matches exactly the titles of its length. */
  lemma {:induction false} QuestionMarksMatchLength(l: string, p: string, cs: bool)
    requires forall i :: 0 <= i < |p| ==> p[i] == '?'
    ensures Matches(l, p, cs) <==> |l| == |p|
  {
    if |p| > 0 {
      if |l| > 0 {
        QuestionMarksMatchLength(l[1..], p[1..], cs);
      }
    }
  }

  /** With a case-sensitive match, a letter only matches itself; without it,
      only 'A'..'Z' and 'a'..'z' are identified. */
  lemma CaseFoldingIsAsciiOnly(p: char, l: char)
    ensures CharMatch(p, l, true) <==> p == l
    ensures CharMatch(p, l, false) <==>
              (p == l || ('A' <= p <= 'Z' && l as int == p as int + 32)
                      || ('A' <= l <= 'Z' && p as int == l as int + 32))
  {
  }

  // ---------------------------------------------------------------------
  // The `*` branch

  /** A `*`-led pattern made only of wildcards matches every title, even the
      empty one: a `?` that follows a `*` consumes nothing. */
  lemma TrailingWildcardsMatchAll(l: string, p: string, cs: bool)
    requires |p| > 0 && p[0] == '*'
    requires forall i :: 0 <= i < |p| ==> IsWild(p[i])
    ensures Matches(l, p, cs)
  {
    assert WildPrefix(p) == |p|;
  }

  /** `*` followed by one literal run matches exactly the titles that END with
      that run: the last occurrence must leave nothing over. */
  lemma StarRunMatchesSuffix(l: string, run: string, cs: bool)
    requires |run| > 0 && NoWild(run)
    ensures Matches(l, "*" + run, cs) <==>
              |l| >= |run| && OccursAt(l, run, |l| - |run|, cs)
  {
    var p := "*" + run;
    assert p[1..] == run;
    assert WildPrefix(p) == 1 by {
      assert p[1..][0] == run[0];
    }
    var rest := p[1..];
    assert RunLength(rest) == |run|;
    assert rest[..|run|] == run;
    assert rest[|run|..] == "";
    match LastOccurrence(l, run, cs)
    case None =>
    case Some(j) =>
      assert Matches(l, p, cs) == Matches(l[j + |run|..], "", cs);
  }

  /** "*a?" rejects "aaa" although glob matching accepts it: the run "a" is
      bound to its last occurrence, index 2, and "?" then finds nothing. */
  lemma StarRunQuestionRejectsAaa(cs: bool)
    ensures !Matches("aaa", "*a?", cs)
    ensures Glob("aaa", "*a?", cs)
  {
    var p := "*a?";
    assert WildPrefix(p) == 1 by { assert p[1..][0] == 'a'; }
    assert p[1..] == "a?";
    assert RunLength("a?") == 1 by { assert "a?"[1..][0] == '?'; }
    assert "a?"[..1] == "a" && "a?"[1..] == "?";
    assert OccursAt("aaa", "a", 2, cs);
    assert LastOccurrence("aaa", "a", cs) == Some(2);
    assert "aaa"[3..] == "";
    assert Glob("a", "?", cs) by { assert "a"[1..] == "" && "?"[1..] == ""; }
    assert Glob("aa", "a?", cs) by { assert "aa"[1..] == "a" && "a?"[1..] == "?"; }
    assert "aaa"[1..][0..] == "aa" && p[1..] == "a?";
    StarSkip("aaa", p, 1, cs);
  }

  /** "*a*a" rejects "aaa" although glob matching accepts it: the first "a"
      is bound to index 2 and leaves nothing for the second. */
  lemma TwoStarRunsRejectAaa(cs: bool)
    ensures !Matches("aaa", "*a*a", cs)
    ensures Glob("aaa", "*a*a", cs)
  {
    TwoStarRunsMatchAaa(cs);
    TwoStarRunsGlobAaa(cs);
  }

  lemma TwoStarRunsMatchAaa(cs: bool)
    ensures !Matches("aaa", "*a*a", cs)
  {
    var p := "*a*a";
    assert WildPrefix(p) == 1 by { assert p[1..][0] == 'a'; }
    assert p[1..] == "a*a";
    assert RunLength("a*a") == 1 by { assert "a*a"[1..][0] == '*'; }
    assert "a*a"[..1] == "a" && "a*a"[1..] == "*a";
    assert OccursAt("aaa", "a", 2, cs);
    assert LastOccurrence("aaa", "a", cs) == Some(2);
    assert "aaa"[3..] == "";
    assert !Matches("", "*a", cs) by {
      assert WildPrefix("*a") == 1 by { assert "*a"[1..][0] == 'a'; }
      assert "*a"[1..] == "a";
      assert RunLength("a") == 1;
      assert "a"[..1] == "a";
      assert LastOccurrence("", "a", cs) == None;
    }
  }

  lemma TwoStarRunsGlobAaa(cs: bool)
    ensures Glob("aaa", "*a*a", cs)
  {
    var p := "*a*a";
    assert Glob("a", "a", cs) by { assert "a"[1..] == ""; }
    assert Glob("a", "*a", cs) by { assert "*a"[1..] == "a"; }
    assert Glob("aa", "a*a", cs) by { assert "aa"[1..] == "a" && "a*a"[1..] == "*a"; }
    assert "aaa"[1..] == "aa" && p[1..] == "a*a";
    StarSkip("aaa", p, 1, cs);
  }

  /** "*a?" accepts "ab": the run "a" is bound to index 0 and "?" takes "b". */
  lemma StarRunQuestionAcceptsAb(cs: bool)
    ensures Matches("ab", "*a?", cs)
  {
    var p := "*a?";
    assert WildPrefix(p) == 1 by { assert p[1..][0] == 'a'; }
    assert p[1..] == "a?";
    assert RunLength("a?") == 1 by { assert "a?"[1..][0] == '?'; }
    assert "a?"[..1] == "a" && "a?"[1..] == "?";
    assert OccursAt("ab", "a", 0, cs);
    assert !OccursAt("ab", "a", 1, cs) by { assert "ab"[1] == 'b'; }
    assert LastOccurrence("ab", "a", cs) == Some(0);
    assert "ab"[1..] == "b";
    assert Matches("b", "?", cs) by { assert "b"[1..] == "" && "?"[1..] == ""; }
    assert MatchesAfterStars("ab", "a?", cs);
  }

  /** "*?" accepts the empty title although glob matching rejects it: the
      `?` after a `*` consumes nothing. */
  lemma StarQuestionAcceptsEmpty(cs: bool)
    ensures Matches("", "*?", cs)
    ensures !Glob("", "*?", cs)
  {
    TrailingWildcardsMatchAll("", "*?", cs);
    assert "*?"[1..] == "?";
    assert ""[0..] == "";
  }

  /** Case-insensitive matching is not a relaxation of case-sensitive
      matching: folding can move the last occurrence of a run further right. */
  lemma CaseInsensitiveCanReject()
    ensures Matches("aA", "*a?", true)
    ensures !Matches("aA", "*a?", false)
  {
    var p := "*a?";
    assert WildPrefix(p) == 1 by { assert p[1..][0] == 'a'; }
    assert p[1..] == "a?";
    assert RunLength("a?") == 1 by { assert "a?"[1..][0] == '?'; }
    assert "a?"[..1] == "a" && "a?"[1..] == "?";
    assert OccursAt("aA", "a", 0, true);
    assert !OccursAt("aA", "a", 1, true) by { assert "aA"[1] == 'A'; }
    assert LastOccurrence("aA", "a", true) == Some(0);
    assert "aA"[1..] == "A";
    assert Matches("A", "?", true) by { assert "A"[1..] == "" && "?"[1..] == ""; }
    assert OccursAt("aA", "a", 1, false) by { assert "aA"[1] == 'A'; }
    assert LastOccurrence("aA", "a", false) == Some(1);
    assert "aA"[2..] == "";
  }

  /** A literal pattern character consumes one matching title character. */
  lemma MatchesLiteralHead(l: string, p: string, cs: bool)
    requires |p| > 0 && !IsWild(p[0])
    ensures Matches(l, p, cs) == (|l| > 0 && CharMatch(p[0], l[0], cs) && Matches(l[1..], p[1..], cs))
  {
  }

  lemma FooPrefix(l: string, cs: bool)
    requires |l| >= 3 && CharMatch('F', l[0], cs) && l[1] == 'o' && l[2] == 'o'
    ensures Matches(l, "Foo*Bar", cs) <==> Matches(l[3..], "*Bar", cs)
  {
    assert Matches(l, "Foo*Bar", cs) == Matches(l[1..], "oo*Bar", cs) by {
      MatchesLiteralHead(l, "Foo*Bar", cs);
      assert "Foo*Bar"[1..] == "oo*Bar";
    }
    assert Matches(l[1..], "oo*Bar", cs) == Matches(l[2..], "o*Bar", cs) by {
      MatchesLiteralHead(l[1..], "oo*Bar", cs);
      assert "oo*Bar"[1..] == "o*Bar" && l[1..][1..] == l[2..] && l[1..][0] == 'o';
    }
    assert Matches(l[2..], "o*Bar", cs) == Matches(l[3..], "*Bar", cs) by {
      MatchesLiteralHead(l[2..], "o*Bar", cs);
      assert "o*Bar"[1..] == "*Bar" && l[2..][1..] == l[3..] && l[2..][0] == 'o';
    }
  }

  lemma FooStarBarCase(l: string, cs: bool)
    requires |l| == 9 && CharMatch('F', l[0], cs) && l[1] == 'o' && l[2] == 'o'
    ensures Matches(l, "Foo*Bar", cs) <==> OccursAt(l[3..], "Bar", 3, cs)
  {
    FooPrefix(l, cs);
    assert Matches(l[3..], "*Bar", cs) <==> OccursAt(l[3..], "Bar", 3, cs) by {
      assert "*Bar" == "*" + "Bar";
      StarRunMatchesSuffix(l[3..], "Bar", cs);
    }
  }

  /** `Foo*Bar` matches "FooXXXBar" case-sensitively but not "fooxxxbar";
      case-insensitively it matches both. */
  lemma FooStarBarExamples()
    ensures Matches("FooXXXBar", "Foo*Bar", true)
    ensures !Matches("fooxxxbar", "Foo*Bar", true)
    ensures Matches("FooXXXBar", "Foo*Bar", false)
    ensures Matches("fooxxxbar", "Foo*Bar", false)
  {
    assert "FooXXXBar"[3..] == "XXXBar" && "fooxxxbar"[3..] == "xxxbar";
    FooStarBarCase("FooXXXBar", true);
    FooStarBarCase("FooXXXBar", false);
    FooStarBarCase("fooxxxbar", false);
    assert OccursAt("XXXBar", "Bar", 3, true);
    assert OccursAt("XXXBar", "Bar", 3, false);
    assert OccursAt("xxxbar", "Bar", 3, false);
    assert !CharMatch('F', 'f', true);
  }

  // ---------------------------------------------------------------------
  // Soundness with respect to glob matching

  /** No `?` directly follows a `*`.  Under this condition every wildcard run
      that starts with `*` is made of `*` only, which is exactly where the
      matcher's skipping of `?` would otherwise lose a character. */
  predicate NoQuestionAfterStar(p: string) {
    forall i :: 1 <= i < |p| && p[i] == '?' ==> p[i - 1] != '*'
  }

  lemma SuffixKeepsNoQuestionAfterStar(p: string, s: nat)
    requires s <= |p| && NoQuestionAfterStar(p)
    ensures NoQuestionAfterStar(p[s..])
  {
    forall i | 1 <= i < |p[s..]| && p[s..][i] == '?' ensures p[s..][i - 1] != '*' {
      assert p[s..][i] == p[s + i] && p[s..][i - 1] == p[s + i - 1];
    }
  }

  lemma {:induction false} LeadingWildcardsAreStars(p: string, m: nat)
    requires NoQuestionAfterStar(p) && |p| > 0 && p[0] == '*'
    requires m <= |p| && forall i :: 0 <= i < m ==> IsWild(p[i])
    ensures forall i :: 0 <= i < m ==> p[i] == '*'
  {
    if m > 1 {
      LeadingWildcardsAreStars(p, m - 1);
      assert p[m - 2] == '*';
    }
  }

  /** A `*` may skip any prefix of the title. */
  lemma {:induction false} StarSkip(l: string, p: string, j: nat, cs: bool)
    requires |p| > 0 && p[0] == '*' && j <= |l| && Glob(l[j..], p[1..], cs)
    ensures Glob(l, p, cs)
    decreases j
  {
    if j == 0 {
      assert l[0..] == l;
    } else {
      assert l[1..][j - 1..] == l[j..];
      StarSkip(l[1..], p, j - 1, cs);
    }
  }

  lemma {:induction false} StarPrefixGlob(l: string, p: string, m: nat, j: nat, cs: bool)
    requires 1 <= m <= |p| && forall i :: 0 <= i < m ==> p[i] == '*'
    requires j <= |l| && Glob(l[j..], p[m..], cs)
    ensures Glob(l, p, cs)
    decreases m
  {
    if m == 1 {
      StarSkip(l, p, j, cs);
    } else {
      assert p[1..][m - 1..] == p[m..];
      StarPrefixGlob(l, p[1..], m - 1, j, cs);
    }
  }

  lemma {:induction false} RunGlob(l: string, rest: string, n: nat, j: nat, cs: bool)
    requires n <= |rest| && NoWild(rest[..n])
    requires OccursAt(l, rest[..n], j, cs)
    requires Glob(l[j + n..], rest[n..], cs)
    ensures Glob(l[j..], rest, cs)
    decreases n
  {
    if n == 0 {
      assert rest[0..] == rest;
    } else {
      assert !IsWild(rest[0]) by { assert rest[..n][0] == rest[0]; }
      assert CharMatch(rest[0], l[j], cs) by { assert rest[..n][0] == rest[0]; }
      var tail := rest[1..][..n - 1];
      assert NoWild(tail) by {
        forall i | 0 <= i < |tail| ensures !IsWild(tail[i]) {
          assert tail[i] == rest[..n][i + 1];
        }
      }
      assert OccursAt(l, tail, j + 1, cs) by {
        forall t | 0 <= t < |tail| ensures CharMatch(tail[t], l[j + 1 + t], cs) {
          assert tail[t] == rest[..n][t + 1];
        }
      }
      assert rest[1..][n - 1..] == rest[n..];
      RunGlob(l, rest[1..], n - 1, j + 1, cs);
      assert l[j..][1..] == l[j + 1..];
    }
  }

  /** `*`s, then a literal run found at `j`, then a glob match of the rest. */
  lemma StarRunGlob(l: string, p: string, m: nat, n: nat, j: nat, cs: bool)
    requires 1 <= m <= |p| && forall i :: 0 <= i < m ==> p[i] == '*'
    requires n <= |p[m..]| && NoWild(p[m..][..n]) && OccursAt(l, p[m..][..n], j, cs)
    requires Glob(l[j + n..], p[m..][n..], cs)
    ensures Glob(l, p, cs)
  {
    RunGlob(l, p[m..], n, j, cs);
    StarPrefixGlob(l, p, m, j, cs);
  }

  /** Soundness: whenever no `?` directly follows a `*`, a title the matcher
      accepts is also accepted by glob matching (the converse fails, see
      `StarRunQuestionRejectsAaa`). */
  lemma {:induction false} MatchesIsSoundForGlob(l: string, p: string, cs: bool)
    requires NoQuestionAfterStar(p)
    requires Matches(l, p, cs)
    ensures Glob(l, p, cs)
    decreases |p|, 2
  {
    if |p| == 0 {
    } else if p[0] == '*' {
      StarIsSoundForGlob(l, p, cs);
    } else {
      HeadIsSoundForGlob(l, p, cs);
    }
  }

  lemma {:induction false} StarIsSoundForGlob(l: string, p: string, cs: bool)
    requires NoQuestionAfterStar(p) && |p| > 0 && p[0] == '*'
    requires Matches(l, p, cs)
    ensures Glob(l, p, cs)
    decreases |p|, 1
  {
    var m := WildPrefix(p);
    LeadingWildcardsAreStars(p, m);
    if m == |p| {
      assert l[|l|..] == "";
      StarPrefixGlob(l, p, m, |l|, cs);
    } else {
      assert MatchesAfterStars(l, p[m..], cs);
      StarRunIsSoundForGlob(l, p, m, cs);
    }
  }

  lemma {:induction false} StarRunIsSoundForGlob(l: string, p: string, m: nat, cs: bool)
    requires NoQuestionAfterStar(p) && 1 <= m < |p| && !IsWild(p[m])
    requires forall i :: 0 <= i < m ==> p[i] == '*'
    requires MatchesAfterStars(l, p[m..], cs)
    ensures Glob(l, p, cs)
    decreases |p|, 0
  {
    var rest := p[m..];
    var n := RunLength(rest);
    var occ := LastOccurrence(l, rest[..n], cs);
    assert occ.Some? && Matches(l[occ.value + n..], rest[n..], cs);
    var j := occ.value;
    SuffixKeepsNoQuestionAfterStar(p, m);
    SuffixKeepsNoQuestionAfterStar(rest, n);
    MatchesIsSoundForGlob(l[j + n..], rest[n..], cs);
    StarRunGlob(l, p, m, n, j, cs);
  }

  lemma {:induction false} HeadIsSoundForGlob(l: string, p: string, cs: bool)
    requires NoQuestionAfterStar(p) && |p| > 0 && p[0] != '*'
    requires Matches(l, p, cs)
    ensures Glob(l, p, cs)
    decreases |p|, 0
  {
    SuffixKeepsNoQuestionAfterStar(p, 1);
    MatchesIsSoundForGlob(l[1..], p[1..], cs);
  }
}

=== FILE: render.dfy ===
/** `Render`: drawing an RGBA icon onto a tile surface of 16, 24 or 32 bits
    per pixel, opaquely or greyed-out, and inverting an "active" mark into it.

    A surface is a byte sequence of `bytesPerLine * height` bytes; every line
    is padded to a multiple of four bytes.  A source icon holds four bytes per
    pixel, the fourth being alpha, with no padding.  16-bit pixels are stored
    little-endian, blue in the low five bits, green in the middle six, red in
    the high five. */
module Render {
  import opened Base

  // ---------------------------------------------------------------------
  // Geometry

  datatype Depth = D16 | D24 | D32

  function BitsPerPixel(d: Depth): nat {
    match d
    case D16 => 16
    case D24 => 24
    case D32 => 32
  }

  function BytesPerPixel(d: Depth): (b: nat)
    ensures b * 8 == BitsPerPixel(d) && 2 <= b <= 4
  {
    match d
    case D16 => 2
    case D24 => 3
    case D32 => 4
  }

  /** The members `initialize` sets. */
  datatype Geometry = Geometry(depth: Depth, width: nat, height: nat,
                               bytesPerLine: nat, padding: nat, size: nat, pixels: nat)

  /** `initialize`: a line holds `width` packed pixels followed by the fewest
      padding bytes that make it a multiple of four bytes long. */
  function Initialize(d: Depth, width: nat, height: nat): (g: Geometry)
    ensures g.depth == d && g.width == width && g.height == height
    ensures Initialized(g)
  {
    var packed := (width * BitsPerPixel(d)) / 8;
    assert packed == width * BytesPerPixel(d);
    var bpl := (packed + 3) / 4 * 4;
    TimesIsProduct(width, BytesPerPixel(d));
    TimesIsProduct(height, bpl);
    TimesIsProduct(height, width);
    Geometry(d, width, height, bpl, bpl - packed, bpl * height, width * height)
  }

  /** The relations `initialize` establishes; they determine every member
      from the depth, width and height. */
  predicate Initialized(g: Geometry) {
    && g.bytesPerLine % 4 == 0
    && g.bytesPerLine == Times(g.width, BytesPerPixel(g.depth)) + g.padding
    && g.padding <= 3
    && g.size == Times(g.height, g.bytesPerLine)
    && g.pixels == Times(g.height, g.width)
  }

  /** `getInstance`: only 16, 24 and 32 bits per pixel are supported. */
  function GetInstance(bitsPerPixel: int, width: nat, height: nat): (r: Result<Geometry>)
    ensures r.Success? <==> bitsPerPixel == 16 || bitsPerPixel == 24 || bitsPerPixel == 32
    ensures r.Success? ==> Initialized(r.value) && BitsPerPixel(r.value.depth) == bitsPerPixel &&
                           r.value.width == width && r.value.height == height
  {
    if bitsPerPixel == 16 then Success(Initialize(D16, width, height))
    else if bitsPerPixel == 24 then Success(Initialize(D24, width, height))
    else if bitsPerPixel == 32 then Success(Initialize(D32, width, height))
    else Failure("Pixel depth not (yet) supported")
  }

  /** 32-bit lines never need padding; 16-bit lines need two bytes exactly
      when the width is odd. */
  lemma PaddingByDepth(g: Geometry)
    requires Initialized(g)
    ensures g.depth == D32 ==> g.padding == 0
    ensures g.depth == D16 ==> g.padding == 2 * (g.width % 2)
    ensures g.depth == D24 ==> g.padding == (4 - (3 * g.width) % 4) % 4
  {
    match g.depth
    case D16 => Padding16(g.width, g.bytesPerLine, g.padding);
    case D24 => Padding24(g.width, g.bytesPerLine, g.padding);
    case D32 => Padding32(g.width, g.bytesPerLine, g.padding);
  }

  lemma Padding16(width: nat, bpl: int, pad: int)
    requires bpl % 4 == 0 && bpl == Times(width, 2) + pad && 0 <= pad <= 3
    ensures pad == 2 * (width % 2)
  {
    TimesIsProduct(width, 2);
    assert 2 * width == width / 2 * 4 + 2 * (width % 2);
    DivModUnique(width / 2, 2 * (width % 2), 4);
    PaddingToFour(bpl, 2 * width, pad);
  }

  lemma Padding24(width: nat, bpl: int, pad: int)
    requires bpl % 4 == 0 && bpl == Times(width, 3) + pad && 0 <= pad <= 3
    ensures pad == (4 - (3 * width) % 4) % 4
  {
    TimesIsProduct(width, 3);
    PaddingToFour(bpl, 3 * width, pad);
  }

  lemma Padding32(width: nat, bpl: int, pad: int)
    requires bpl % 4 == 0 && bpl == Times(width, 4) + pad && 0 <= pad <= 3
    ensures pad == 0
  {
    TimesIsProduct(width, 4);
    DivModUnique(width, 0, 4);
    PaddingToFour(bpl, 4 * width, pad);
  }

  /** Padding of at most three bytes that makes `packed` a multiple of four. */
  lemma PaddingToFour(bpl: int, packed: nat, pad: int)
    requires bpl % 4 == 0 && bpl == packed + pad && 0 <= pad <= 3
    ensures pad == (4 - packed % 4) % 4
  {
    var q := packed / 4;
    assert bpl == 4 * q + packed % 4 + pad;
  }

  // ---------------------------------------------------------------------
  // Arithmetic helpers

  lemma MulLe(a: int, b: int, c: nat)
    requires a <= b
    ensures a * c <= b * c
  {
  }

  lemma DivModUnique(q: int, r: int, n: int)
    requires n > 0 && 0 <= r < n
    ensures (q * n + r) / n == q && (q * n + r) % n == r
  {
    var t := q * n + r;
    var q' := t / n;
    var r' := t % n;
    assert t == q' * n + r';
    if q' > q {
      MulLe(q + 1, q', n);
    } else if q' < q {
      MulLe(q', q - 1, n);
    }
  }

  lemma MulSucc(a: int, b: int)
    ensures (a + 1) * b == a * b + b
  {
  }

  /** `n * unit`, as `n` repetitions of `unit`.  Surface addresses are
      written with it, so that they stay linear for the solver;
      `TimesIsProduct` relates it to `*`. */
  function Times(n: nat, unit: nat): nat {
    if n == 0 then 0 else Times(n - 1, unit) + unit
  }

  lemma {:induction false} TimesIsProduct(n: nat, unit: nat)
    ensures Times(n, unit) == n * unit
  {
    if n > 0 {
      TimesIsProduct(n - 1, unit);
      MulSucc(n - 1, unit);
    }
  }

  lemma {:induction false} TimesAdd(a: nat, b: nat, unit: nat)
    ensures Times(a + b, unit) == Times(a, unit) + Times(b, unit)
  {
    if b > 0 {
      TimesAdd(a, b - 1, unit);
    }
  }

  lemma TimesLe(a: nat, b: nat, unit: nat)
    requires a <= b
    ensures Times(a, unit) <= Times(b, unit)
  {
    TimesAdd(a, b - a, unit);
  }

  /** `y` lines of `w` items of `unit` are `y * w` items of `unit`. */
  lemma {:induction false} TimesOfTimes(y: nat, w: nat, unit: nat)
    ensures Times(y, Times(w, unit)) == Times(Times(y, w), unit)
  {
    if y > 0 {
      TimesOfTimes(y - 1, w, unit);
      TimesAdd(Times(y - 1, w), w, unit);
    }
  }

  /** Item `x` of `n` items of `unit` ends inside them. */
  lemma TimesItem(x: nat, n: nat, unit: nat)
    requires x < n
    ensures Times(x, unit) + unit <= Times(n, unit)
  {
    TimesLe(x + 1, n, unit);
  }

  /** C's `(int)` of the exact quotient: rounds toward zero. */
  function TruncDiv(a: int, b: nat): int
    requires b > 0
  {
    if a >= 0 then a / b else -((-a) / b)
  }

  lemma ScaledDown(a: nat, w: nat, n: nat)
    requires 0 < n && w <= n
    ensures a * w / n <= a
  {
    MulLe(w, n, a);
    assert a * w <= a * n;
    DivModUnique(a, 0, n);
  }

  // ---------------------------------------------------------------------
  // Blending

  /** Weight of a fully opaque source: 255 * 255. */
  const FullWeight: nat := 65025

  /** `c += (int)((target - c) / mod)` with `mod = 65025 / weight`: move `c`
      toward `target` by `weight / 65025` of the distance, truncating toward
      `c`.  A weight of 0 stands for an infinite `mod`. */
  function Blend(c: int, target: int, weight: nat): (r: int)
    requires weight <= FullWeight
    ensures c <= target ==> c <= r <= target
    ensures target <= c ==> target <= r <= c
    ensures weight == FullWeight ==> r == target
    ensures weight == 0 ==> r == c
  {
    var d := target - c;
    if d >= 0 then
      ScaledDown(d, weight, FullWeight);
      DivModUnique(d, 0, FullWeight);
      c + TruncDiv(d * weight, FullWeight)
    else
      ScaledDown(-d, weight, FullWeight);
      DivModUnique(-d, 0, FullWeight);
      assert d * weight == -((-d) * weight);
      c + TruncDiv(d * weight, FullWeight)
  }

  function BlendByte(c: byte, target: nat, weight: nat): (r: byte)
    requires target <= 255 && weight <= FullWeight
    ensures r as int == Blend(c as int, target, weight)
  {
    Blend(c as int, target, weight) as byte
  }

  // ---------------------------------------------------------------------
  // 16-bit pixels (a word is a number below 0x10000)

  /** `((blue & 0xf8) >> 3) | ((green & 0xf8) << 3) | ((red & 0xf8) << 8)`:
      the top five bits of each channel, blue in bits 0-4, green in bits 6-10,
      red in bits 11-15; bit 5 stays clear. */
  function Pack16(blue: byte, green: byte, red: byte): (p: nat)
    ensures p < 0x10000
  {
    blue as nat / 8 + (green as nat / 8) * 64 + (red as nat / 8) * 2048
  }

  /** `(p << 3) & 0xf8`, `(p >> 3) & 0xf8`, `(p >> 8) & 0xf8`: bits 0-4, 6-10
      and 11-15 of the word, each moved to the top of a byte. */
  function Unpack16(p: nat): (byte, byte, byte)
    requires p < 0x10000
  {
    ((p % 32 * 8) as byte, (p / 64 % 32 * 8) as byte, (p / 2048 * 8) as byte)
  }

  /** `c & 0xf8`. */
  function Top5(c: byte): byte {
    (c as int / 8 * 8) as byte
  }

  /** `p & 0xffdf`: the word without bit 5. */
  function ClearBit5(p: nat): nat
    requires p < 0x10000
  {
    p / 64 * 64 + p % 32
  }

  lemma UnpackPack16(blue: byte, green: byte, red: byte)
    ensures Unpack16(Pack16(blue, green, red)) == (Top5(blue), Top5(green), Top5(red))
  {
    var b, g, r := blue as int / 8, green as int / 8, red as int / 8;
    var p := Pack16(blue, green, red);
    assert p == (2 * g + 64 * r) * 32 + b == (g + 32 * r) * 64 + b == r * 2048 + (b + 64 * g);
    DivModUnique(2 * g + 64 * r, b, 32);
    DivModUnique(g + 32 * r, b, 64);
    DivModUnique(r, g, 32);
    DivModUnique(r, b + 64 * g, 2048);
  }

  /** The green and red fields of a word make up its value above bit 5. */
  lemma Fields16(p: nat)
    requires p < 0x10000
    ensures p / 2048 < 32 && p / 64 == p / 64 % 32 + 32 * (p / 2048)
  {
    var q := p / 64;
    assert p == q / 32 * 2048 + (q % 32 * 64 + p % 64);
    DivModUnique(q / 32, q % 32 * 64 + p % 64, 2048);
  }

  lemma PackUnpack16(p: nat)
    requires p < 0x10000
    ensures var (b, g, r) := Unpack16(p); Pack16(b, g, r) == ClearBit5(p)
  {
    var b5, g5, r5 := p % 32, p / 64 % 32, p / 2048;
    Fields16(p);
    DivModUnique(b5, 0, 8);
    DivModUnique(g5, 0, 8);
    DivModUnique(r5, 0, 8);
    assert Unpack16(p) == ((b5 * 8) as byte, (g5 * 8) as byte, (r5 * 8) as byte);
    assert Pack16((b5 * 8) as byte, (g5 * 8) as byte, (r5 * 8) as byte) == b5 + g5 * 64 + r5 * 2048;
  }

  /** A word as two bytes, low byte first. */
  function Store16(p: nat): (bytes: seq<byte>)
    requires p < 0x10000
    ensures |bytes| == 2
  {
    [(p % 256) as byte, (p / 256) as byte]
  }

  function Load16(bytes: seq<byte>): (p: nat)
    requires |bytes| == 2
    ensures p < 0x10000
  {
    bytes[0] as nat + 256 * bytes[1] as nat
  }

  lemma LoadStore16(p: nat, bytes: seq<byte>)
    requires p < 0x10000 && |bytes| == 2
    ensures Load16(Store16(p)) == p
    ensures Store16(Load16(bytes)) == bytes
  {
  }

  // ---------------------------------------------------------------------
  // One pixel

  /** `opaque` copies the icon in; `ghosted(transparency)` draws it grey and
      further faded by `transparency / 255`. */
  datatype Op = Opaque | Ghosted(transparency: byte)

  function Grey(s: seq<byte>): (g: nat)
    requires |s| == 4
    ensures g <= 255
  {
    (s[0] as nat + s[1] as nat + s[2] as nat) / 3
  }

  /** The colour a channel is blended toward. */
  function Target(op: Op, s: seq<byte>, k: nat): (t: nat)
    requires |s| == 4 && k < 3
    ensures t <= 255
  {
    if op.Opaque? then s[k] as nat else Grey(s)
  }

  function Weight(op: Op, alpha: byte): (w: nat)
    ensures w <= FullWeight
  {
    var a := alpha as nat;
    if op.Opaque? then
      MulLe(a, 255, 255);
      a * 255
    else
      MulLe(a, 255, op.transparency as nat);
      MulLe(op.transparency as nat, 255, 255);
      a * op.transparency as nat
  }

  /** The blended colour channels `k < 3` of a partly transparent source. */
  function BlendChannels(op: Op, c: seq<byte>, s: seq<byte>): (r: seq<byte>)
    requires |c| == 3 && |s| == 4
    ensures |r| == 3
    ensures forall k :: 0 <= k < 3 ==> r[k] as int == Blend(c[k] as int, Target(op, s, k), Weight(op, s[3]))
  {
    var w := Weight(op, s[3]);
    [BlendByte(c[0], Target(op, s, 0), w),
     BlendByte(c[1], Target(op, s, 1), w),
     BlendByte(c[2], Target(op, s, 2), w)]
  }

  /** One 16-bit pixel: the word is unpacked, blended and packed again. */
  function Pixel16(op: Op, before: seq<byte>, s: seq<byte>): (r: seq<byte>)
    requires |before| == 2 && |s| == 4
    ensures |r| == 2
  {
    if s[3] == 0 then before
    else if op.Opaque? && s[3] == 255 then Store16(Pack16(s[0], s[1], s[2]))
    else
      var (c0, c1, c2) := Unpack16(Load16(before));
      var b := BlendChannels(op, [c0, c1, c2], s);
      Store16(Pack16(b[0], b[1], b[2]))
  }

  function Pixel24(op: Op, before: seq<byte>, s: seq<byte>): (r: seq<byte>)
    requires |before| == 3 && |s| == 4
    ensures |r| == 3
  {
    if s[3] == 0 then before
    else if op.Opaque? && s[3] == 255 then s[..3]
    else BlendChannels(op, before, s)
  }

  function Pixel32(op: Op, before: seq<byte>, s: seq<byte>): (r: seq<byte>)
    requires |before| == 4 && |s| == 4
    ensures |r| == 4
  {
    if s[3] == 0 then before
    else if op.Opaque? && s[3] == 255 then s
    else BlendChannels(op, before[..3], s) + [before[3]]
  }

  /** The new bytes of one destination pixel `before` under source pixel `s`. */
  function PixelResult(d: Depth, op: Op, before: seq<byte>, s: seq<byte>): (r: seq<byte>)
    requires |before| == BytesPerPixel(d) && |s| == 4
    ensures |r| == |before|
  {
    match d
    case D16 => Pixel16(op, before, s)
    case D24 => Pixel24(op, before, s)
    case D32 => Pixel32(op, before, s)
  }

  /** A fully transparent source pixel leaves the destination alone. */
  lemma TransparentSourceKeepsPixel(d: Depth, op: Op, before: seq<byte>, s: seq<byte>)
    requires |before| == BytesPerPixel(d) && |s| == 4
    requires s[3] == 0
    ensures PixelResult(d, op, before, s) == before
  {
  }

  /** A partly transparent source pixel moves every 24-bit channel from the
      before value toward the source value, never past it. */
  lemma OpaqueBlendStaysBetween(before: seq<byte>, s: seq<byte>, k: nat)
    requires |before| == 3 && |s| == 4 && k < 3
    ensures var r := PixelResult(D24, Opaque, before, s)[k] as int;
            var lo, hi := before[k] as int, s[k] as int;
            (lo <= hi ==> lo <= r <= hi) && (hi <= lo ==> hi <= r <= lo)
  {
    if s[3] != 0 && s[3] != 255 {
      var b := BlendChannels(Opaque, before, s);
      assert PixelResult(D24, Opaque, before, s) == b;
      assert b[k] as int == Blend(before[k] as int, s[k] as int, Weight(Opaque, s[3]));
    }
  }

  /** The copying shortcut for a fully opaque source pixel shows exactly the
      source colour, to the precision of the depth. */
  lemma OpaqueSourceShowsSourceColour(d: Depth, before: seq<byte>, s: seq<byte>)
    requires |before| == BytesPerPixel(d) && |s| == 4 && s[3] == 255
    ensures d == D16 ==>
              Unpack16(Load16(PixelResult(d, Opaque, before, s))) == (Top5(s[0]), Top5(s[1]), Top5(s[2]))
    ensures d == D24 ==> PixelResult(d, Opaque, before, s) == s[..3]
    ensures d == D32 ==> PixelResult(d, Opaque, before, s) == s
  {
    if d == D16 {
      LoadStore16(Pack16(s[0], s[1], s[2]), before);
      UnpackPack16(s[0], s[1], s[2]);
    }
  }

  /** The source pixel with every colour channel replaced by its grey. */
  function GreySource(s: seq<byte>): (r: seq<byte>)
    requires |s| == 4
    ensures |r| == 4 && r[3] == s[3]
  {
    var g := Grey(s) as byte;
    [g, g, g, s[3]]
  }

  /** Ghosting at full transparency 255 is opaque drawing of the greyed icon
      at 16 and 24 bits (at 32 bits opaque drawing also copies alpha). */
  lemma GhostedIsOpaqueOfGrey(d: Depth, before: seq<byte>, s: seq<byte>)
    requires d != D32 && |before| == BytesPerPixel(d) && |s| == 4
    ensures PixelResult(d, Ghosted(255), before, s) == PixelResult(d, Opaque, before, GreySource(s))
  {
    var gs := GreySource(s);
    var g := Grey(s) as byte;
    assert forall k :: 0 <= k < 3 ==> Target(Opaque, gs, k) == Target(Ghosted(255), s, k);
    assert Weight(Opaque, gs[3]) == Weight(Ghosted(255), s[3]);
    if s[3] == 255 {
      var c := if d == D16 then
                 var (c0, c1, c2) := Unpack16(Load16(before)); [c0, c1, c2]
               else before;
      var b := BlendChannels(Ghosted(255), c, s);
      assert b == [g, g, g];
    }
  }

  /** Ghosting at transparency 0 draws nothing at 24 and 32 bits; at 16 bits
      each pixel under a visible source pixel loses its lowest green bit. */
  lemma GhostedAtZeroTransparency(d: Depth, before: seq<byte>, s: seq<byte>)
    requires |before| == BytesPerPixel(d) && |s| == 4
    ensures d != D16 ==> PixelResult(d, Ghosted(0), before, s) == before
    ensures d == D16 && s[3] != 0 ==> PixelResult(d, Ghosted(0), before, s) == Store16(ClearBit5(Load16(before)))
  {
    if d == D16 && s[3] != 0 {
      var (c0, c1, c2) := Unpack16(Load16(before));
      PackUnpack16(Load16(before));
      assert PixelResult(d, Ghosted(0), before, s) == Store16(Pack16(c0, c1, c2));
    }
  }

  /** Blending at 32 bits never touches the fourth byte; only the fully
      opaque shortcut copies the source alpha there. */
  lemma BlendKeepsFourthByte(op: Op, before: seq<byte>, s: seq<byte>)
    requires |before| == 4 && |s| == 4
    ensures !(op.Opaque? && s[3] == 255) ==> PixelResult(D32, op, before, s)[3] == before[3]
    ensures op.Opaque? && s[3] == 255 ==> PixelResult(D32, op, before, s)[3] == 255
  {
  }

  // ---------------------------------------------------------------------
  // A whole surface

  /** `parts` all have `len` elements. */
  predicate Uniform<T>(parts: seq<seq<T>>, len: nat) {
    forall i :: 0 <= i < |parts| ==> |parts[i]| == len
  }

  /** The parts one after the other. */
  function Concat<T>(parts: seq<seq<T>>): (r: seq<T>)
  {
    if |parts| == 0 then [] else parts[0] + Concat(parts[1..])
  }

  lemma {:induction false} ConcatLength<T>(parts: seq<seq<T>>, len: nat)
    requires Uniform(parts, len)
    ensures |Concat(parts)| == Times(|parts|, len)
  {
    if |parts| > 0 {
      ConcatLength(parts[1..], len);
    }
  }

  /** Element `j` of part `y` sits `y` parts into the whole. */
  lemma {:induction false} ConcatAt<T>(parts: seq<seq<T>>, len: nat, y: nat, j: nat)
    requires Uniform(parts, len) && y < |parts| && j < len
    ensures Times(y, len) + j < |Concat(parts)|
    ensures Concat(parts)[Times(y, len) + j] == parts[y][j]
  {
    ConcatLength(parts, len);
    TimesItem(y, |parts|, len);
    if y > 0 {
      ConcatAt(parts[1..], len, y - 1, j);
      ConcatLength(parts[1..], len);
    }
  }

  /** A per-pixel combination of destination pixels with icon pixels: it
      gives as many bytes as the destination pixel has. */
  ghost predicate PixelFn(f: (seq<byte>, seq<byte>) -> seq<byte>) {
    forall a, s :: |f(a, s)| == |a|
  }

  /** The `n` pixels of `B` bytes of `dest` from byte `start`, each combined
      by `f` with the icon pixel of `src` at the same position from byte
      `iconStart`. */
  function LinePixels(f: (seq<byte>, seq<byte>) -> seq<byte>, B: nat, dest: seq<byte>, src: seq<byte>, start: nat, iconStart: nat, n: nat): (r: seq<byte>)
    requires PixelFn(f) && start + Times(n, B) <= |dest| && iconStart + 4 * n <= |src|
    ensures |r| == Times(n, B)
  {
    if n == 0 then []
    else
      var base := start + Times(n - 1, B);
      LinePixels(f, B, dest, src, start, iconStart, n - 1) +
      f(dest[base..base + B], src[iconStart + 4 * (n - 1)..iconStart + 4 * n])
  }

  /** Byte `k` of pixel `x` of a line of pixels. */
  lemma {:induction false} LinePixelsAt(f: (seq<byte>, seq<byte>) -> seq<byte>, B: nat, dest: seq<byte>, src: seq<byte>, start: nat, iconStart: nat, n: nat, x: nat, k: nat)
    requires PixelFn(f) && start + Times(n, B) <= |dest| && iconStart + 4 * n <= |src|
    requires x < n && k < B
    ensures Times(x, B) + B <= Times(n, B)
    ensures var base, s := start + Times(x, B), iconStart + 4 * x;
            LinePixels(f, B, dest, src, start, iconStart, n)[Times(x, B) + k] ==
            f(dest[base..base + B], src[s..s + 4])[k]
  {
    TimesItem(x, n, B);
    var front := LinePixels(f, B, dest, src, start, iconStart, n - 1);
    var base := start + Times(n - 1, B);
    var last := f(dest[base..base + B], src[iconStart + 4 * (n - 1)..iconStart + 4 * n]);
    assert LinePixels(f, B, dest, src, start, iconStart, n) == front + last;
    assert |front| == Times(n - 1, B);
    if x < n - 1 {
      LinePixelsAt(f, B, dest, src, start, iconStart, n - 1, x, k);
      assert (front + last)[Times(x, B) + k] == front[Times(x, B) + k];
    } else {
      assert (front + last)[Times(x, B) + k] == last[k];
    }
  }

  /** The `stride` bytes of `dest` from `start`: the first `n` pixels
      combined with the `n` icon pixels of `src` from `iconStart`, then the
      rest of the line as it was. */
  function LineAt(f: (seq<byte>, seq<byte>) -> seq<byte>, B: nat, dest: seq<byte>, src: seq<byte>, start: nat, iconStart: nat, n: nat, stride: nat): (r: seq<byte>)
    requires PixelFn(f) && Times(n, B) <= stride && start + stride <= |dest| && iconStart + 4 * n <= |src|
    ensures |r| == stride
  {
    LinePixels(f, B, dest, src, start, iconStart, n) + dest[start + Times(n, B)..start + stride]
  }

  /** Byte `k` of pixel `x` of a line. */
  lemma LineAtPixel(f: (seq<byte>, seq<byte>) -> seq<byte>, B: nat, dest: seq<byte>, src: seq<byte>, start: nat, iconStart: nat, n: nat, stride: nat, x: nat, k: nat)
    requires PixelFn(f) && Times(n, B) <= stride && start + stride <= |dest| && iconStart + 4 * n <= |src|
    requires x < n && k < B
    ensures Times(x, B) + B <= Times(n, B)
    ensures var base, s := start + Times(x, B), iconStart + 4 * x;
            LineAt(f, B, dest, src, start, iconStart, n, stride)[Times(x, B) + k] ==
            f(dest[base..base + B], src[s..s + 4])[k]
  {
    var pixels := LinePixels(f, B, dest, src, start, iconStart, n);
    var rest := dest[start + Times(n, B)..start + stride];
    LinePixelsAt(f, B, dest, src, start, iconStart, n, x, k);
    assert LineAt(f, B, dest, src, start, iconStart, n, stride) == pixels + rest;
    assert (pixels + rest)[Times(x, B) + k] == pixels[Times(x, B) + k];
  }

  lemma LineAtPadding(f: (seq<byte>, seq<byte>) -> seq<byte>, B: nat, dest: seq<byte>, src: seq<byte>, start: nat, iconStart: nat, n: nat, stride: nat, col: nat)
    requires PixelFn(f) && Times(n, B) <= stride && start + stride <= |dest| && iconStart + 4 * n <= |src|
    requires Times(n, B) <= col < stride
    ensures LineAt(f, B, dest, src, start, iconStart, n, stride)[col] == dest[start + col]
  {
  }

  /** Line `y` of the surface and of the icon lie inside them. */
  lemma LineFits(g: Geometry, y: nat)
    requires Initialized(g) && y < g.height
    ensures Times(y, g.bytesPerLine) + g.bytesPerLine <= g.size
    ensures 4 * Times(y, g.width) + 4 * g.width <= 4 * g.pixels
  {
    TimesItem(y, g.height, g.bytesPerLine);
    TimesItem(y, g.height, g.width);
  }

  /** Line `y` of the result: its pixels, then its padding as it was. */
  function Line(g: Geometry, dest: seq<byte>, src: seq<byte>, f: (seq<byte>, seq<byte>) -> seq<byte>, y: nat): (r: seq<byte>)
    requires Initialized(g) && |dest| == g.size && |src| == 4 * g.pixels && PixelFn(f)
    requires y < g.height
    ensures |r| == g.bytesPerLine
  {
    LineFits(g, y);
    LineAt(f, BytesPerPixel(g.depth), dest, src, Times(y, g.bytesPerLine), 4 * Times(y, g.width), g.width, g.bytesPerLine)
  }

  /** The lines of the result, in order. */
  function Lines(g: Geometry, dest: seq<byte>, src: seq<byte>, f: (seq<byte>, seq<byte>) -> seq<byte>): (parts: seq<seq<byte>>)
    requires Initialized(g) && |dest| == g.size && |src| == 4 * g.pixels && PixelFn(f)
    ensures |parts| == g.height && Uniform(parts, g.bytesPerLine)
    ensures forall y :: 0 <= y < g.height ==> parts[y] == Line(g, dest, src, f, y)
  {
    seq(g.height, y requires 0 <= y < g.height => Line(g, dest, src, f, y))
  }

  /** The loops of `opaque` and `ghosted`: line by line, every pixel of the
      surface is combined with the icon pixel at the same position, and the
      padding is stepped over. */
  function Paint(g: Geometry, dest: seq<byte>, src: seq<byte>, f: (seq<byte>, seq<byte>) -> seq<byte>): (r: seq<byte>)
    requires Initialized(g) && |dest| == g.size && |src| == 4 * g.pixels && PixelFn(f)
    ensures |r| == |dest|
  {
    var parts := Lines(g, dest, src, f);
    ConcatLength(parts, g.bytesPerLine);
    Concat(parts)
  }

  /** Byte `j` of line `y` of the result is byte `j` of `Line(.., y)`. */
  lemma PaintAt(g: Geometry, dest: seq<byte>, src: seq<byte>, f: (seq<byte>, seq<byte>) -> seq<byte>, y: nat, j: nat)
    requires Initialized(g) && |dest| == g.size && |src| == 4 * g.pixels && PixelFn(f)
    requires y < g.height && j < g.bytesPerLine
    ensures Times(y, g.bytesPerLine) + j < |dest|
    ensures Paint(g, dest, src, f)[Times(y, g.bytesPerLine) + j] == Line(g, dest, src, f, y)[j]
  {
    ConcatAt(Lines(g, dest, src, f), g.bytesPerLine, y, j);
  }

  /** The first byte of surface pixel `(x, y)`. */
  function PixelBase(g: Geometry, x: nat, y: nat): nat {
    Times(y, g.bytesPerLine) + Times(x, BytesPerPixel(g.depth))
  }

  /** The first byte of icon pixel `(x, y)`. */
  function IconBase(g: Geometry, x: nat, y: nat): nat {
    4 * (Times(y, g.width) + x)
  }

  /** Byte `k` of pixel `x` of line `y` of the result. */
  lemma LinePixel(g: Geometry, dest: seq<byte>, src: seq<byte>, f: (seq<byte>, seq<byte>) -> seq<byte>, x: nat, y: nat, k: nat)
    requires Initialized(g) && |dest| == g.size && |src| == 4 * g.pixels && PixelFn(f)
    requires x < g.width && y < g.height && k < BytesPerPixel(g.depth)
    ensures Times(x, BytesPerPixel(g.depth)) + k < g.bytesPerLine
    ensures PixelBase(g, x, y) + BytesPerPixel(g.depth) <= |dest|
    ensures IconBase(g, x, y) + 4 <= |src|
    ensures var base, B := PixelBase(g, x, y), BytesPerPixel(g.depth);
            var s := IconBase(g, x, y);
            Line(g, dest, src, f, y)[Times(x, B) + k] == f(dest[base..base + B], src[s..s + 4])[k]
  {
    LineFits(g, y);
    LineAtPixel(f, BytesPerPixel(g.depth), dest, src, Times(y, g.bytesPerLine), 4 * Times(y, g.width),
                g.width, g.bytesPerLine, x, k);
  }

  /** Byte `k` of pixel `(x, y)` of the result is byte `k` of `f` of the old
      pixel `(x, y)` and icon pixel `(x, y)`. */
  lemma PaintPixel(g: Geometry, dest: seq<byte>, src: seq<byte>, f: (seq<byte>, seq<byte>) -> seq<byte>, x: nat, y: nat, k: nat)
    requires Initialized(g) && |dest| == g.size && |src| == 4 * g.pixels && PixelFn(f)
    requires x < g.width && y < g.height && k < BytesPerPixel(g.depth)
    ensures PixelBase(g, x, y) + BytesPerPixel(g.depth) <= |dest|
    ensures IconBase(g, x, y) + 4 <= |src|
    ensures var base, B := PixelBase(g, x, y), BytesPerPixel(g.depth);
            var s := IconBase(g, x, y);
            Paint(g, dest, src, f)[base + k] == f(dest[base..base + B], src[s..s + 4])[k]
  {
    LinePixel(g, dest, src, f, x, y, k);
    PaintAt(g, dest, src, f, y, Times(x, BytesPerPixel(g.depth)) + k);
  }

  /** The padding at the end of every line is left untouched. */
  lemma PaintKeepsPadding(g: Geometry, dest: seq<byte>, src: seq<byte>, f: (seq<byte>, seq<byte>) -> seq<byte>, y: nat, col: nat)
    requires Initialized(g) && |dest| == g.size && |src| == 4 * g.pixels && PixelFn(f)
    requires y < g.height && Times(g.width, BytesPerPixel(g.depth)) <= col < g.bytesPerLine
    ensures Times(y, g.bytesPerLine) + col < |dest|
    ensures Paint(g, dest, src, f)[Times(y, g.bytesPerLine) + col] == dest[Times(y, g.bytesPerLine) + col]
  {
    LineFits(g, y);
    LineAtPadding(f, BytesPerPixel(g.depth), dest, src, Times(y, g.bytesPerLine), 4 * Times(y, g.width), g.width, g.bytesPerLine, col);
    PaintAt(g, dest, src, f, y, col);
  }

  /** The per-pixel combination of `opaque` or `ghosted` at depth `d`. */
  function PixelOp(d: Depth, op: Op): (f: (seq<byte>, seq<byte>) -> seq<byte>)
    ensures PixelFn(f)
  {
    (a: seq<byte>, s: seq<byte>) =>
      if |a| == BytesPerPixel(d) && |s| == 4 then PixelResult(d, op, a, s) else a
  }

  /** `opaque` / `ghosted` on a whole surface. */
  function Composite(g: Geometry, dest: seq<byte>, src: seq<byte>, op: Op): (r: seq<byte>)
    requires Initialized(g) && |dest| == g.size && |src| == 4 * g.pixels
    ensures |r| == |dest|
  {
    Paint(g, dest, src, PixelOp(g.depth, op))
  }

  /** Byte `k` of pixel `(x, y)` of the surface after `opaque` or
      `ghosted` is byte `k` of the pixel combination of the old pixel and
      icon pixel `(x, y)`. */
  lemma CompositePixel(g: Geometry, dest: seq<byte>, src: seq<byte>, op: Op, x: nat, y: nat, k: nat)
    requires Initialized(g) && |dest| == g.size && |src| == 4 * g.pixels
    requires x < g.width && y < g.height && k < BytesPerPixel(g.depth)
    ensures PixelBase(g, x, y) + BytesPerPixel(g.depth) <= |dest|
    ensures IconBase(g, x, y) + 4 <= |src|
    ensures var base, B := PixelBase(g, x, y), BytesPerPixel(g.depth);
            var s := IconBase(g, x, y);
            Composite(g, dest, src, op)[base + k] == PixelResult(g.depth, op, dest[base..base + B], src[s..s + 4])[k]
  {
    var B := BytesPerPixel(g.depth);
    var f := PixelOp(g.depth, op);
    PaintPixel(g, dest, src, f, x, y, k);
    var a := dest[PixelBase(g, x, y)..PixelBase(g, x, y) + B];
    var p := src[IconBase(g, x, y)..IconBase(g, x, y) + 4];
    assert f(a, p) == PixelResult(g.depth, op, a, p);
  }

  /** The padding at the end of every line is left untouched. */
  lemma CompositeKeepsPadding(g: Geometry, dest: seq<byte>, src: seq<byte>, op: Op, y: nat, col: nat)
    requires Initialized(g) && |dest| == g.size && |src| == 4 * g.pixels
    requires y < g.height && Times(g.width, BytesPerPixel(g.depth)) <= col < g.bytesPerLine
    ensures Times(y, g.bytesPerLine) + col < |dest|
    ensures Composite(g, dest, src, op)[Times(y, g.bytesPerLine) + col] == dest[Times(y, g.bytesPerLine) + col]
  {
    PaintKeepsPadding(g, dest, src, PixelOp(g.depth, op), y, col);
  }

  // ---------------------------------------------------------------------
  // Marks

  /** `c ^ 0xff`. */
  function Invert(c: byte): byte {
    255 - c
  }

  datatype MarkType = PlayMark | DotsMark | CornerMark | CrossMark

  /** A stencil, line by line; a non-zero cell is set. */
  datatype Mark = Mark(width: nat, height: nat, rows: seq<seq<nat>>)

  predicate WellFormedMark(m: Mark) {
    m.width > 0 && m.height > 0 && |m.rows| == m.height &&
    forall y :: 0 <= y < m.height ==> |m.rows[y]| == m.width
  }

  const Play: Mark := Mark(5, 9, [
    [1, 0, 0, 0, 0],
    [1, 1, 0, 0, 0],
    [1, 1, 1, 0, 0],
    [1, 1, 1, 1, 0],
    [1, 1, 1, 1, 1],
    [1, 1, 1, 1, 0],
    [1, 1, 1, 0, 0],
    [1, 1, 0, 0, 0],
    [1, 0, 0, 0, 0]])

  const Dots: Mark := Mark(10, 2, [
    [1, 1, 0, 0, 1, 1, 0, 0, 1, 1],
    [1, 1, 0, 0, 1, 1, 0, 0, 1, 1]])

  const Corner: Mark := Mark(6, 6, [
    [0, 0, 0, 0, 0, 1],
    [0, 0, 0, 0, 1, 1],
    [0, 0, 0, 1, 1, 1],
    [0, 0, 1, 1, 1, 1],
    [0, 1, 1, 1, 1, 1],
    [1, 1, 1, 1, 1, 1]])

  const Cross: Mark := Mark(7, 7, [
    [1, 1, 0, 0, 0, 1, 1],
    [1, 1, 1, 0, 1, 1, 1],
    [0, 1, 1, 1, 1, 1, 0],
    [0, 0, 1, 1, 1, 0, 0],
    [0, 1, 1, 1, 1, 1, 0],
    [1, 1, 1, 0, 1, 1, 1],
    [1, 1, 0, 0, 0, 1, 1]])

  /** `getMark`. */
  function GetMark(kind: MarkType): (m: Mark)
    ensures WellFormedMark(m)
    ensures kind == PlayMark ==> (m.width, m.height) == (5, 9)
    ensures kind == DotsMark ==> (m.width, m.height) == (10, 2)
    ensures kind == CornerMark ==> (m.width, m.height) == (6, 6)
    ensures kind == CrossMark ==> (m.width, m.height) == (7, 7)
  {
    match kind
    case PlayMark => Play
    case DotsMark => Dots
    case CornerMark => Corner
    case CrossMark => Cross
  }

  predicate IsSet(m: Mark, x: nat, y: nat)
    requires WellFormedMark(m) && x < m.width && y < m.height
  {
    m.rows[y][x] != 0
  }

  /** The first mark line: `top` lines down, or for a negative `top`,
      `-top - 1` lines up from the bottom; 0 when that would not fit. */
  function OffsetRows(g: Geometry, top: int, m: Mark): (rows: nat)
    ensures g.height >= m.height ==> rows + m.height <= g.height
    ensures top >= 0 && top + m.height <= g.height ==> rows == top
    ensures top < 0 && g.height - m.height + top + 1 >= 0 ==> rows + m.height + (-top - 1) == g.height
    ensures (top < 0 && g.height - m.height + top + 1 < 0) || (top > 0 && top + m.height > g.height) ==> rows == 0
  {
    if top < 0 && g.height - m.height + (top + 1) >= 0 then g.height - m.height + (top + 1)
    else if top > 0 && top + m.height <= g.height then top
    else 0
  }

  /** The byte column of the mark's first cell: `left` pixels in, or for a
      negative `left`, so that the mark ends `-left - 1` pixels before the end
      of the padded line; 0 when that would not fit. */
  function OffsetColumn(g: Geometry, left: int, m: Mark): (col: nat)
    requires Initialized(g)
    ensures var B := BytesPerPixel(g.depth);
            g.width >= m.width ==> col + Times(m.width, B) <= g.bytesPerLine
    ensures var B := BytesPerPixel(g.depth);
            left >= 0 && left + m.width <= g.width ==> col == Times(left, B)
    ensures var B := BytesPerPixel(g.depth);
            left < 0 && g.width - m.width + left + 1 >= 0 ==> col + Times(m.width - left - 1, B) == g.bytesPerLine
    ensures (left < 0 && g.width - m.width + left + 1 < 0) || (left > 0 && left + m.width > g.width) ==> col == 0
  {
    var B := BytesPerPixel(g.depth);
    if left < 0 && g.width - m.width + (left + 1) >= 0 then
      TimesLe(m.width - (left + 1), g.width, B);
      TimesLe(m.width, m.width - (left + 1), B);
      g.bytesPerLine - Times(m.width - (left + 1), B)
    else if left > 0 && left + m.width <= g.width then
      TimesAdd(left, m.width, B);
      TimesLe(left + m.width, g.width, B);
      Times(left, B)
    else if g.width >= m.width then
      TimesLe(m.width, g.width, B);
      0
    else 0
  }

  /** `getOffset`: the byte offset of the mark's first cell. */
  function GetOffset(g: Geometry, left: int, top: int, m: Mark): nat
    requires Initialized(g)
  {
    Times(OffsetRows(g, top, m), g.bytesPerLine) + OffsetColumn(g, left, m)
  }

  /** Where `activeMark` puts the cells of a mark.  `Corrected` puts cell
      `(x, y)` at `x` pixels and `y` lines from the offset.  `AsWritten`
      follows the pointer arithmetic of the loops: at 16 and 32 bits a line
      advances by `width` pixels, not by the padded line length; at 24 bits
      the pointer only moves on set cells, and by `bytesPerLine - 3 * mark
      width` at each line end. */
  datatype Addressing = AsWritten | Corrected

  /** Number of set cells among the first `n` of a stencil line. */
  function SetInRow(row: seq<nat>, n: nat): (c: nat)
    requires n <= |row|
    ensures c <= n
  {
    if n == 0 then 0 else SetInRow(row, n - 1) + (if row[n - 1] != 0 then 1 else 0)
  }

  /** Number of set cells in the first `n` stencil lines. */
  function SetInRows(m: Mark, n: nat): nat
    requires WellFormedMark(m) && n <= m.height
  {
    if n == 0 then 0 else SetInRows(m, n - 1) + SetInRow(m.rows[n - 1], m.width)
  }

  /** `n * step` for a signed step. */
  function Steps(n: nat, step: int): int {
    if step >= 0 then Times(n, step) as int else -(Times(n, -step) as int)
  }

  function CellBase(g: Geometry, m: Mark, off: int, a: Addressing, x: nat, y: nat): int
    requires WellFormedMark(m) && x < m.width && y < m.height
  {
    match a
    case Corrected => off + Times(y, g.bytesPerLine) + Times(x, BytesPerPixel(g.depth))
    case AsWritten =>
      match g.depth
      case D16 => off + 2 * (Times(y, g.width) + x)
      case D24 => off + Steps(y, g.bytesPerLine - 3 * m.width) + 3 * (SetInRows(m, y) + SetInRow(m.rows[y], x))
      case D32 => off + 4 * (Times(y, g.width) + x)
  }

  /** Bytes a set cell inverts: the 16-bit word, the three 24-bit bytes, or
      the low three bytes of the 32-bit word (`^= 0xffffff`). */
  function CellBytes(d: Depth): nat {
    if d == D16 then 2 else 3
  }

  predicate InCell(g: Geometry, m: Mark, off: int, a: Addressing, x: nat, y: nat, i: int)
    requires WellFormedMark(m) && x < m.width && y < m.height
  {
    CellBase(g, m, off, a, x, y) <= i < CellBase(g, m, off, a, x, y) + CellBytes(g.depth)
  }

  predicate Covers(g: Geometry, m: Mark, off: int, a: Addressing, x: nat, y: nat, i: int)
    requires WellFormedMark(m) && x < m.width && y < m.height
  {
    IsSet(m, x, y) && InCell(g, m, off, a, x, y, i)
  }

  /** Number of set cells among the first `n` of stencil line `y` that invert
      byte `i`. */
  function RowCoverCount(g: Geometry, m: Mark, off: int, a: Addressing, i: int, y: nat, n: nat): nat
    requires WellFormedMark(m) && y < m.height && n <= m.width
  {
    if n == 0 then 0
    else RowCoverCount(g, m, off, a, i, y, n - 1) + (if Covers(g, m, off, a, n - 1, y, i) then 1 else 0)
  }

  /** Number of set cells in the first `n` stencil lines that invert byte `i`. */
  function CoverCount(g: Geometry, m: Mark, off: int, a: Addressing, i: int, n: nat): nat
    requires WellFormedMark(m) && n <= m.height
  {
    if n == 0 then 0
    else CoverCount(g, m, off, a, i, n - 1) + RowCoverCount(g, m, off, a, i, n - 1, m.width)
  }

  /** `activeMark` with the given addressing: every byte inverted by an odd
      number of set cells flips; writes outside the surface are dropped. */
  function MarkImage(g: Geometry, dest: seq<byte>, a: Addressing, kind: MarkType, left: int, top: int): (r: seq<byte>)
    requires Initialized(g) && |dest| == g.size
    ensures |r| == |dest|
  {
    var m := GetMark(kind);
    var off := GetOffset(g, left, top, m);
    seq(|dest|, i requires 0 <= i < |dest| =>
      if CoverCount(g, m, off, a, i, m.height) % 2 == 1 then Invert(dest[i]) else dest[i])
  }

  /** `activeMark`, corrected as the stencil intends: a mark that fits the
      surface puts cell `(x, y)` at `x` pixels and `y` padded lines from its
      offset; a mark larger than the surface is not drawn at all. */
  function ActiveMark(g: Geometry, dest: seq<byte>, kind: MarkType := PlayMark, left: int := 0, top: int := 0): (r: seq<byte>)
    requires Initialized(g) && |dest| == g.size
    ensures Fits(g, GetMark(kind)) ==> r == MarkImage(g, dest, Corrected, kind, left, top)
    ensures !Fits(g, GetMark(kind)) ==> r == dest
  {
    if Fits(g, GetMark(kind)) then MarkImage(g, dest, Corrected, kind, left, top) else dest
  }

  /** `activeMark` with the pointer arithmetic of the source. */
  function ActiveMarkAsWritten(g: Geometry, dest: seq<byte>, kind: MarkType := PlayMark, left: int := 0, top: int := 0): (r: seq<byte>)
    requires Initialized(g) && |dest| == g.size
    ensures r == MarkImage(g, dest, AsWritten, kind, left, top)
  {
    MarkImage(g, dest, AsWritten, kind, left, top)
  }

  /** Drawing the mark twice restores the surface. */
  lemma MarkIsSelfInverse(g: Geometry, dest: seq<byte>, a: Addressing, kind: MarkType, left: int, top: int)
    requires Initialized(g) && |dest| == g.size
    ensures MarkImage(g, MarkImage(g, dest, a, kind, left, top), a, kind, left, top) == dest
    ensures ActiveMark(g, ActiveMark(g, dest, kind, left, top), kind, left, top) == dest
  {
  }

  /** Both addressings agree wherever they put every cell at the same base. */
  lemma {:induction false} SameBasesSameCount(g: Geometry, m: Mark, off: int, i: int, n: nat)
    requires WellFormedMark(m) && n <= m.height
    requires forall x, y :: 0 <= x < m.width && 0 <= y < m.height ==>
               CellBase(g, m, off, AsWritten, x, y) == CellBase(g, m, off, Corrected, x, y)
    ensures CoverCount(g, m, off, AsWritten, i, n) == CoverCount(g, m, off, Corrected, i, n)
  {
    if n > 0 {
      SameBasesSameCount(g, m, off, i, n - 1);
      SameBasesSameRowCount(g, m, off, i, n - 1, m.width);
    }
  }

  lemma {:induction false} SameBasesSameRowCount(g: Geometry, m: Mark, off: int, i: int, y: nat, n: nat)
    requires WellFormedMark(m) && y < m.height && n <= m.width
    requires forall x, y :: 0 <= x < m.width && 0 <= y < m.height ==>
               CellBase(g, m, off, AsWritten, x, y) == CellBase(g, m, off, Corrected, x, y)
    ensures RowCoverCount(g, m, off, AsWritten, i, y, n) == RowCoverCount(g, m, off, Corrected, i, y, n)
  {
    if n > 0 {
      SameBasesSameRowCount(g, m, off, i, y, n - 1);
    }
  }

  lemma SameBase(g: Geometry, m: Mark, off: int, x: nat, y: nat)
    requires Initialized(g) && WellFormedMark(m) && x < m.width && y < m.height
    requires g.depth == D32 || (g.depth == D16 && g.width % 2 == 0)
    ensures CellBase(g, m, off, AsWritten, x, y) == CellBase(g, m, off, Corrected, x, y)
  {
    PaddingByDepth(g);
    var B := BytesPerPixel(g.depth);
    assert g.bytesPerLine == Times(g.width, B);
    TimesOfTimes(y, g.width, B);
    if g.depth == D32 {
      TimesIsProduct(x, 4);
      TimesIsProduct(Times(y, g.width), 4);
    } else {
      TimesIsProduct(x, 2);
      TimesIsProduct(Times(y, g.width), 2);
    }
  }

  /** At 32 bits, and at 16 bits with an even width, the pointer arithmetic
      of the source is the intended one. */
  lemma AsWrittenAgreesWithoutPadding(g: Geometry, dest: seq<byte>, kind: MarkType, left: int, top: int)
    requires Initialized(g) && |dest| == g.size
    requires g.depth == D32 || (g.depth == D16 && g.width % 2 == 0)
    ensures ActiveMarkAsWritten(g, dest, kind, left, top) == MarkImage(g, dest, Corrected, kind, left, top)
    ensures Fits(g, GetMark(kind)) ==> ActiveMarkAsWritten(g, dest, kind, left, top) == ActiveMark(g, dest, kind, left, top)
  {
    var m := GetMark(kind);
    var off := GetOffset(g, left, top, m);
    forall x, y | 0 <= x < m.width && 0 <= y < m.height
      ensures CellBase(g, m, off, AsWritten, x, y) == CellBase(g, m, off, Corrected, x, y)
    {
      SameBase(g, m, off, x, y);
    }
    forall i | 0 <= i < |dest|
      ensures CoverCount(g, m, off, AsWritten, i, m.height) == CoverCount(g, m, off, Corrected, i, m.height)
    {
      SameBasesSameCount(g, m, off, i, m.height);
    }
  }

  // ---------------------------------------------------------------------
  // The corrected mark, where it fits, inverts exactly its set cells

  predicate Fits(g: Geometry, m: Mark) {
    g.width >= m.width && g.height >= m.height
  }

  lemma CellInSurface(g: Geometry, m: Mark, left: int, top: int, x: nat, y: nat)
    requires Initialized(g) && WellFormedMark(m) && Fits(g, m) && x < m.width && y < m.height
    ensures var off := GetOffset(g, left, top, m);
            CellBase(g, m, off, Corrected, x, y) + BytesPerPixel(g.depth) <= g.size
  {
    var B := BytesPerPixel(g.depth);
    var rows := OffsetRows(g, top, m);
    TimesAdd(rows, y, g.bytesPerLine);
    TimesItem(rows + y, g.height, g.bytesPerLine);
    TimesItem(x, m.width, B);
  }

  /** Two different cells of a fitting mark invert disjoint bytes. */
  lemma CellsDisjoint(g: Geometry, m: Mark, off: int, x1: nat, y1: nat, x2: nat, y2: nat, i: int)
    requires Initialized(g) && WellFormedMark(m) && Fits(g, m)
    requires x1 < m.width && y1 < m.height && x2 < m.width && y2 < m.height && (x1, y1) != (x2, y2)
    requires InCell(g, m, off, Corrected, x1, y1, i)
    ensures !InCell(g, m, off, Corrected, x2, y2, i)
  {
    var B := BytesPerPixel(g.depth);
    var bpl := g.bytesPerLine;
    TimesLe(m.width, g.width, B);
    TimesItem(x1, m.width, B);
    TimesItem(x2, m.width, B);
    if y1 < y2 {
      TimesItem(y1, y2, bpl);
    } else if y2 < y1 {
      TimesItem(y2, y1, bpl);
    } else if x1 < x2 {
      TimesItem(x1, x2, B);
    } else {
      TimesItem(x2, x1, B);
    }
  }

  lemma {:induction false} RowCountOfOwnCell(g: Geometry, m: Mark, off: int, x0: nat, y0: nat, i: int, y: nat, n: nat)
    requires Initialized(g) && WellFormedMark(m) && Fits(g, m)
    requires x0 < m.width && y0 < m.height && y < m.height && n <= m.width
    requires InCell(g, m, off, Corrected, x0, y0, i)
    ensures RowCoverCount(g, m, off, Corrected, i, y, n) == (if y == y0 && x0 < n && IsSet(m, x0, y0) then 1 else 0)
  {
    if n > 0 {
      RowCountOfOwnCell(g, m, off, x0, y0, i, y, n - 1);
      if (n - 1, y) != (x0, y0) {
        CellsDisjoint(g, m, off, x0, y0, n - 1, y, i);
      }
    }
  }

  lemma {:induction false} CountOfOwnCell(g: Geometry, m: Mark, off: int, x0: nat, y0: nat, i: int, n: nat)
    requires Initialized(g) && WellFormedMark(m) && Fits(g, m)
    requires x0 < m.width && y0 < m.height && n <= m.height
    requires InCell(g, m, off, Corrected, x0, y0, i)
    ensures CoverCount(g, m, off, Corrected, i, n) == (if y0 < n && IsSet(m, x0, y0) then 1 else 0)
  {
    if n > 0 {
      CountOfOwnCell(g, m, off, x0, y0, i, n - 1);
      RowCountOfOwnCell(g, m, off, x0, y0, i, n - 1, m.width);
    }
  }

  predicate OutsideCells(g: Geometry, m: Mark, off: int, i: int)
    requires WellFormedMark(m)
  {
    forall x, y :: 0 <= x < m.width && 0 <= y < m.height ==> !InCell(g, m, off, Corrected, x, y, i)
  }

  lemma {:induction false} RowCountOutsideCells(g: Geometry, m: Mark, off: int, i: int, y: nat, n: nat)
    requires WellFormedMark(m) && y < m.height && n <= m.width && OutsideCells(g, m, off, i)
    ensures RowCoverCount(g, m, off, Corrected, i, y, n) == 0
  {
    if n > 0 {
      RowCountOutsideCells(g, m, off, i, y, n - 1);
    }
  }

  lemma {:induction false} CountOutsideCells(g: Geometry, m: Mark, off: int, i: int, n: nat)
    requires WellFormedMark(m) && n <= m.height && OutsideCells(g, m, off, i)
    ensures CoverCount(g, m, off, Corrected, i, n) == 0
  {
    if n > 0 {
      CountOutsideCells(g, m, off, i, n - 1);
      RowCountOutsideCells(g, m, off, i, n - 1, m.width);
    }
  }

  /** Where the mark fits, `activeMark` inverts every byte of each set cell
      of the stencil, keeps every byte of each clear cell, and touches no byte
      outside the cells. */
  lemma ActiveMarkInvertsStencil(g: Geometry, dest: seq<byte>, kind: MarkType, left: int, top: int, x: nat, y: nat, k: nat)
    requires Initialized(g) && |dest| == g.size && Fits(g, GetMark(kind))
    requires x < GetMark(kind).width && y < GetMark(kind).height && k < CellBytes(g.depth)
    ensures var m := GetMark(kind);
            var i := CellBase(g, m, GetOffset(g, left, top, m), Corrected, x, y) + k;
            0 <= i < |dest| &&
            ActiveMark(g, dest, kind, left, top)[i] == (if IsSet(m, x, y) then Invert(dest[i]) else dest[i])
  {
    var m := GetMark(kind);
    var off := GetOffset(g, left, top, m);
    CellInSurface(g, m, left, top, x, y);
    CountOfOwnCell(g, m, off, x, y, CellBase(g, m, off, Corrected, x, y) + k, m.height);
  }

  /** The corrected mark never reaches past the surface: every cell of a
      mark that fits lies inside it, and a mark that does not fit leaves the
      surface as it was. */
  lemma ActiveMarkStaysInSurface(g: Geometry, dest: seq<byte>, kind: MarkType, left: int, top: int)
    requires Initialized(g) && |dest| == g.size
    ensures var m := GetMark(kind);
            var off := GetOffset(g, left, top, m);
            Fits(g, m) ==> forall x, y :: 0 <= x < m.width && 0 <= y < m.height ==>
              0 <= CellBase(g, m, off, Corrected, x, y) && CellBase(g, m, off, Corrected, x, y) + CellBytes(g.depth) <= |dest|
    ensures !Fits(g, GetMark(kind)) ==> ActiveMark(g, dest, kind, left, top) == dest
  {
    var m := GetMark(kind);
    if Fits(g, m) {
      forall x, y | 0 <= x < m.width && 0 <= y < m.height
        ensures CellBase(g, m, GetOffset(g, left, top, m), Corrected, x, y) + CellBytes(g.depth) <= |dest|
      {
        CellInSurface(g, m, left, top, x, y);
      }
    }
  }

  lemma ActiveMarkKeepsRest(g: Geometry, dest: seq<byte>, kind: MarkType, left: int, top: int, i: nat)
    requires Initialized(g) && |dest| == g.size && i < |dest|
    requires OutsideCells(g, GetMark(kind), GetOffset(g, left, top, GetMark(kind)), i)
    ensures ActiveMark(g, dest, kind, left, top)[i] == dest[i]
  {
    var m := GetMark(kind);
    CountOutsideCells(g, m, GetOffset(g, left, top, m), i, m.height);
  }
}

=== FILE: render_findings.dfy ===
/** Concrete surfaces on which the pointer arithmetic of `activeMark` in the
    source differs from the stencil it is meant to draw.  The corrected
    addressing, `Render.ActiveMark`, is the one the rest of the model uses;
    its general properties are `Render.ActiveMarkInvertsStencil` and
    `Render.ActiveMarkKeepsRest`. */
module RenderFindings {
  import opened Base
  import opened Render

  /** On a 24-bit surface ten pixels wide (32 bytes per line) the source
      moves its pointer only after a set cell, so the fifth cell of the Dots
      mark, which is set, lands on the bytes of the third pixel, which the
      stencil leaves clear. */
  lemma Mark24AsWrittenInvertsClearPixel(g: Geometry, dest: seq<byte>)
    requires Initialized(g) && g.depth == D24 && g.width == 10 && g.height == 2
    requires |dest| == g.size
    ensures 6 < |dest|
    ensures ActiveMarkAsWritten(g, dest, DotsMark, 0, 0)[6] == Invert(dest[6])
    ensures ActiveMark(g, dest, DotsMark, 0, 0)[6] == dest[6]
    ensures ActiveMarkAsWritten(g, dest, DotsMark, 0, 0)[6] != ActiveMark(g, dest, DotsMark, 0, 0)[6]
  {
    G24(g);
    var m := GetMark(DotsMark);
    assert m == Dots;
    assert GetOffset(g, 0, 0, m) == 0;
    Cover24(g);
    assert MarkImage(g, dest, AsWritten, DotsMark, 0, 0)[6] == Invert(dest[6]);
    ActiveMarkInvertsStencil(g, dest, DotsMark, 0, 0, 2, 0, 0);
    assert CellBase(g, m, 0, Corrected, 2, 0) == 6 by {
      assert Times(2, 3) == 6;
    }
  }

  /** On a 16-bit surface eleven pixels wide (24 bytes per line, the last two
      of them padding) the source starts the second mark line 22 bytes after
      the first instead of 24, so the first cell of that line, which is set,
      inverts padding byte 22, which the corrected mark leaves alone. */
  lemma Mark16AsWrittenInvertsPadding(g: Geometry, dest: seq<byte>)
    requires Initialized(g) && g.depth == D16 && g.width == 11 && g.height == 2
    requires |dest| == g.size
    ensures 22 < |dest|
    ensures ActiveMarkAsWritten(g, dest, DotsMark, 0, 0)[22] == Invert(dest[22])
    ensures ActiveMark(g, dest, DotsMark, 0, 0)[22] == dest[22]
    ensures ActiveMarkAsWritten(g, dest, DotsMark, 0, 0)[22] != ActiveMark(g, dest, DotsMark, 0, 0)[22]
  {
    Mark16AsWrittenByte(g, dest);
    Mark16CorrectedByte(g, dest);
  }

  lemma Mark16AsWrittenByte(g: Geometry, dest: seq<byte>)
    requires Initialized(g) && g.depth == D16 && g.width == 11 && g.height == 2
    requires |dest| == g.size
    ensures 22 < |dest|
    ensures ActiveMarkAsWritten(g, dest, DotsMark, 0, 0)[22] == Invert(dest[22])
  {
    G16(g);
    var m := GetMark(DotsMark);
    assert m == Dots;
    assert GetOffset(g, 0, 0, m) == 0;
    MarkImageAt(g, dest, AsWritten, DotsMark, 0, 0, 22);
    Cover16(g);
  }

  /** One byte of a marked surface. */
  lemma MarkImageAt(g: Geometry, dest: seq<byte>, a: Addressing, kind: MarkType, left: int, top: int, i: nat)
    requires Initialized(g) && |dest| == g.size && i < |dest|
    ensures var m := GetMark(kind);
            MarkImage(g, dest, a, kind, left, top)[i] ==
              if CoverCount(g, m, GetOffset(g, left, top, m), a, i, m.height) % 2 == 1 then Invert(dest[i]) else dest[i]
  {
  }

  lemma Mark16CorrectedByte(g: Geometry, dest: seq<byte>)
    requires Initialized(g) && g.depth == D16 && g.width == 11 && g.height == 2
    requires |dest| == g.size
    ensures 22 < |dest|
    ensures ActiveMark(g, dest, DotsMark, 0, 0)[22] == dest[22]
  {
    G16(g);
    assert GetMark(DotsMark) == Dots;
    assert GetOffset(g, 0, 0, Dots) == 0;
    Outside16(g);
    ActiveMarkKeepsRest(g, dest, DotsMark, 0, 0, 22);
  }

  /** A 16x8 icon at 32 bits with the Play mark (5x9) at the margins
      (-1, 0) that `-m play` keeps from the defaults: the mark is taller than
      the surface, the line offset falls back to 0, and the last stencil line,
      whose first cell is set, starts 556 bytes into a surface of 512 bytes. */
  lemma PlayMarkOverrunsSmallSurface(g: Geometry)
    requires Initialized(g) && g.depth == D32 && g.width == 16 && g.height == 8
    ensures var m := GetMark(PlayMark);
            IsSet(m, 0, 8) && g.size == 512 &&
            CellBase(g, m, GetOffset(g, -1, 0, m), AsWritten, 0, 8) == 556
  {
    var m := GetMark(PlayMark);
    assert m == Play;
    PaddingByDepth(g);
    assert Times(16, 4) == 64;
    assert Times(8, 64) == 512;
    assert Times(5, 4) == 20;
    assert OffsetRows(g, 0, m) == 0;
    assert OffsetColumn(g, -1, m) == 44;
    assert GetOffset(g, -1, 0, m) == 44;
    assert Times(8, 16) == 128;
  }

  lemma G24(g: Geometry)
    requires Initialized(g) && g.depth == D24 && g.width == 10 && g.height == 2
    ensures g.bytesPerLine == 32 && g.size == 64
  {
    assert Times(10, 3) == 30;
    assert g.padding == 2 by {
      assert g.bytesPerLine == 30 + g.padding && g.padding <= 3;
    }
    assert Times(2, 32) == 64;
  }

  lemma G16(g: Geometry)
    requires Initialized(g) && g.depth == D16 && g.width == 11 && g.height == 2
    ensures g.bytesPerLine == 24 && g.size == 48
  {
    assert Times(11, 2) == 22;
    assert g.padding == 2 by {
      assert g.bytesPerLine == 22 + g.padding && g.padding <= 3;
    }
    assert Times(2, 24) == 48;
  }

  lemma {:induction false} SetInRowMonotone(row: seq<nat>, a: nat, b: nat)
    requires a <= b <= |row|
    ensures SetInRow(row, a) <= SetInRow(row, b)
    decreases b
  {
    if a < b {
      SetInRowMonotone(row, a, b - 1);
    }
  }

  /** Counting the cells of a stencil line that invert a byte, when at most
      cell `x0` can. */
  lemma {:induction false} RowCountSingle(g: Geometry, m: Mark, off: int, a: Addressing, i: int, y: nat, n: nat, x0: nat)
    requires WellFormedMark(m) && y < m.height && n <= m.width && x0 < m.width
    requires forall x :: 0 <= x < n && x != x0 ==> !Covers(g, m, off, a, x, y, i)
    ensures RowCoverCount(g, m, off, a, i, y, n) == (if x0 < n && Covers(g, m, off, a, x0, y, i) then 1 else 0)
  {
    if n > 0 {
      RowCountSingle(g, m, off, a, i, y, n - 1, x0);
    }
  }

  lemma Cover24(g: Geometry)
    requires Initialized(g) && g.depth == D24 && g.width == 10 && g.height == 2
    ensures CoverCount(g, Dots, 0, AsWritten, 6, 2) == 1
  {
    G24(g);
    var row := Dots.rows[0];
    assert SetInRows(Dots, 1) == 6;
    assert SetInRow(row, 4) == 2 && SetInRow(row, 5) == 3;
    forall x | 0 <= x < 10 && x != 4
      ensures !Covers(g, Dots, 0, AsWritten, x, 0, 6)
    {
      if x > 4 {
        SetInRowMonotone(row, 5, x);
      }
    }
    assert Covers(g, Dots, 0, AsWritten, 4, 0, 6);
    assert Steps(1, 2) == 2;
    forall x | 0 <= x < 10
      ensures !Covers(g, Dots, 0, AsWritten, x, 1, 6)
    {
      assert CellBase(g, Dots, 0, AsWritten, x, 1) >= 20;
    }
    RowCountSingle(g, Dots, 0, AsWritten, 6, 0, 10, 4);
    RowCountSingle(g, Dots, 0, AsWritten, 6, 1, 10, 0);
    assert CoverCount(g, Dots, 0, AsWritten, 6, 1) == 1;
  }

  lemma Outside16(g: Geometry)
    requires Initialized(g) && g.depth == D16 && g.width == 11 && g.height == 2
    ensures OutsideCells(g, Dots, 0, 22)
  {
    G16(g);
    forall x, y | 0 <= x < 10 && 0 <= y < 2
      ensures !InCell(g, Dots, 0, Corrected, x, y, 22)
    {
      TimesIsProduct(x, 2);
      TimesIsProduct(y, 24);
    }
  }

  lemma Cover16(g: Geometry)
    requires Initialized(g) && g.depth == D16 && g.width == 11 && g.height == 2
    ensures CoverCount(g, Dots, 0, AsWritten, 22, 2) == 1
  {
    G16(g);
    assert Times(1, 11) == 11;
    assert Covers(g, Dots, 0, AsWritten, 0, 1, 22);
    RowCountSingle(g, Dots, 0, AsWritten, 22, 0, 10, 0);
    RowCountSingle(g, Dots, 0, AsWritten, 22, 1, 10, 0);
  }
}

=== FILE: settings.dfy ===
/** `Dock::Settings`: the presets the command line can change, and the
    dock-wide constants. */
module Settings {
  import Render

  /** What a click on a running icon does. */
  datatype ClickAction = DoNothing | IconifyApplication | LowerApplication | CloseApplication

  datatype Settings = Settings(
    slotWidth: int,
    slotHeight: int,
    markType: Render.MarkType,
    markLeft: int,
    markTop: int,
    rightClickAction: ClickAction,
    leftClickAction: ClickAction,
    caseSensitive: bool)

  /** The presets: 64x64 tiles, the cross mark in the top right corner, a
      right click iconifies, a left click on a focused icon does nothing
      special, titles match case-insensitively. */
  const Defaults: Settings := Settings(64, 64, Render.CrossMark, -1, 0, IconifyApplication, DoNothing, false)

  /** Longest wait between two ticks, in microseconds (a quarter second). */
  const Suspend: nat := 250000
}

=== FILE: slot.dfy ===
/** `Slot`: one dock tile.  It shows its icon over the captured background,
    launches the icon's command, fades the icon in while the launched
    program settles, and marks the tile while that program runs.

    The environment is passed in: the X server's windows and properties
    (`srv`), the pixels grabbed from the parent window (`grab`: `None` when
    there is no parent or it is not fully on screen), the outcome of `fork`
    (`launch`) and whether `waitpid` reports the child, exited or stopped
    (`exited`).  X requests and process control come back as `Effect`s. */
module Slots {
  import opened Base
  import opened Effects
  import opened Icons
  import opened Render
  import WindowManager
  import Settings

  /** Fade value of a tile drawn without ghosting. */
  const Complete: nat := 255

  /** The `state` of a VisibilityNotify event that means fully visible. */
  const VisibilityUnobscured: nat := 0

  datatype Slot = Slot(
    window: nat,            // the tile's own X window
    icon: Icon,
    g: Geometry,            // the Render object for the icon's size and the screen depth
    left: int,              // icon position inside the tile
    top: int,
    normalIcon: seq<byte>,  // the decoded icon, four bytes per pixel
    background: seq<byte>,  // the last grab taken while fully visible
    image: seq<byte>,       // the surface that is blitted
    visibility: nat,
    invalid: bool,
    cache: WindowManager.Cache,
    pid: int,
    fading: nat)

  /** The state every operation keeps. */
  predicate Valid(s: Slot) {
    && Initialized(s.g)
    && |s.image| == s.g.size && |s.background| == s.g.size
    && |s.normalIcon| == 4 * s.g.pixels
    && s.fading <= Complete
    && s.pid >= 0
    && s.left >= 0 && s.top >= 0
  }

  // ---------------------------------------------------------------------
  // Fading

  function Pow(b: nat, e: nat): (r: nat)
    ensures b > 0 ==> r > 0
  {
    if e == 0 then 1 else b * Pow(b, e - 1)
  }

  /** Ticks of idle time: `idletime` milliseconds at one tick per `Suspend`
      microseconds. */
  function IdleTicks(ms: nat): nat {
    ms / 250
  }

  /** The fade value a launch starts at: 256 / 1.05^(ticks + 1), truncated. */
  function FadeStart(ticks: nat): nat {
    256 * Pow(100, ticks + 1) / Pow(105, ticks + 1)
  }

  lemma MulMono(x: nat, y: nat, b: nat)
    requires x <= y
    ensures x * b <= y * b
  {
  }
  lemma MulCancel(x: nat, y: nat, b: nat)
    requires b > 0 && x * b <= y * b
    ensures x <= y
  {
    if x > y {
      MulMono(y + 1, x, b);
    }
  }
  lemma QuotientBelow(a: nat, b: nat, c: nat, d: nat)
    requires b > 0 && a * d <= c * b
    ensures (a / b) * d <= c
  {
    var q := a / b;
    assert q * b <= a;
    MulMono(q * b, a, d);
    assert q * b * d == (q * d) * b;
    MulCancel(q * d, c, b);
  }
  lemma BelowQuotient(q: nat, c: nat, d: nat)
    requires d > 0 && q * d <= c
    ensures q <= c / d
  {
    var r := c / d;
    assert c < (r + 1) * d;
    if q > r {
      MulMono(r + 1, q, d);
    }
  }
  lemma DivLe(a: nat, b: nat, c: nat, d: nat)
    requires b > 0 && d > 0 && a * d <= c * b
    ensures a / b <= c / d
  {
    QuotientBelow(a, b, c, d);
    BelowQuotient(a / b, c, d);
  }

  /** A launch starts at most at 243, below `Complete`, so it is drawn
      ghosted, and the longer the idle time the fainter it starts. */
  lemma {:induction false} FadeStartBounds(ticks: nat)
    ensures FadeStart(ticks) <= 243
    ensures FadeStart(ticks + 1) <= FadeStart(ticks)
  {
    var p, q := Pow(100, ticks + 1), Pow(105, ticks + 1);
    assert Pow(100, ticks + 2) == 100 * p && Pow(105, ticks + 2) == 105 * q;
    DivLe(256 * (100 * p), 105 * q, 256 * p, q);
    if ticks == 0 {
      assert FadeStart(0) == 243;
    } else {
      FadeStartBounds(ticks - 1);
    }
  }

  lemma {:induction false} FadeStartMonotone(a: nat, b: nat)
    requires a <= b
    ensures FadeStart(b) <= FadeStart(a)
    decreases b - a
  {
    if a < b {
      FadeStartBounds(a);
      FadeStartMonotone(a + 1, b);
    }
  }

  /** One tick of fading in: `(int)(fading * 1.05)`, clamped to `Complete`. */
  function FadeStep(f: nat): (r: nat)
    requires f <= Complete
    ensures f <= r <= Complete
    ensures f < 20 ==> r == f
    ensures 20 <= f < Complete ==> f < r
  {
    var next := f * 105 / 100;
    if next > Complete then Complete else next
  }

  // ---------------------------------------------------------------------
  // Looking up the icon's windows

  /** Every title pattern in turn through `getWindowFromName`, threading the
      cache: the windows found, in order, and the cache afterwards. */
  function Resolve(c: WindowManager.Cache, srv: WindowManager.Server, titles: seq<string>, cs: bool): (r: (seq<WindowManager.Window>, WindowManager.Cache))
    ensures |r.0| <= |titles|
    ensures forall i :: 0 <= i < |r.0| ==> r.0[i] != 0 && WindowManager.IsValid(srv, r.0[i])
    decreases |titles|
  {
    if |titles| == 0 then ([], c)
    else
      var (w, c1) := WindowManager.GetWindowFromName(c, srv, titles[0], cs);
      var (ws, c2) := Resolve(c1, srv, titles[1..], cs);
      (if w != 0 then [w] + ws else ws, c2)
  }

  /** The loop of `hasFocus`: stops at the first title that resolves to
      `active`. */
  function FocusLoop(c: WindowManager.Cache, srv: WindowManager.Server, titles: seq<string>, cs: bool, active: WindowManager.Window): (r: (bool, WindowManager.Cache))
    decreases |titles|
  {
    if |titles| == 0 then (false, c)
    else
      var (w, c1) := WindowManager.GetWindowFromName(c, srv, titles[0], cs);
      if w == active then (true, c1) else FocusLoop(c1, srv, titles[1..], cs, active)
  }

  /** `hasFocus`: false without an active window; otherwise whether one of the
      title patterns resolves to it. */
  function HasFocus(s: Slot, srv: WindowManager.Server, cs: bool): (r: (bool, Slot))
    ensures r.1 == s.(cache := r.1.cache)
    ensures WindowManager.ActiveWindow(srv) == 0 ==> r == (false, s)
  {
    var active := WindowManager.ActiveWindow(srv);
    if active == 0 then (false, s)
    else
      var (found, c) := FocusLoop(s.cache, srv, s.icon.title, cs, active);
      (found, s.(cache := c))
  }

  lemma {:induction false} FocusLoopFindsResolved(c: WindowManager.Cache, srv: WindowManager.Server, titles: seq<string>, cs: bool, active: WindowManager.Window)
    requires active != 0
    ensures FocusLoop(c, srv, titles, cs, active).0 <==> active in Resolve(c, srv, titles, cs).0
    decreases |titles|
  {
    if |titles| > 0 {
      var (w, c1) := WindowManager.GetWindowFromName(c, srv, titles[0], cs);
      FocusLoopFindsResolved(c1, srv, titles[1..], cs, active);
      if w != active {
        var ws := Resolve(c1, srv, titles[1..], cs).0;
        assert Resolve(c, srv, titles, cs).0 == (if w != 0 then [w] + ws else ws);
      }
    }
  }

  /** The tile has focus exactly when the active window is among the windows
      its titles resolve to. */
  lemma HasFocusIffResolved(s: Slot, srv: WindowManager.Server, cs: bool)
    ensures HasFocus(s, srv, cs).0 <==>
              WindowManager.ActiveWindow(srv) != 0 &&
              WindowManager.ActiveWindow(srv) in Resolve(s.cache, srv, s.icon.title, cs).0
  {
    if WindowManager.ActiveWindow(srv) != 0 {
      FocusLoopFindsResolved(s.cache, srv, s.icon.title, cs, WindowManager.ActiveWindow(srv));
    }
  }

  // ---------------------------------------------------------------------
  // Drawing

  /** `getBackground`: grab what lies under the tile; keep it as the
      background only while the tile is fully visible.  The tile stays
      invalid until such a grab succeeds. */
  function GetBackground(s: Slot, grab: Option<seq<byte>>): (r: Slot)
    requires grab.Some? ==> |grab.value| == |s.image|
    ensures Valid(s) ==> Valid(r)
    ensures grab.None? ==> r == s.(invalid := true)
    ensures grab.Some? ==> r.image == grab.value
    ensures !r.invalid <==> grab.Some? && s.visibility == VisibilityUnobscured
    ensures r.background == (if r.invalid then s.background else grab.value)
  {
    match grab
    case None => s.(invalid := true)
    case Some(p) =>
      if s.visibility == VisibilityUnobscured then s.(image := p, background := p, invalid := false)
      else s.(image := p, invalid := true)
  }

  /** The first step of a redraw: an invalid tile grabs its background
      again; a valid one copies its kept background into the surface. */
  function Restored(s: Slot, grab: Option<seq<byte>>): (r: Slot)
    requires Valid(s)
    requires grab.Some? ==> |grab.value| == |s.image|
    ensures Valid(r)
    ensures !s.invalid ==> r == s.(image := s.background)
    ensures s.invalid && grab.Some? ==> r.image == grab.value
    ensures s.invalid && grab.None? ==> r == s
    ensures r == s.(image := r.image, background := r.background, invalid := r.invalid)
    ensures r.g == s.g && r.normalIcon == s.normalIcon && r.fading == s.fading && r.pid == s.pid && r.icon == s.icon
  {
    if s.invalid then GetBackground(s, grab) else s.(image := s.background)
  }

  /** The compositing step `draw` uses: ghosted while fading in. */
  function DrawOp(fading: nat): (op: Op)
    requires fading <= Complete
    ensures op.Opaque? <==> fading == Complete
    ensures op.Ghosted? ==> op.transparency as nat == fading
  {
    if fading < Complete then Ghosted(fading as byte) else Opaque
  }

  /** The surface before the icon is composited: the background with the
      running mark on top when the tile has a running exclusive program. */
  function Underlay(s: Slot, st: Settings.Settings): (r: seq<byte>)
    requires Valid(s)
    ensures |r| == |s.image|
    ensures !(s.pid != 0 && s.icon.exclusive) ==> r == s.image
    ensures s.pid != 0 && s.icon.exclusive ==> r == ActiveMark(s.g, s.image, st.markType, st.markLeft, st.markTop)
  {
    if s.pid != 0 && s.icon.exclusive then ActiveMark(s.g, s.image, st.markType, st.markLeft, st.markTop)
    else s.image
  }

  /** `draw`: when asked to refresh, or when the background is invalid,
      restore the background (grabbing it again if invalid), mark it, and
      composite the icon; in every case blit the surface. */
  function Draw(s: Slot, st: Settings.Settings, refresh: bool, grab: Option<seq<byte>>): (r: (Slot, seq<Effect>))
    requires Valid(s)
    requires grab.Some? ==> |grab.value| == |s.image|
    ensures Valid(r.0)
    ensures r.1 == [Blit(r.0.image)]
    ensures !refresh && !s.invalid ==> r.0 == s
    ensures r.0 == s.(image := r.0.image, background := r.0.background, invalid := r.0.invalid)
  {
    if refresh || s.invalid then
      var s1 := Restored(s, grab);
      var img := Composite(s1.g, Underlay(s1, st), s1.normalIcon, DrawOp(s1.fading));
      var s2 := s1.(image := img);
      (s2, [Blit(img)])
    else (s, [Blit(s.image)])
  }

  /** A refresh of a tile with a valid background restores that background,
      marks it, and composites the icon over it with the operation the fade
      calls for; the pixel-level meaning is `Render.CompositePixel`. */
  lemma DrawRefreshComposites(s: Slot, st: Settings.Settings)
    requires Valid(s) && !s.invalid
    ensures Draw(s, st, true, None).0 ==
              s.(image := Composite(s.g, Underlay(s.(image := s.background), st), s.normalIcon, DrawOp(s.fading)))
  {
  }

  /** Where the icon is fully transparent, compositing keeps the surface. */
  lemma CompositeKeepsUnderTransparent(g: Geometry, under: seq<byte>, icon: seq<byte>, op: Op, x: nat, y: nat, k: nat)
    requires Initialized(g) && |under| == g.size && |icon| == 4 * g.pixels
    requires x < g.width && y < g.height && k < BytesPerPixel(g.depth)
    requires IconBase(g, x, y) + 3 < |icon| && icon[IconBase(g, x, y) + 3] == 0
    ensures PixelBase(g, x, y) + k < |under|
    ensures Composite(g, under, icon, op)[PixelBase(g, x, y) + k] == under[PixelBase(g, x, y) + k]
  {
    var base, B, src := PixelBase(g, x, y), BytesPerPixel(g.depth), IconBase(g, x, y);
    CompositePixel(g, under, icon, op, x, y, k);
    TransparentSourceKeepsPixel(g.depth, op, under[base..base + B], icon[src..src + 4]);
  }

  /** At 24 bits, where the icon is opaque, `opaque` shows its colour. */
  lemma CompositeShowsOpaque24(g: Geometry, under: seq<byte>, icon: seq<byte>, x: nat, y: nat, k: nat)
    requires Initialized(g) && g.depth == D24 && |under| == g.size && |icon| == 4 * g.pixels
    requires x < g.width && y < g.height && k < 3
    requires IconBase(g, x, y) + 3 < |icon| && icon[IconBase(g, x, y) + 3] == 255
    ensures PixelBase(g, x, y) + k < |under|
    ensures Composite(g, under, icon, Opaque)[PixelBase(g, x, y) + k] == icon[IconBase(g, x, y) + k]
  {
    var base, src := PixelBase(g, x, y), IconBase(g, x, y);
    CompositePixel(g, under, icon, Opaque, x, y, k);
    OpaqueSourceShowsSourceColour(D24, under[base..base + 3], icon[src..src + 4]);
  }

  /** A refresh composites the icon over the restored surface. */
  lemma DrawRefreshImage(s: Slot, st: Settings.Settings, grab: Option<seq<byte>>)
    requires Valid(s)
    requires grab.Some? ==> |grab.value| == |s.image|
    ensures Draw(s, st, true, grab).0.image == Composite(s.g, Underlay(Restored(s, grab), st), s.normalIcon, DrawOp(s.fading))
  {
  }

  /** A draw of a tile whose background is invalid, with or without
      refresh, grabs the background again and composites the icon over the
      grab, marked when the tile runs an exclusive program; without a grab
      the icon goes over the surface as it was. */
  lemma DrawRegrabComposites(s: Slot, st: Settings.Settings, refresh: bool, grab: Option<seq<byte>>)
    requires Valid(s) && s.invalid
    requires grab.Some? ==> |grab.value| == |s.image|
    ensures var r := Draw(s, st, refresh, grab).0;
            r.image == Composite(s.g, Underlay(GetBackground(s, grab), st), s.normalIcon, DrawOp(s.fading)) &&
            r.background == GetBackground(s, grab).background && r.invalid == GetBackground(s, grab).invalid
  {
  }

  /** Where the icon is transparent, the drawn tile shows the restored
      background (kept or grabbed again) with the mark; where it is opaque
      and the tile is not fading, the icon's own colour (at 24 bits,
      exactly). */
  lemma DrawShowsMarkUnderTransparentIcon(s: Slot, st: Settings.Settings, grab: Option<seq<byte>>, x: nat, y: nat, k: nat)
    requires Valid(s)
    requires grab.Some? ==> |grab.value| == |s.image|
    requires x < s.g.width && y < s.g.height && k < BytesPerPixel(s.g.depth)
    requires IconBase(s.g, x, y) + 3 < |s.normalIcon| && s.normalIcon[IconBase(s.g, x, y) + 3] == 0
    ensures PixelBase(s.g, x, y) + k < |s.image|
    ensures Draw(s, st, true, grab).0.image[PixelBase(s.g, x, y) + k] ==
              Underlay(Restored(s, grab), st)[PixelBase(s.g, x, y) + k]
    ensures !s.invalid ==>
              (Draw(s, st, true, grab).0.image[PixelBase(s.g, x, y) + k] ==
               Underlay(s.(image := s.background), st)[PixelBase(s.g, x, y) + k])
  {
    var under := Underlay(Restored(s, grab), st);
    DrawRefreshImage(s, st, grab);
    CompositeKeepsUnderTransparent(s.g, under, s.normalIcon, DrawOp(s.fading), x, y, k);
  }

  lemma DrawShowsOpaqueIcon(s: Slot, st: Settings.Settings, grab: Option<seq<byte>>, x: nat, y: nat, k: nat)
    requires Valid(s) && s.fading == Complete && s.g.depth == D24
    requires grab.Some? ==> |grab.value| == |s.image|
    requires x < s.g.width && y < s.g.height && k < 3
    requires IconBase(s.g, x, y) + 3 < |s.normalIcon| && s.normalIcon[IconBase(s.g, x, y) + 3] == 255
    ensures PixelBase(s.g, x, y) + k < |s.image|
    ensures Draw(s, st, true, grab).0.image[PixelBase(s.g, x, y) + k] == s.normalIcon[IconBase(s.g, x, y) + k]
  {
    var under := Underlay(Restored(s, grab), st);
    DrawRefreshImage(s, st, grab);
    CompositeShowsOpaque24(s.g, under, s.normalIcon, x, y, k);
  }

  // ---------------------------------------------------------------------
  // Launching and ticking

  /** What `fork` returned in the parent: a child id, or failure. */
  datatype Launch = Forked(child: nat) | ForkFailed

  /** The shell command line a launch runs. */
  function CommandLine(command: string, arg: Option<string>): (r: string)
    ensures arg.None? ==> r == command
    ensures arg.Some? ==> |r| == |command| + 1 + |arg.value| && r[..|command|] == command && r[|command|] == ' ' && r[|command| + 1..] == arg.value
  {
    match arg
    case None => command
    case Some(a) => command + " " + a
  }

  /** `exec`: with a running exclusive program, raise its windows; otherwise,
      once faded in and given a command, launch it and start fading in. */
  function Exec(s: Slot, st: Settings.Settings, srv: WindowManager.Server, arg: Option<string>,
                launch: Launch, grab: Option<seq<byte>>): (r: Result<(Slot, seq<Effect>)>)
    requires Valid(s)
    requires launch.Forked? ==> launch.child > 0
    requires grab.Some? ==> |grab.value| == |s.image|
    ensures r.Success? ==> Valid(r.value.0)
    ensures r.Failure? <==> !(s.pid != 0 && s.icon.exclusive) && s.fading == Complete && |s.icon.command| > 0 && launch.ForkFailed?
    ensures !(s.pid != 0 && s.icon.exclusive) && (s.fading < Complete || |s.icon.command| == 0) ==> r == Success((s, []))
  {
    if s.pid != 0 && s.icon.exclusive then
      var (ws, c) := Resolve(s.cache, srv, s.icon.title, st.caseSensitive);
      Success((s.(cache := c), ActivateAll(srv, ws)))
    else if s.fading < Complete || |s.icon.command| == 0 then Success((s, []))
    else match launch
      case ForkFailed => Failure("Fork failed !")
      case Forked(child) =>
        var start := FadeStart(IdleTicks(s.icon.idleTime));
        FadeStartMonotone(0, IdleTicks(s.icon.idleTime));
        FadeStartBounds(0);
        var s1 := s.(pid := child, fading := start);
        var (s2, es) := Draw(s1, st, true, grab);
        Success((s2, [Spawn(CommandLine(s.icon.command, arg))] + es))
  }

  /** The windows the `Activate` requests among `es` raise, in order. */
  function Activated(es: seq<Effect>): seq<nat> {
    if |es| == 0 then []
    else (if es[0].Activate? then [es[0].window] else []) + Activated(es[1..])
  }

  lemma {:induction false} ActivatedAppend(a: seq<Effect>, b: seq<Effect>)
    ensures Activated(a + b) == Activated(a) + Activated(b)
    decreases |a|
  {
    if |a| == 0 {
      assert a + b == b;
    } else {
      assert (a + b)[0] == a[0] && (a + b)[1..] == a[1..] + b;
      ActivatedAppend(a[1..], b);
    }
  }

  /** Only desktop switches and activations. */
  predicate RaisesOnly(es: seq<Effect>) {
    forall i :: 0 <= i < |es| ==> es[i].SwitchDesktop? || es[i].Activate?
  }

  lemma RaisesOnlyAppend(a: seq<Effect>, b: seq<Effect>)
    requires RaisesOnly(a) && RaisesOnly(b)
    ensures RaisesOnly(a + b) && NoSpawn(a + b)
  {
    forall i | 0 <= i < |a + b| ensures (a + b)[i].SwitchDesktop? || (a + b)[i].Activate? {
      if i < |a| { assert (a + b)[i] == a[i]; } else { assert (a + b)[i] == b[i - |a|]; }
    }
  }

  /** `activateWindow` for each window in turn: every window is activated,
      in order, each after at most one desktop switch. */
  function ActivateAll(srv: WindowManager.Server, ws: seq<WindowManager.Window>): (es: seq<Effect>)
    ensures NoSpawn(es) && RaisesOnly(es)
    ensures |ws| <= |es| <= 2 * |ws|
    ensures Activated(es) == ws
  {
    if |ws| == 0 then []
    else
      var first := WindowManager.ActivateWindow(srv, ws[0]);
      var rest := ActivateAll(srv, ws[1..]);
      ActivatedAppend(first, rest);
      ActivateWindowActivatesIt(srv, ws[0]);
      RaisesOnlyAppend(first, rest);
      first + rest
  }

  lemma ActivateWindowActivatesIt(srv: WindowManager.Server, w: WindowManager.Window)
    ensures var es := WindowManager.ActivateWindow(srv, w);
            Activated(es) == [w] && RaisesOnly(es)
  {
    var es := WindowManager.ActivateWindow(srv, w);
    if |es| == 2 {
      assert es[1..][1..] == [];
      assert Activated(es[1..]) == [w];
      assert !es[0].Activate?;
    } else {
      assert es == [Activate(w)];
      assert es[1..] == [];
    }
  }

  /** Each resolved window is activated. */
  lemma ActivateAllRaisesEach(srv: WindowManager.Server, ws: seq<WindowManager.Window>, j: nat)
    requires j < |ws|
    ensures Activate(ws[j]) in ActivateAll(srv, ws)
  {
    ActivatedHas(ActivateAll(srv, ws), j);
  }

  lemma {:induction false} ActivatedHas(es: seq<Effect>, j: nat)
    requires j < |Activated(es)|
    ensures Activate(Activated(es)[j]) in es
    decreases |es|
  {
    var head := if es[0].Activate? then [es[0].window] else [];
    if es[0].Activate? && j == 0 {
      assert es[0] == Activate(es[0].window);
    } else {
      ActivatedHas(es[1..], j - |head|);
      assert Activated(es)[j] == Activated(es[1..])[j - |head|];
    }
  }

  /** A running exclusive tile only raises its windows: nothing is launched
      and the process and fade are left as they were. */
  lemma ExecOfRunningExclusive(s: Slot, st: Settings.Settings, srv: WindowManager.Server, arg: Option<string>,
                               launch: Launch, grab: Option<seq<byte>>)
    requires Valid(s) && s.pid != 0 && s.icon.exclusive
    requires launch.Forked? ==> launch.child > 0
    requires grab.Some? ==> |grab.value| == |s.image|
    ensures var r := Exec(s, st, srv, arg, launch, grab);
            r.Success? && NoSpawn(r.value.1) && r.value.0.pid == s.pid && r.value.0.fading == s.fading &&
            |r.value.1| >= |Resolve(s.cache, srv, s.icon.title, st.caseSensitive).0|
    ensures var r := Exec(s, st, srv, arg, launch, grab);
            var (ws, c) := Resolve(s.cache, srv, s.icon.title, st.caseSensitive);
            r.Success? && r.value.0 == s.(cache := c) && Activated(r.value.1) == ws && RaisesOnly(r.value.1)
  {
  }

  /** A launch sets the child, starts a fade below `Complete` that is lower
      the longer the idle time, spawns the command line once and redraws. */
  lemma ExecLaunches(s: Slot, st: Settings.Settings, srv: WindowManager.Server, arg: Option<string>,
                     child: nat, grab: Option<seq<byte>>)
    requires Valid(s) && !(s.pid != 0 && s.icon.exclusive) && s.fading == Complete && |s.icon.command| > 0
    requires child > 0
    requires grab.Some? ==> |grab.value| == |s.image|
    ensures var r := Exec(s, st, srv, arg, Forked(child), grab);
            r.Success? && r.value.0.pid == child &&
            r.value.0.fading == FadeStart(IdleTicks(s.icon.idleTime)) && r.value.0.fading < Complete &&
            r.value.1 == [Spawn(CommandLine(s.icon.command, arg)), Blit(r.value.0.image)]
  {
    FadeStartMonotone(0, IdleTicks(s.icon.idleTime));
    FadeStartBounds(0);
  }

  /** A longer idle time never starts the fade higher. */
  lemma LongerIdleStartsFainter(ms1: nat, ms2: nat)
    requires ms1 <= ms2
    ensures FadeStart(IdleTicks(ms2)) <= FadeStart(IdleTicks(ms1)) <= 243
  {
    FadeStartMonotone(IdleTicks(ms1), IdleTicks(ms2));
    FadeStartMonotone(0, IdleTicks(ms1));
    FadeStartBounds(0);
  }

  /** `tick`: notice that `waitpid` reports the child (exited or stopped),
      or take one fade step. */
  function Tick(s: Slot, st: Settings.Settings, exited: bool, grab: Option<seq<byte>>): (r: (Slot, seq<Effect>))
    requires Valid(s)
    requires grab.Some? ==> |grab.value| == |s.image|
    ensures Valid(r.0)
    ensures s.pid == 0 ==> r == (s, [])
    ensures s.pid != 0 && exited ==> r.0.pid == 0 && r.0.fading == Complete && r.1 == [Blit(r.0.image)]
    ensures s.pid != 0 && !exited ==> r.0.pid == s.pid && r.0.fading == FadeStep(s.fading)
    ensures s.pid != 0 && !exited && s.fading < Complete ==> r.1 == [Blit(r.0.image)]
    ensures s.pid != 0 && !exited && s.fading == Complete ==> r == (s, [])
    ensures r.0.icon == s.icon && r.0.cache == s.cache
  {
    if s.pid == 0 then (s, [])
    else if exited then Draw(s.(pid := 0, fading := Complete), st, true, grab)
    else if s.fading < Complete then Draw(s.(fading := FadeStep(s.fading)), st, true, grab)
    else (s, [])
  }

  /** Below 20 a fade step changes nothing: such a fade never completes while
      the program runs. */
  lemma FadeStallsBelowTwenty(s: Slot, st: Settings.Settings, grab: Option<seq<byte>>)
    requires Valid(s) && s.pid != 0 && s.fading < 20
    requires grab.Some? ==> |grab.value| == |s.image|
    ensures Tick(s, st, false, grab).0.fading == s.fading
  {
  }

  /** From 20 upwards every tick without exit raises the fade, so it reaches
      `Complete` after at most 255 ticks. */
  lemma FadeProgresses(s: Slot, st: Settings.Settings, grab: Option<seq<byte>>)
    requires Valid(s) && s.pid != 0 && 20 <= s.fading < Complete
    requires grab.Some? ==> |grab.value| == |s.image|
    ensures s.fading < Tick(s, st, false, grab).0.fading <= Complete
  {
  }

  // ---------------------------------------------------------------------
  // Acting on the running program's windows

  /** `iconifyApplication`: needs a running exclusive program with titles. */
  function IconifyApplication(s: Slot, srv: WindowManager.Server, cs: bool): (r: (Slot, seq<Effect>))
    ensures r.0 == s.(cache := r.0.cache)
    ensures s.pid == 0 || !s.icon.exclusive || |s.icon.title| == 0 ==> r == (s, [])
    ensures s.pid != 0 && s.icon.exclusive && |s.icon.title| > 0 ==>
              var ws := Resolve(s.cache, srv, s.icon.title, cs).0;
              |r.1| == |ws| && forall i :: 0 <= i < |ws| ==> r.1[i] == Iconify(ws[i])
  {
    if s.pid == 0 || !s.icon.exclusive || |s.icon.title| == 0 then (s, [])
    else
      var (ws, c) := Resolve(s.cache, srv, s.icon.title, cs);
      (s.(cache := c), seq(|ws|, i requires 0 <= i < |ws| => Iconify(ws[i])))
  }

  /** `lowerApplication`: needs a running exclusive program with titles. */
  function LowerApplication(s: Slot, srv: WindowManager.Server, cs: bool): (r: (Slot, seq<Effect>))
    ensures r.0 == s.(cache := r.0.cache)
    ensures s.pid == 0 || !s.icon.exclusive || |s.icon.title| == 0 ==> r == (s, [])
    ensures s.pid != 0 && s.icon.exclusive && |s.icon.title| > 0 ==>
              var ws := Resolve(s.cache, srv, s.icon.title, cs).0;
              |r.1| == |ws| && forall i :: 0 <= i < |ws| ==> r.1[i] == Lower(ws[i])
  {
    if s.pid == 0 || !s.icon.exclusive || |s.icon.title| == 0 then (s, [])
    else
      var (ws, c) := Resolve(s.cache, srv, s.icon.title, cs);
      (s.(cache := c), seq(|ws|, i requires 0 <= i < |ws| => Lower(ws[i])))
  }

  /** `closeApplication`: close every window the titles resolve to, and
      terminate the process when there are no titles or none resolved.  The
      process id is kept: the next tick notices the exit. */
  function CloseApplication(s: Slot, srv: WindowManager.Server, cs: bool): (r: (Slot, seq<Effect>))
    ensures r.0 == s.(cache := r.0.cache)
    ensures s.pid == 0 || !s.icon.exclusive ==> r == (s, [])
    ensures s.pid != 0 && s.icon.exclusive ==>
              var ws := Resolve(s.cache, srv, s.icon.title, cs).0;
              |r.1| == |ws| + (if |s.icon.title| == 0 || |ws| == 0 then 1 else 0) &&
              (forall i :: 0 <= i < |ws| ==> r.1[i] == CloseWindow(ws[i])) &&
              (Terminate(s.pid) in r.1 <==> |s.icon.title| == 0 || |ws| == 0)
  {
    if s.pid == 0 || !s.icon.exclusive then (s, [])
    else
      var (ws, c) := Resolve(s.cache, srv, s.icon.title, cs);
      var closes := seq(|ws|, i requires 0 <= i < |ws| => CloseWindow(ws[i]));
      var kill := if |s.icon.title| == 0 || |ws| == 0 then [Terminate(s.pid)] else [];
      assert Terminate(s.pid) !in closes;
      (s.(cache := c), closes + kill)
  }

  // ---------------------------------------------------------------------
  // Loading the icon

  /** A decoded PNG: width, height and four bytes per pixel. */
  datatype Png = Png(width: nat, height: nat, pixels: seq<byte>)

  predicate WellFormedPng(p: Png) {
    |p.pixels| == 4 * Times(p.height, p.width)
  }

  /** The byte size of the surface `createSurface` makes for a decoded
      image, or 0 when the depth is not supported. */
  function SurfaceSize(bitsPerPixel: int, p: Png): nat {
    match GetInstance(bitsPerPixel, p.width, p.height)
    case Success(g) => g.size
    case Failure(_) => 0
  }

  /** `loadIcon` and `createSurface`: take the decoded image, centre it in
      the tile, and set up a zeroed surface of its size.  `None` stands for a
      file that could not be read or decoded. */
  function LoadIcon(s: Slot, st: Settings.Settings, bitsPerPixel: int, png: Option<Png>): (r: Result<Slot>)
    requires png.Some? ==> WellFormedPng(png.value)
    ensures r.Success? <==>
              png.Some? && png.value.width > 0 && png.value.height > 0 &&
              png.value.width <= st.slotWidth && png.value.height <= st.slotHeight &&
              (bitsPerPixel == 16 || bitsPerPixel == 24 || bitsPerPixel == 32)
    ensures r.Success? ==>
              var p := png.value;
              && r.value.g.width == p.width && r.value.g.height == p.height
              && r.value.normalIcon == p.pixels
              && 2 * r.value.left + p.width + (st.slotWidth - p.width) % 2 == st.slotWidth
              && 2 * r.value.top + p.height + (st.slotHeight - p.height) % 2 == st.slotHeight
              && r.value.image == r.value.background && (forall i :: 0 <= i < |r.value.image| ==> r.value.image[i] == 0)
              && r.value.pid == s.pid && r.value.fading == s.fading && r.value.icon == s.icon
    ensures r.Success? ==> |r.value.image| == SurfaceSize(bitsPerPixel, png.value)
  {
    if png.None? || png.value.width == 0 || png.value.height == 0 then Failure("Invalid image file !")
    else
      var p := png.value;
      var left := (st.slotWidth - p.width) / 2;
      var top := (st.slotHeight - p.height) / 2;
      if left < 0 || top < 0 then Failure("Image is too big !")
      else match GetInstance(bitsPerPixel, p.width, p.height)
        case Failure(e) => Failure(e)
        case Success(g) => Success(WithSurface(s, g, left, top, p.pixels))
  }

  /** The tile with a new icon and a zeroed surface for it. */
  function WithSurface(s: Slot, g: Geometry, left: int, top: int, pixels: seq<byte>): (r: Slot)
    ensures r.g == g && r.left == left && r.top == top && r.normalIcon == pixels
    ensures |r.image| == g.size && r.image == r.background && (forall i :: 0 <= i < |r.image| ==> r.image[i] == 0)
    ensures r == s.(g := g, left := left, top := top, normalIcon := pixels, background := r.image, image := r.image)
  {
    var zeros := seq(g.size, _ => 0 as byte);
    s.(g := g, left := left, top := top, normalIcon := pixels, background := zeros, image := zeros)
  }

  /** A loaded tile keeps the invariant (given a fade and process that
      already did). */
  lemma LoadIconValid(s: Slot, st: Settings.Settings, bitsPerPixel: int, png: Option<Png>)
    requires png.Some? ==> WellFormedPng(png.value)
    requires s.fading <= Complete && s.pid >= 0
    ensures LoadIcon(s, st, bitsPerPixel, png).Success? ==> Valid(LoadIcon(s, st, bitsPerPixel, png).value)
  {
    if LoadIcon(s, st, bitsPerPixel, png).Success? {
      var g := LoadIcon(s, st, bitsPerPixel, png).value.g;
      var p := png.value;
      TimesIsProduct(p.height, p.width);
      TimesIsProduct(g.height, g.width);
    }
  }

  /** The constructor: not running, fully faded in, visible, with an empty
      pattern cache, then `loadIcon`. */
  function NewSlot(window: nat, icon: Icon, st: Settings.Settings, bitsPerPixel: int, png: Option<Png>): (r: Result<Slot>)
    requires png.Some? ==> WellFormedPng(png.value)
    ensures r.Success? ==> Valid(r.value) && r.value.pid == 0 && r.value.fading == Complete &&
                           !r.value.invalid && r.value.cache == [] && r.value.icon == icon &&
                           r.value.window == window && r.value.visibility == VisibilityUnobscured
  {
    var blank := Slot(window, icon, Geometry(D32, 0, 0, 0, 0, 0, 0), 0, 0, [], [], [], VisibilityUnobscured, false, [], 0, Complete);
    LoadIconValid(blank, st, bitsPerPixel, png);
    LoadIcon(blank, st, bitsPerPixel, png)
  }

  /** `setIcon`: store the new image path, load it, and redraw with a fresh
      background.  `grab` is what `getBackground` grabs into the new
      surface, so it has that surface's size. */
  function SetIcon(s: Slot, st: Settings.Settings, filename: string, home: string, bitsPerPixel: int,
                   png: Option<Png>, grab: Option<seq<byte>>): (r: Result<(Slot, seq<Effect>)>)
    requires Valid(s)
    requires png.Some? ==> WellFormedPng(png.value)
    requires grab.Some? ==> png.Some? && |grab.value| == SurfaceSize(bitsPerPixel, png.value)
    ensures r.Success? ==> Valid(r.value.0) && r.value.0.icon.image == Expand(filename, home)
    ensures r.Success? ==> r.value.1 == [Blit(r.value.0.image)]
    ensures r.Success? <==> LoadIcon(s.(icon := SetImage(s.icon, filename, home)), st, bitsPerPixel, png).Success?
    ensures r.Success? ==>
              && r.value.0.normalIcon == png.value.pixels
              && r.value.0.g.width == png.value.width && r.value.0.g.height == png.value.height
              && r.value.0.icon == SetImage(s.icon, filename, home)
              && r.value.0.pid == s.pid && r.value.0.fading == s.fading && r.value.0.cache == s.cache
    ensures r.Success? ==>
              (!r.value.0.invalid <==> grab.Some? && s.visibility == VisibilityUnobscured) &&
              (!r.value.0.invalid ==> r.value.0.background == grab.value)
  {
    var s1 := s.(icon := SetImage(s.icon, filename, home));
    LoadIconValid(s1, st, bitsPerPixel, png);
    match LoadIcon(s1, st, bitsPerPixel, png)
    case Failure(e) => Failure(e)
    case Success(s2) =>
      Success(Draw(s2.(invalid := true), st, true, grab))
  }

  /** After `setIcon` the tile shows the new icon composited over a grab
      of its new size, marked when the tile runs an exclusive program. */
  lemma SetIconDrawsOverGrab(s: Slot, st: Settings.Settings, filename: string, home: string, bitsPerPixel: int,
                             png: Option<Png>, grab: Option<seq<byte>>)
    requires Valid(s)
    requires png.Some? ==> WellFormedPng(png.value)
    requires grab.Some? ==> png.Some? && |grab.value| == SurfaceSize(bitsPerPixel, png.value)
    ensures var r := SetIcon(s, st, filename, home, bitsPerPixel, png, grab);
            r.Success? && grab.Some? ==>
              r.value.0.image == Composite(r.value.0.g, Underlay(r.value.0.(image := grab.value), st),
                                           png.value.pixels, DrawOp(s.fading))
  {
    var s1 := s.(icon := SetImage(s.icon, filename, home));
    LoadIconValid(s1, st, bitsPerPixel, png);
    var l := LoadIcon(s1, st, bitsPerPixel, png);
    if l.Success? && grab.Some? {
      var s2 := l.value.(invalid := true);
      DrawRegrabComposites(s2, st, true, grab);
    }
  }

  /** `invalidate`: the next draw grabs the background again, even without
      a refresh. */
  lemma InvalidateForcesGrab(s: Slot, st: Settings.Settings, grab: Option<seq<byte>>)
    requires Valid(s)
    requires grab.Some? ==> |grab.value| == |s.image|
    ensures var r := Draw(s.(invalid := true), st, false, grab).0;
            (grab.Some? && s.visibility == VisibilityUnobscured ==> !r.invalid && r.background == grab.value) &&
            (grab.None? || s.visibility != VisibilityUnobscured ==> r.invalid && r.background == s.background)
  {
  }
}

=== FILE: window_manager.dfy ===
/** `WindowManager`: reading window properties, enumerating the client list,
    resolving a title pattern to a window with a small pattern→window cache,
    and activating a window (switching desktop first when needed).

    The X server is an oracle: which windows exist, and which properties they
    carry.  A property read follows `XGetWindowProperty`: a bad window fails,
    a missing property comes back with type None, a property of another type
    comes back with its own type and no data. */
module WindowManager {
  import opened Base
  import Pattern
  import opened Effects

  type Window = nat   // an X resource id; 0 is None
  type Atom = nat

  const AtomNone: Atom := 0
  const XA_CARDINAL: Atom := 6
  const XA_STRING: Atom := 31
  const XA_WINDOW: Atom := 33

  datatype Stored<T> = Stored(kind: Atom, items: seq<T>)

  /** What the X server holds.  `utf8String` is the atom interned for
      "UTF8_STRING". */
  datatype Server = Server(
    root: Window,
    valid: set<Window>,
    numeric: map<(Window, string), Stored<nat>>,
    text: map<(Window, string), Stored<char>>,
    utf8String: Atom)

  /** Result of `XGetWindowProperty`: non-Success, or Success with the
      property's actual type and its items. */
  datatype Reply<T> = Failed | Returned(kind: Atom, items: seq<T>)

  function Query<T>(stored: map<(Window, string), Stored<T>>, valid: set<Window>,
                    w: Window, name: string, requested: Atom): Reply<T>
  {
    if w !in valid then Failed
    else if (w, name) !in stored then Returned(AtomNone, [])
    else if stored[(w, name)].kind != requested then Returned(stored[(w, name)].kind, [])
    else Returned(requested, stored[(w, name)].items)
  }

  /** The server holds property `name` on window `w` with type `kind`. */
  predicate Holds<T>(stored: map<(Window, string), Stored<T>>, valid: set<Window>, w: Window, name: string, kind: Atom) {
    w in valid && (w, name) in stored && stored[(w, name)].kind == kind
  }

  /** `isValid`: XGetWindowAttributes succeeds. */
  predicate IsValid(srv: Server, w: Window) {
    w != 0 && w in srv.valid
  }

  // ---------------------------------------------------------------------
  // Property<T>

  /** `Property<T>`: the data it holds after the last read, if any. */
  datatype Property<T> = Property(data: Option<seq<T>>)

  /** `Property::getProperty`: drops the held data, then keeps the reply's
      items only when the request succeeded with the requested type. */
  function GetProperty<T>(p: Property<T>, reply: Reply<T>, requested: Atom): (r: (bool, Property<T>))
    ensures r.0 <==> reply.Returned? && reply.kind == requested
    ensures r.0 ==> r.1.data == Some(reply.items)
    ensures !r.0 ==> r.1.data == None
  {
    var freed := Property(None);
    if reply.Failed? then (false, freed)
    else if reply.kind != requested then (false, freed)
    else (true, Property(Some(reply.items)))
  }

  /** The data held before a read never influences its outcome. */
  lemma GetPropertyForgetsPreviousData<T>(p: Property<T>, q: Property<T>, reply: Reply<T>, requested: Atom)
    ensures GetProperty(p, reply, requested) == GetProperty(q, reply, requested)
  {
  }

  function ReadNumeric(srv: Server, p: Property<nat>, w: Window, name: string, kind: Atom): (bool, Property<nat>) {
    GetProperty(p, Query(srv.numeric, srv.valid, w, name, kind), kind)
  }

  function ReadText(srv: Server, p: Property<char>, w: Window, name: string, kind: Atom): (bool, Property<char>) {
    GetProperty(p, Query(srv.text, srv.valid, w, name, kind), kind)
  }

  /** `*p.getData()` on a numeric property.  An empty item list would be read
      past its end in C; the model reads 0 there. */
  function FirstItem(items: seq<nat>): nat {
    if |items| > 0 then items[0] else 0
  }

  // ---------------------------------------------------------------------
  // WindowList

  /** `WindowList`: the client list and the number of items not yet fetched. */
  datatype WindowList = WindowList(items: seq<Window>, remaining: nat)

  predicate WellFormedList(l: WindowList) {
    l.remaining <= |l.items|
  }

  function NewWindowList(p: Property<Window>): (l: WindowList)
    ensures WellFormedList(l) && l.remaining == |l.items|
    ensures l.items == (if p.data.Some? then p.data.value else [])
  {
    var items := if p.data.Some? then p.data.value else [];
    WindowList(items, |items|)
  }

  /** `WindowList::fetch`: the item below the remaining count, or 0 once the
      list is exhausted. The source's unsigned counter wraps on that call;
      the model keeps it at 0, since the only caller stops at the first 0. */
  function Fetch(l: WindowList): (r: (Window, WindowList))
    requires WellFormedList(l)
    ensures WellFormedList(r.1) && r.1.items == l.items
    ensures l.remaining == 0 ==> r.0 == 0 && r.1.remaining == 0
    ensures l.remaining > 0 ==> r.0 == l.items[l.remaining - 1] && r.1.remaining == l.remaining - 1
  {
    if l.remaining == 0 then (0, l)
    else (l.items[l.remaining - 1], l.(remaining := l.remaining - 1))
  }

  /** `WindowList::count`: the total number of items, fetched or not. */
  function Count(l: WindowList): nat {
    |l.items|
  }

  lemma FetchKeepsCount(l: WindowList)
    requires WellFormedList(l)
    ensures Count(Fetch(l).1) == Count(l)
  {
  }

  /** The windows `for (; (w = list.fetch()); )` visits. */
  function Enumerate(l: WindowList): (ws: seq<Window>)
    requires WellFormedList(l)
    decreases l.remaining
    ensures |ws| <= l.remaining
    ensures forall i :: 0 <= i < |ws| ==> ws[i] == l.items[l.remaining - 1 - i] && ws[i] != 0
    ensures |ws| == l.remaining || l.items[l.remaining - 1 - |ws|] == 0
  {
    var (w, rest) := Fetch(l);
    if w == 0 then [] else [w] + Enumerate(rest)
  }

  // ---------------------------------------------------------------------
  // Queries on the server

  /** `getWindowTitle`: WM_NAME as STRING, else _NET_WM_NAME as UTF8_STRING,
      else the empty title; the C string ends at the first NUL. */
  function WindowTitle(srv: Server, w: Window): (t: string)
    ensures NulFree(t)
    ensures Holds(srv.text, srv.valid, w, "WM_NAME", XA_STRING) ==>
              t == CString(srv.text[(w, "WM_NAME")].items)
    ensures (!Holds(srv.text, srv.valid, w, "WM_NAME", XA_STRING) &&
             Holds(srv.text, srv.valid, w, "_NET_WM_NAME", srv.utf8String)) ==>
              t == CString(srv.text[(w, "_NET_WM_NAME")].items)
    ensures (!Holds(srv.text, srv.valid, w, "WM_NAME", XA_STRING) &&
             !Holds(srv.text, srv.valid, w, "_NET_WM_NAME", srv.utf8String)) ==> t == ""
  {
    var (ok, p) := ReadText(srv, Property(None), w, "WM_NAME", XA_STRING);
    if ok then CString(p.data.value)
    else
      var (ok2, p2) := ReadText(srv, p, w, "_NET_WM_NAME", srv.utf8String);
      if ok2 then CString(p2.data.value) else ""
  }

  /** `getClientList`: _NET_CLIENT_LIST as WINDOW, else _WIN_CLIENT_LIST as
      CARDINAL, else an empty list. */
  function ClientList(srv: Server): (l: WindowList)
    ensures WellFormedList(l) && l.remaining == |l.items|
    ensures Holds(srv.numeric, srv.valid, srv.root, "_NET_CLIENT_LIST", XA_WINDOW) ==>
              l.items == srv.numeric[(srv.root, "_NET_CLIENT_LIST")].items
    ensures (!Holds(srv.numeric, srv.valid, srv.root, "_NET_CLIENT_LIST", XA_WINDOW) &&
             Holds(srv.numeric, srv.valid, srv.root, "_WIN_CLIENT_LIST", XA_CARDINAL)) ==>
              l.items == srv.numeric[(srv.root, "_WIN_CLIENT_LIST")].items
    ensures (!Holds(srv.numeric, srv.valid, srv.root, "_NET_CLIENT_LIST", XA_WINDOW) &&
             !Holds(srv.numeric, srv.valid, srv.root, "_WIN_CLIENT_LIST", XA_CARDINAL)) ==> l.items == []
  {
    var (ok, p) := ReadNumeric(srv, Property(None), srv.root, "_NET_CLIENT_LIST", XA_WINDOW);
    if ok then NewWindowList(p)
    else
      var (_, p2) := ReadNumeric(srv, p, srv.root, "_WIN_CLIENT_LIST", XA_CARDINAL);
      NewWindowList(p2)
  }

  /** `getActiveWindow`: _NET_ACTIVE_WINDOW of the root, or 0. */
  function ActiveWindow(srv: Server): (w: Window)
    ensures Holds(srv.numeric, srv.valid, srv.root, "_NET_ACTIVE_WINDOW", XA_WINDOW) ==>
              w == FirstItem(srv.numeric[(srv.root, "_NET_ACTIVE_WINDOW")].items)
    ensures !Holds(srv.numeric, srv.valid, srv.root, "_NET_ACTIVE_WINDOW", XA_WINDOW) ==> w == 0
  {
    var (ok, p) := ReadNumeric(srv, Property(None), srv.root, "_NET_ACTIVE_WINDOW", XA_WINDOW);
    if ok then FirstItem(p.data.value) else 0
  }

  /** A CARDINAL read from `w` under `first`, falling back to `second`. */
  function ReadCardinal(srv: Server, w: Window, first: string, second: string): (r: Option<nat>)
    ensures r.Some? <==>
              ReadNumeric(srv, Property(None), w, first, XA_CARDINAL).0 ||
              ReadNumeric(srv, Property(None), w, second, XA_CARDINAL).0
  {
    var (ok, p) := ReadNumeric(srv, Property(None), w, first, XA_CARDINAL);
    if ok then Some(FirstItem(p.data.value))
    else
      var (ok2, p2) := ReadNumeric(srv, p, w, second, XA_CARDINAL);
      if ok2 then Some(FirstItem(p2.data.value)) else None
  }

  function WindowDesktop(srv: Server, w: Window): Option<nat> {
    ReadCardinal(srv, w, "_NET_WM_DESKTOP", "_WIN_WORKSPACE")
  }

  function CurrentDesktop(srv: Server): Option<nat> {
    ReadCardinal(srv, srv.root, "_NET_CURRENT_DESKTOP", "_WIN_WORKSPACE")
  }

  /** `activateWindow`: switch to the window's desktop when both the window's
      and the current desktop are known and differ, then activate and raise
      the window. */
  function ActivateWindow(srv: Server, w: Window): (es: seq<Effect>)
    ensures |es| >= 1 && es[|es| - 1] == Activate(w)
    ensures |es| == 2 <==>
              WindowDesktop(srv, w).Some? && CurrentDesktop(srv).Some? &&
              WindowDesktop(srv, w).value != CurrentDesktop(srv).value
    ensures |es| == 2 ==> es[0] == SwitchDesktop(WindowDesktop(srv, w).value)
    ensures |es| <= 2
  {
    var ws := WindowDesktop(srv, w);
    var switch := if ws.Some? then
                    var cur := CurrentDesktop(srv);
                    if cur.Some? && ws.value != cur.value then [SwitchDesktop(ws.value)] else []
                  else [];
    switch + [Activate(w)]
  }

  // ---------------------------------------------------------------------
  // The pattern cache

  /** `PatternWindowCache`: the pattern is set once; only the window changes. */
  datatype CacheEntry = CacheEntry(pattern: string, window: Window)

  type Cache = seq<CacheEntry>

  predicate UniquePatterns(c: Cache) {
    forall i, j :: 0 <= i < j < |c| ==> c[i].pattern != c[j].pattern
  }

  /** Index of the first entry for `pattern`. */
  function FindEntry(c: Cache, pattern: string): (r: Option<nat>)
    ensures r.Some? ==> r.value < |c| && c[r.value].pattern == pattern
    ensures r.Some? ==> forall k :: 0 <= k < r.value ==> c[k].pattern != pattern
    ensures r.None? ==> forall k :: 0 <= k < |c| ==> c[k].pattern != pattern
  {
    if |c| == 0 then None
    else if c[0].pattern == pattern then Some(0)
    else match FindEntry(c[1..], pattern)
      case None => None
      case Some(i) => Some(i + 1)
  }

  /** `updateCache`: rebind the entry of `pattern` in place, or append one. */
  function UpdateCache(c: Cache, pattern: string, w: Window): (r: Cache)
    ensures FindEntry(c, pattern).Some? ==>
              r == c[FindEntry(c, pattern).value := CacheEntry(pattern, w)]
    ensures FindEntry(c, pattern).None? ==> r == c + [CacheEntry(pattern, w)]
  {
    match FindEntry(c, pattern)
    case Some(i) => c[i := c[i].(window := w)]
    case None => c + [CacheEntry(pattern, w)]
  }

  /** After an update the pattern is bound to the new window, every other
      pattern keeps its binding, and patterns stay unique. */
  lemma UpdateCacheBinds(c: Cache, pattern: string, w: Window, other: string)
    requires other != pattern
    ensures FindEntry(UpdateCache(c, pattern, w), pattern).Some?
    ensures var r := UpdateCache(c, pattern, w);
            r[FindEntry(r, pattern).value] == CacheEntry(pattern, w)
    ensures var r := UpdateCache(c, pattern, w);
            FindEntry(r, other) == FindEntry(c, other) &&
            (FindEntry(c, other).Some? ==> r[FindEntry(r, other).value] == c[FindEntry(c, other).value])
    ensures UniquePatterns(c) ==> UniquePatterns(UpdateCache(c, pattern, w))
    ensures |UpdateCache(c, pattern, w)| <= |c| + 1
  {
    var r := UpdateCache(c, pattern, w);
    match FindEntry(c, pattern)
    case Some(i) =>
      assert r[i] == CacheEntry(pattern, w);
      FindEntryAgrees(c, r, pattern, i);
      FindEntryOther(c, r, other, i);
    case None =>
      assert r[|c|] == CacheEntry(pattern, w);
      FindEntryAgrees(c, r, pattern, |c|);
      FindEntryAppend(c, r, other);
  }

  lemma FindEntryAgrees(c: Cache, r: Cache, pattern: string, i: nat)
    requires i < |r| && r[i].pattern == pattern
    requires forall k :: 0 <= k < i ==> r[k].pattern != pattern
    ensures FindEntry(r, pattern) == Some(i)
  {
    var f := FindEntry(r, pattern);
    assert f.Some?;
  }

  lemma FindEntryOther(c: Cache, r: Cache, other: string, i: nat)
    requires i < |c| && |r| == |c| && r[i].pattern == c[i].pattern && c[i].pattern != other
    requires forall k :: 0 <= k < |c| && k != i ==> r[k] == c[k]
    ensures FindEntry(r, other) == FindEntry(c, other)
    ensures FindEntry(c, other).Some? ==> r[FindEntry(c, other).value] == c[FindEntry(c, other).value]
  {
    var f := FindEntry(c, other);
    var g := FindEntry(r, other);
    if f.Some? {
      assert g.Some? && g.value == f.value;
    } else {
      assert forall k :: 0 <= k < |r| ==> r[k].pattern == c[k].pattern;
    }
  }

  lemma FindEntryAppend(c: Cache, r: Cache, other: string)
    requires |r| == |c| + 1 && r[..|c|] == c && r[|c|].pattern != other
    ensures FindEntry(r, other) == FindEntry(c, other)
    ensures FindEntry(c, other).Some? ==> r[FindEntry(c, other).value] == c[FindEntry(c, other).value]
  {
    assert forall k :: 0 <= k < |c| ==> r[k] == c[k];
    var f := FindEntry(c, other);
    var g := FindEntry(r, other);
    if f.Some? {
      assert g.Some? && g.value == f.value;
    }
  }

  /** `vector::erase(first, last)`. */
  function EraseRange(c: Cache, first: nat, last: nat): Cache
    requires first <= last <= |c|
  {
    c[..first] + c[last..]
  }

  /** `peekCache`: the cached window when it is still valid; 0 otherwise.
      A stale entry is "erased" with `erase(it, it)`, an empty range, so the
      cache comes back unchanged. */
  function PeekCache(c: Cache, srv: Server, pattern: string): (r: (Window, Cache))
    ensures r.1 == c
    ensures r.0 != 0 <==> FindEntry(c, pattern).Some? && IsValid(srv, c[FindEntry(c, pattern).value].window)
    ensures r.0 != 0 ==> r.0 == c[FindEntry(c, pattern).value].window
  {
    match FindEntry(c, pattern)
    case None => (0, c)
    case Some(i) =>
      if !IsValid(srv, c[i].window) then
        assert EraseRange(c, i, i) == c;
        (0, EraseRange(c, i, i))
      else (c[i].window, c)
  }

  // ---------------------------------------------------------------------
  // Lookup by title pattern

  predicate Fits(srv: Server, w: Window, pattern: string, cs: bool) {
    IsValid(srv, w) && Pattern.Matches(WindowTitle(srv, w), pattern, cs)
  }

  /** Position of the first element of `ws` that satisfies `p`. */
  function FirstWhere<T>(ws: seq<T>, p: T -> bool): (r: Option<nat>)
    ensures r.Some? ==> r.value < |ws| && p(ws[r.value])
    ensures r.Some? ==> forall k :: 0 <= k < r.value ==> !p(ws[k])
    ensures r.None? ==> forall k :: 0 <= k < |ws| ==> !p(ws[k])
  {
    if |ws| == 0 then None
    else if p(ws[0]) then Some(0)
    else match FirstWhere(ws[1..], p)
      case None => None
      case Some(i) => Some(i + 1)
  }

  /** Position of the first window of `ws` that is valid and whose title
      matches. */
  function FirstFit(ws: seq<Window>, srv: Server, pattern: string, cs: bool): (r: Option<nat>)
    ensures r.Some? ==> r.value < |ws| && Fits(srv, ws[r.value], pattern, cs)
    ensures r.Some? ==> forall k :: 0 <= k < r.value ==> !Fits(srv, ws[k], pattern, cs)
    ensures r.None? ==> forall k :: 0 <= k < |ws| ==> !Fits(srv, ws[k], pattern, cs)
  {
    FirstWhere(ws, w => Fits(srv, w, pattern, cs))
  }

  /** The first fitting window is the head, or one past the first fitting
      window of the tail. */
  lemma FirstFitStep(ws: seq<Window>, srv: Server, pattern: string, cs: bool)
    requires |ws| > 0
    ensures Fits(srv, ws[0], pattern, cs) ==> FirstFit(ws, srv, pattern, cs) == Some(0)
    ensures !Fits(srv, ws[0], pattern, cs) && FirstFit(ws[1..], srv, pattern, cs).None? ==>
              FirstFit(ws, srv, pattern, cs).None?
    ensures !Fits(srv, ws[0], pattern, cs) && FirstFit(ws[1..], srv, pattern, cs).Some? ==>
              FirstFit(ws, srv, pattern, cs) == Some(FirstFit(ws[1..], srv, pattern, cs).value + 1)
  {
    var p := w => Fits(srv, w, pattern, cs);
    assert FirstFit(ws, srv, pattern, cs) == FirstWhere(ws, p);
    assert FirstFit(ws[1..], srv, pattern, cs) == FirstWhere(ws[1..], p);
  }

  /** The `fetch` loop of `getWindowFromName`. */
  function Scan(l: WindowList, srv: Server, pattern: string, cs: bool): (w: Window)
    requires WellFormedList(l)
    decreases l.remaining
    ensures var f := FirstFit(Enumerate(l), srv, pattern, cs);
            if f.Some? then w == Enumerate(l)[f.value] else w == 0
  {
    var (w, rest) := Fetch(l);
    var e := Enumerate(l);
    if w == 0 then
      assert e == [];
      0
    else
      assert e == [w] + Enumerate(rest);
      assert e[0] == w && e[1..] == Enumerate(rest);
      FirstFitStep(e, srv, pattern, cs);
      if IsValid(srv, w) && Pattern.Matches(WindowTitle(srv, w), pattern, cs) then w
      else Scan(rest, srv, pattern, cs)
  }

  /** `getWindowFromName`: a valid cached window, else the first valid window
      in fetch order whose title matches (which is then cached), else 0.
      Matching is case-insensitive unless asked otherwise. */
  function GetWindowFromName(c: Cache, srv: Server, pattern: string, cs: bool := false): (r: (Window, Cache))
    ensures r.0 != 0 ==> IsValid(srv, r.0)
    ensures PeekCache(c, srv, pattern).0 != 0 ==> r == (PeekCache(c, srv, pattern).0, c)
    ensures PeekCache(c, srv, pattern).0 == 0 ==>
              var e := Enumerate(ClientList(srv));
              var f := FirstFit(e, srv, pattern, cs);
              (f.None? ==> r == (0, c)) &&
              (f.Some? ==> r == (e[f.value], UpdateCache(c, pattern, e[f.value])))
  {
    var (hit, c1) := PeekCache(c, srv, pattern);
    if hit != 0 then (hit, c1)
    else
      var list := ClientList(srv);
      if Count(list) == 0 then (0, c1)
      else
        var w := Scan(list, srv, pattern, cs);
        if w != 0 then (w, UpdateCache(c1, pattern, w)) else (0, c1)
  }

  /** A window found by a lookup is found again by the next lookup of the same
      pattern, straight from the cache, as long as it stays valid. */
  lemma LookupIsStable(c: Cache, srv: Server, pattern: string, cs: bool)
    requires GetWindowFromName(c, srv, pattern, cs).0 != 0
    ensures var (w, c1) := GetWindowFromName(c, srv, pattern, cs);
            PeekCache(c1, srv, pattern).0 == w &&
            GetWindowFromName(c1, srv, pattern, cs) == (w, c1)
  {
    var (w, c1) := GetWindowFromName(c, srv, pattern, cs);
    if PeekCache(c, srv, pattern).0 == 0 {
      UpdateCacheBinds(c, pattern, w, pattern + "*");
    }
  }

  /** A cache hit does not depend on the client list or on any title: only
      on the validity of the cached window. */
  lemma CacheHitIgnoresClientList(c: Cache, srv: Server, srv2: Server, pattern: string, cs: bool)
    requires srv2.valid == srv.valid
    requires PeekCache(c, srv, pattern).0 != 0
    ensures GetWindowFromName(c, srv2, pattern, cs) == GetWindowFromName(c, srv, pattern, cs)
  {
  }

  /** A stale entry behaves like a miss, and the cache never gains a second
      entry for a pattern. */
  lemma LookupKeepsPatternsUnique(c: Cache, srv: Server, pattern: string, cs: bool)
    requires UniquePatterns(c)
    ensures UniquePatterns(GetWindowFromName(c, srv, pattern, cs).1)
    ensures FindEntry(c, pattern).Some? ==> |GetWindowFromName(c, srv, pattern, cs).1| == |c|
  {
    var r := GetWindowFromName(c, srv, pattern, cs);
    if r.0 != 0 && PeekCache(c, srv, pattern).0 == 0 {
      UpdateCacheBinds(c, pattern, r.0, pattern + "*");
    }
  }

  /** An empty or missing client list resolves nothing that is not cached. */
  lemma EmptyClientListFindsNothing(c: Cache, srv: Server, pattern: string, cs: bool)
    requires PeekCache(c, srv, pattern).0 == 0
    requires Count(ClientList(srv)) == 0
    ensures GetWindowFromName(c, srv, pattern, cs) == (0, c)
  {
  }
}
